=== FILE: README.md ===
# A verified model of the model viewer's core

The viewer loads an FBX model and shows it as a wireframe over an optional
textured pass. It can use one of several renderer backends: Direct3D 12 or
Vulkan through SDL, SDL's software renderer, or a native Direct3D 12 renderer.
This project models the viewer's core in Dafny and proves properties about it:

- **Models** (`model_data.dfy`): the model record and its validity test.
- **BackendSelection** (`backend_selection.dfy`): parsing `ENGINE_RENDERER`
  without regard to case, the order in which backends are tried, and the
  backend names.
- **FbxLoader** (`fbx_loader.dfy`): building the model from an imported
  scene. This covers the shared position, texture-coordinate and index
  buffers, the interning of texture paths, one submesh record per mesh, the
  animation clips, and the final "no triangle geometry" check. The importer
  library is replaced by an abstract scene value.
- **Viewing**, **SdlRenderer** (`viewing.dfy`, `sdl_renderer.dfy`): the SDL
  renderer object and its wireframe pass. A triangle is drawn only when all
  three of its vertices are in front of the eye.
- **NativeWire** (`native_wire.dfy`): the line pass of the native Direct3D 12
  renderer, which filters edge by edge.
- **SrvDescriptors**, **VertexBuffers**, **TextureCache**,
  **TexturedTriangles**, **DrawOrder**, **Batching** (`srv_descriptors.dfy`,
  `vertex_buffers.dfy`, `texture_cache.dfy`, `textured_triangles.dfy`,
  `draw_order.dfy`, `batching.dfy`): the native renderer's bookkeeping. That
  is the shader-resource-view (SRV) descriptor allocator with its LIFO free
  list, vertex-buffer growth with 32-bit wrap-around, the model-texture cache
  and its alpha scan, the transparency classification of submeshes, the
  sort's comparator, and the batching into draw calls.
- **NativeRenderer** (`native_renderer.dfy`): the `NativeDx12Renderer` class.
  It holds the mutable state: allocator, buffers, cache, per-frame fence
  values and fence counter. Its methods update that state in place.
- **Application** (`application.dfy`): the application shell. This covers the
  `CreateRenderer` attempt loop with its status messages, the
  `ENGINE_NATIVE_DX12` test, animation stepping and playback wrap-around, and
  the blank-frame detector that falls back to the software renderer.

Everything Direct3D, SDL, the operating system or the importer reports arrives
as a parameter. Examples are whether a resource was created, the decoded image
pixels, the back-buffer index, the window size, and the result of each
renderer's `Initialize`. Floating-point values are modelled as `real`.
Unsigned 32-bit counters are modelled as `nat`, with wrap-around written out
where the source can wrap.

Three behaviours of the code are easy to miss, and the model keeps them as written:

- A texture that fails to decode is not remembered as failed. The cache stays
  short of the model's path list, so the reload is attempted again on every
  frame.
- When the last texture fails after decoding, its path is already recorded.
  The next call then reports a cache hit, so that texture is never retried.
  `TextureCache.LateFailureOnLastPathIsCached` states this.
- In automatic mode, a Direct3D 12 renderer that starts leaves the status
  message unchanged. The code assigns a status only for Vulkan, for software
  and for a forced backend.

## Model

Paths in the source column are relative to the repository root.

| member | source | states |
|---|---|---|
| Models.ValidIffGeometry | src/Engine/include/Engine/ModelData.hpp:42-44 | a model is valid exactly when it has at least one position and at least one index |
| Models.IsValid | src/Engine/include/Engine/ModelData.hpp:42-44 | the validity test; `ValidIffGeometry` states it: at least one position and at least one index |
| Models.ValidityIgnoresAttributes | src/Engine/include/Engine/ModelData.hpp:42-44 | validity depends on the position and index buffers only; texture coordinates, paths, submeshes and clips do not matter |
| Models.ValidityExamples | tests/unit/ModelDataTests.cpp:6-44 | the four unit-test cases: an empty model, positions only, and indices only are invalid; one triangle is valid |
| Models.TriangleCount | src/Engine/src/SdlRendererBase.cpp:104-105 | the stride-3 walk `index + 2 < indexCount` visits exactly the slots that hold a whole triangle; one or two trailing indices form none |
| Models.Clamp01 | src/Engine/src/FbxLoader.cpp:209 | the clamped opacity lies in [0, 1]: a value below 0 gives 0, a value above 1 gives 1, and a value already in the range is kept |
| BackendSelection.RendererBackendName | src/Engine/src/RendererBackendSelection.cpp:45-56 | round trip: each backend's name parses back to that backend |
| BackendSelection.ParseRendererBackend | src/Engine/src/RendererBackendSelection.cpp:8-31 | the parser; `ParseSomeIff`, `ParseNoneIff` and `ParseIgnoresCase` state which strings name which backend |
| BackendSelection.BuildRendererAttemptOrder | src/Engine/src/RendererBackendSelection.cpp:33-43 | the attempt order; `AutomaticOrder` and `ForcedOrder` state it |
| BackendSelection.ParseSomeIff | src/Engine/src/RendererBackendSelection.cpp:8-31 | a value parses to backend b exactly when its lower-cased form is b's name |
| BackendSelection.ParseIgnoresCase | src/Engine/src/RendererBackendSelection.cpp:9-12 | values that differ only in ASCII letter case parse alike |
| BackendSelection.ParseAnyCasingOfName | src/Engine/src/RendererBackendSelection.cpp:8-31 | every casing of a backend name selects that backend |
| BackendSelection.ParseNoneIff | src/Engine/src/RendererBackendSelection.cpp:14-30 | parsing gives "none" exactly for the empty value and for values that match no backend name in any casing |
| BackendSelection.ParseExamples | tests/unit/RendererBackendSelectionTests.cpp:11-37 | the unit-test values: "", "DX12", "VuLkAn", "software" and "metal" |
| BackendSelection.AutomaticOrder | src/Engine/src/RendererBackendSelection.cpp:38-42 | with no request the order is dx12, vulkan, software, and each backend appears exactly once |
| BackendSelection.ForcedOrder | src/Engine/src/RendererBackendSelection.cpp:34-36 | a requested backend is the only one tried |
| Viewing.ClampDistance | src/Engine/src/SdlRendererBase.cpp:81 | the camera distance is clamped into [1, 20]; values inside are kept, and values outside go to the nearer bound |
| Viewing.CameraFor | src/Engine/src/SdlRendererBase.cpp:80-94 | the camera's distance is `ClampDistance` of the requested one, so it lies in [1, 20]; the yaw, pitch and roll pass through unchanged; its aspect ratio times the height is the width |
| SdlRenderer.ProjectVertex | src/Engine/src/SdlRendererBase.cpp:17-27 | a vertex is valid exactly when clip w > 0.0001; an invalid vertex is (0, 0); an on-screen NDC coordinate maps into [0, width] x [0, height] |
| SdlRenderer.ScreenCoordinate | src/Engine/src/SdlRendererBase.cpp:24-25 | a fraction in [0, 1] of the viewport extent lies within that extent |
| SdlRenderer.SdlLinesStep | src/Engine/src/SdlRendererBase.cpp:105-125 | each triangle adds three lines when it is kept, and nothing otherwise |
| SdlRenderer.SdlLines | src/Engine/src/SdlRendererBase.cpp:104-125 | the lines of the first t triangles; `SdlLinesStep`, `SdlLinesPerTriangle` and `InvalidVertexDropsTriangle` state what each triangle contributes |
| SdlRenderer.SdlLinesPerTriangle | src/Engine/src/SdlRendererBase.cpp:105-125 | the number of lines drawn is three times the number of kept triangles |
| SdlRenderer.SdlLinesPrefix | src/Engine/src/SdlRendererBase.cpp:105-108 | indices after a triangle's slot do not affect what is drawn for it |
| SdlRenderer.TrailingIndicesIgnored | src/Engine/src/SdlRendererBase.cpp:104-105 | one or two indices after the last whole triangle draw nothing |
| SdlRenderer.AllTrianglesDrawnWhenVisible | src/Engine/src/SdlRendererBase.cpp:110-124 | when every index is in range and every vertex is valid, each triangle draws all three edges |
| SdlRenderer.InvalidVertexDropsTriangle | src/Engine/src/SdlRendererBase.cpp:118-120 | a triangle with any vertex behind the eye draws none of its edges |
| SdlRenderer.SdlRendererBase.constructor | src/Engine/src/SdlRendererBase.cpp:30-31 | keeps the hint and display name, and starts without a renderer |
| SdlRenderer.SdlRendererBase.Initialize | src/Engine/src/SdlRendererBase.cpp:37-50 | a rejected hint fails with its fixed message and changes nothing; otherwise the created handle is kept, and a null handle fails with SDL's error text |
| SdlRenderer.SdlRendererBase.Shutdown | src/Engine/src/SdlRendererBase.cpp:52-57 | a live renderer is destroyed exactly once and forgotten; shutting down again does nothing |
| SdlRenderer.SdlRendererBase.RenderModelWireframe | src/Engine/src/SdlRendererBase.cpp:68-126 | nothing is drawn without a renderer, for an invalid model, or for a viewport of 1 pixel or less; otherwise the lines are exactly those of the kept triangles, in index order |
| NativeWire.ProjectToNdc | src/Engine/src/NativeDx12Renderer.cpp:59-67 | a vertex is valid exactly when w > 0.0001; an invalid vertex is all zeros; a valid one is the perspective divide of the clip coordinates |
| NativeWire.EdgeVertices | src/Engine/src/NativeDx12Renderer.cpp:69-81 | an edge yields two vertices when both endpoints are valid, and none otherwise |
| NativeWire.AddLine | src/Engine/src/NativeDx12Renderer.cpp:69-81 | appends exactly the edge's vertices |
| NativeWire.NativeLinesStep | src/Engine/src/NativeDx12Renderer.cpp:1534-1546 | an in-range triangle adds its three edges, each filtered on its own; an out-of-range triangle adds nothing |
| NativeWire.NativeLines | src/Engine/src/NativeDx12Renderer.cpp:1533-1546 | the line vertices of the first t triangles; `NativeLinesStep`, `NativeLinesBound` and `EdgeFilteringDiffersFromSdl` state what each triangle contributes |
| NativeWire.NativeLinesGrowth | src/Engine/src/NativeDx12Renderer.cpp:1538-1544 | one triangle adds an even number of line vertices, at most six |
| NativeWire.NativeLinesBound | src/Engine/src/NativeDx12Renderer.cpp:1526-1546 | line vertices come in pairs, with at most six per triangle and at most two per index (the size the buffer reserves) |
| NativeWire.NativeLinesAllVisible | src/Engine/src/NativeDx12Renderer.cpp:1534-1546 | when every index is in range and every vertex is valid, each triangle yields all six vertices |
| NativeWire.SameValidity | src/Engine/src/NativeDx12Renderer.cpp:61-63 | the SDL projection and the native projection agree on which vertices are valid |
| NativeWire.EdgeFilteringDiffersFromSdl | src/Engine/src/NativeDx12Renderer.cpp:1538-1544 | for a triangle with one vertex behind the eye, the SDL path draws nothing while the native path still draws the edge between the other two |
| NativeWire.AddTriangleLines | src/Engine/src/NativeDx12Renderer.cpp:1542-1544 | the three AddLine calls append the edges 0-1, 1-2 and 2-0 |
| NativeWire.BuildLineVertices | src/Engine/src/NativeDx12Renderer.cpp:1533-1546 | the line loop yields exactly the line vertices of every whole triangle; their count is even and at most twice the index count |
| NativeWire.AddTriangleAt | src/Engine/src/NativeDx12Renderer.cpp:1535-1544 | one pass of the line loop extends the lines of the first t triangles to those of the first t + 1 |
| SrvDescriptors.Allocate | src/Engine/src/NativeDx12Renderer.cpp:1378-1400 | a failed allocation leaves the allocator unchanged |
| SrvDescriptors.InHeapPreserved | src/Engine/src/NativeDx12Renderer.cpp:1378-1418 | allocating and freeing keep every held slot below 64, and an allocated slot is below 64 |
| SrvDescriptors.AllocationFailure | src/Engine/src/NativeDx12Renderer.cpp:1379-1390 | allocation fails exactly without a usable heap, or when the free list is empty and all fresh slots have been used |
| SrvDescriptors.HandleRoundTrip | src/Engine/src/NativeDx12Renderer.cpp:1408-1416 | freeing the CPU handle of a slot returns that same slot |
| SrvDescriptors.AllocFreeAlloc | src/Engine/src/NativeDx12Renderer.cpp:1384-1386 | the free list is LIFO: allocating, freeing and allocating again returns the same slot and state |
| SrvDescriptors.InitialWellFormed | src/Engine/src/NativeDx12Renderer.cpp:269-270 | the initial allocator is well formed, with no slot in use |
| SrvDescriptors.AllocateTakesFreeSlot | src/Engine/src/NativeDx12Renderer.cpp:1383-1392 | an allocation returns a slot that is not in use and is not the font's slot 0, and adds exactly that slot to the set in use |
| SrvDescriptors.FreeReturnsSlot | src/Engine/src/NativeDx12Renderer.cpp:1402-1418 | freeing a used slot's handle removes exactly that slot from the set in use |
| SrvDescriptors.FreedIndex | src/Engine/src/NativeDx12Renderer.cpp:1404-1416 | the slot a handle names: none for an unusable heap, a null handle, a handle below the heap start or an index past the heap; `HandleRoundTrip` states that an allocated handle names its own slot |
| SrvDescriptors.Free | src/Engine/src/NativeDx12Renderer.cpp:1402-1418 | the allocator after a free: the named slot is pushed onto the free list, and an unnamed one changes nothing; `FreeReturnsSlot` and `AllocFreeAlloc` state its effect |
| SrvDescriptors.InUseCount | src/Engine/src/NativeDx12Renderer.cpp:1384-1392 | the slots in use plus those on the free list are exactly the slots the bump index has passed |
| SrvDescriptors.ExhaustedIffAllInUse | src/Engine/src/NativeDx12Renderer.cpp:1388-1390 | with a usable heap, allocation fails exactly when all 63 texture slots are in use |
| VertexBuffers.GrownCapacity | src/Engine/src/NativeDx12Renderer.cpp:770 | the new capacity holds the request, fits a UINT, and grows by at least 8192 when no wrap occurs |
| VertexBuffers.EnsureCapacitySpec | src/Engine/src/NativeDx12Renderer.cpp:761-807 | success means the request fits; failure happens only when a needed creation failed, and then nothing changes; capacity never shrinks, and it strictly grows when the buffer is recreated |
| VertexBuffers.EnsureCapacity | src/Engine/src/NativeDx12Renderer.cpp:761-807 | the growth rule; `EnsureCapacitySpec`, `EnsureCapacityIdempotent` and `WrapStillGrows` state it |
| VertexBuffers.EnsureCapacityIdempotent | src/Engine/src/NativeDx12Renderer.cpp:766-768 | asking again for what was just granted changes nothing |
| VertexBuffers.WrapStillGrows | src/Engine/src/NativeDx12Renderer.cpp:770 | when the 32-bit `+ 8192` wraps, the new buffer still holds the request and is larger than the old one |
| TextureCache.ScanAlpha | src/Engine/src/NativeDx12Renderer.cpp:903-909 | the texture is marked transparent exactly when some alpha byte (offsets 3, 7, ...) is below 250 |
| TextureCache.HasTransparency | src/Engine/src/NativeDx12Renderer.cpp:903-909 | some pixel's alpha byte is below 250; `ScanAlpha` computes it and `OpaqueImages` and `OnlyAlphaMatters` state which images it flags |
| TextureCache.OpaqueImages | src/Engine/src/NativeDx12Renderer.cpp:904-909 | images shorter than four bytes, and images with every byte at least 250, are not transparent |
| TextureCache.OnlyAlphaMatters | src/Engine/src/NativeDx12Renderer.cpp:904-905 | colour bytes never affect the transparency flag |
| TextureCache.UploadOne | src/Engine/src/NativeDx12Renderer.cpp:894-1027 | a decode failure records nothing; otherwise the path and its entry are recorded; the pass succeeds exactly when every creation step and the slot allocation succeed, and the entry then holds the allocated slot; a failure leaves the allocator unchanged and the entry without a descriptor |
| TextureCache.UploadOneDecoded | src/Engine/src/NativeDx12Renderer.cpp:899-1017 | the step-by-step outcome of a decoded pass equals one `UploadOne` pass and keeps every descriptor accounted for |
| TextureCache.UploadPrefixShape | src/Engine/src/NativeDx12Renderer.cpp:893-1028 | after the loop, the cache lists a prefix of the model's paths in order, one entry per path with a matching path, and all of them unless a failure stopped the loop |
| TextureCache.UploadPrefix | src/Engine/src/NativeDx12Renderer.cpp:893-1028 | the state after the first n passes of the upload loop; `UploadPrefixShape`, `UploadPrefixSlots` and `FailureIsFinal` state what it holds |
| TextureCache.UploadOneRecordsPaths | src/Engine/src/NativeDx12Renderer.cpp:899-902 | one pass extends the recorded prefix by its path |
| TextureCache.UploadOneKeepsPaths | src/Engine/src/NativeDx12Renderer.cpp:895-902 | one pass records the path and its entry together, or records nothing |
| TextureCache.UploadPrefixSlots | src/Engine/src/NativeDx12Renderer.cpp:1014-1016 | during the loop the allocator stays well formed and every entry's slot is distinct and in use; when no failure occurs, every entry holds a slot |
| TextureCache.UploadOneSlots | src/Engine/src/NativeDx12Renderer.cpp:1014-1017 | one pass keeps the allocator well formed and accounts for the entry it records |
| TextureCache.FailureIsFinal | src/Engine/src/NativeDx12Renderer.cpp:893-1028 | once a pass fails, later paths change nothing |
| TextureCache.EntryDescriptorNonNull | src/Engine/src/NativeDx12Renderer.cpp:1394-1398 | a handle the heap hands out is never null |
| TextureCache.LateFailureOnLastPathIsCached | src/Engine/src/NativeDx12Renderer.cpp:883-885 | when the last path fails after decoding, the next call sees a cache hit although the last entry has no descriptor |
| TextureCache.FailedUploadIsRecorded | src/Engine/src/NativeDx12Renderer.cpp:899-903 | a pass that fails after decoding still records the path and its entry, without a descriptor |
| TextureCache.ReleaseReturnsSlots | src/Engine/src/NativeDx12Renderer.cpp:857-870 | releasing the cache returns exactly the slots its entries held, and keeps the allocator well formed |
| TextureCache.ReleasePrefix | src/Engine/src/NativeDx12Renderer.cpp:857-870 | the allocator after releasing the first n entries, freeing only entries with a non-null handle; `ReleaseReturnsSlots` states that every held slot goes back |
| TextureCache.CacheHit | src/Engine/src/NativeDx12Renderer.cpp:884-886 | the cache holds exactly the model's path list, one entry per path; then no upload happens (`EnsureModelTexturesUploaded`) |
| TextureCache.TexturableModel | src/Engine/src/NativeDx12Renderer.cpp:873-882 | the model is valid, has texture paths and one texture coordinate per position; otherwise the upload fails and the cache is released (`EnsureModelTexturesUploaded`) |
| TexturedTriangles.OpacityTexture | src/Engine/src/NativeDx12Renderer.cpp:1577-1583 | an opacity texture is used only when it is cached with a descriptor |
| TexturedTriangles.ImportedSubmeshClassification | src/Engine/src/NativeDx12Renderer.cpp:1589-1594 | for submeshes built by the importer, a submesh is transparent exactly when it has an opacity texture, its opacity is below 0.999, or one of its textures has a translucent pixel |
| TexturedTriangles.SubmeshTransparent | src/Engine/src/NativeDx12Renderer.cpp:1586-1594 | a submesh is drawn transparent when it is cut out, flagged transparent, bound to a colour or opacity texture with transparency, or of clamped opacity below 0.999; `ImportedSubmeshClassification` states it for imported submeshes |
| TexturedTriangles.RangeTrianglesStyle | src/Engine/src/NativeDx12Renderer.cpp:1604-1635 | a range yields at most one triangle per slot, each carrying its submesh's handles and classification, and every vertex its encoded opacity and cutoff |
| TexturedTriangles.EncodedOpacity | src/Engine/src/NativeDx12Renderer.cpp:1585-1596 | the vertex alpha has the clamped opacity as magnitude, and is negative only for an alpha-cutout material, always so when the opacity is positive |
| TexturedTriangles.EncodedCutoff | src/Engine/src/NativeDx12Renderer.cpp:1587-1588 | the vertex padding has the clamped alpha cutoff as magnitude, and is negative only for an inverted opacity texture, always so when the cutoff is positive |
| TexturedTriangles.TrianglesBindLiveDescriptors | src/Engine/src/NativeDx12Renderer.cpp:1567-1636 | every queued triangle binds a non-null colour handle and a non-null opacity handle |
| TexturedTriangles.SubmeshTrianglesShape | src/Engine/src/NativeDx12Renderer.cpp:1598-1635 | a submesh yields at most indexCount / 3 triangles, each with its classification, and every vertex with the submesh's encoded opacity and cutoff |
| TexturedTriangles.AppendRangeTriangles | src/Engine/src/NativeDx12Renderer.cpp:1604-1635 | the inner loop appends exactly the triangles of the submesh's range |
| TexturedTriangles.BuildTexturedTriangles | src/Engine/src/NativeDx12Renderer.cpp:1567-1636 | the submesh loop yields exactly every drawable submesh's triangles, in submesh order |
| TexturedTriangles.AllTriangles | src/Engine/src/NativeDx12Renderer.cpp:1566-1636 | the queued triangles in submesh order; `SubmeshTrianglesShape` and `TrianglesBindLiveDescriptors` state what each submesh queues |
| DrawOrder.BeforeIsStrictWeakOrder | src/Engine/src/NativeDx12Renderer.cpp:1638-1648 | the sort comparator is irreflexive, asymmetric and transitive, and its incomparability is transitive, as `std::sort` requires |
| DrawOrder.Before | src/Engine/src/NativeDx12Renderer.cpp:1638-1648 | the sort comparator; `BeforeIsStrictWeakOrder`, `OpaqueFirst` and `DepthOrder` state its order |
| DrawOrder.KeyLETotal | src/Engine/src/NativeDx12Renderer.cpp:1638-1648 | any two triangles are ordered one way or the other |
| DrawOrder.SortByDrawOrder | src/Engine/src/NativeDx12Renderer.cpp:1638-1648 | the sorted triangles are a permutation of the input, in draw order |
| DrawOrder.OpaqueFirst | src/Engine/src/NativeDx12Renderer.cpp:1639-1641 | in draw order, every opaque triangle comes before every transparent one |
| DrawOrder.DepthOrder | src/Engine/src/NativeDx12Renderer.cpp:1643-1647 | opaque triangles are drawn nearest first, and transparent ones farthest first |
| Batching.RunEnd | src/Engine/src/NativeDx12Renderer.cpp:1689-1695 | the run ends at the first triangle that differs in colour handle, opacity handle or transparency |
| Batching.BuildDrawCalls | src/Engine/src/NativeDx12Renderer.cpp:1682-1711 | the draw calls tile the vertex buffer with whole, non-empty, maximal runs, each binding its triangles' handles; the pipeline is set on the first call and whenever transparency changes |
| Batching.FirstTriangle | src/Engine/src/NativeDx12Renderer.cpp:1685-1708 | each call starts at a triangle it draws |
| Batching.SortedCallsOpaqueFirst | src/Engine/src/NativeDx12Renderer.cpp:1697-1700 | after the sort, opaque calls come before transparent ones |
| Batching.PipelineSwitchesOnce | src/Engine/src/NativeDx12Renderer.cpp:1697-1701 | after the sort, the pipeline is set again at most once after the first call, where the opaque calls give way to the transparent ones |
| Batching.CallOf | src/Engine/src/NativeDx12Renderer.cpp:1685-1711 | every triangle is drawn by exactly one call, and that call binds its handles and pipeline |
| Batching.SingleStyleOneCall | src/Engine/src/NativeDx12Renderer.cpp:1685-1711 | triangles that share their textures and transparency class are drawn by one call over all their vertices, setting the pipeline of that class |
| Batching.EndBeforeStart | src/Engine/src/NativeDx12Renderer.cpp:1703-1710 | calls do not overlap |
| NativeRenderer.ProjectAll | src/Engine/src/NativeDx12Renderer.cpp:1519-1523 | one projected vertex per position, each the transform of that position |
| NativeRenderer.CanRenderTextured | src/Engine/src/NativeDx12Renderer.cpp:1528-1531 | the textured pass applies: one texture coordinate per position, texture paths, and submeshes; `DrawPasses` issues no textured call otherwise |
| NativeRenderer.TexturesUploaded | src/Engine/src/NativeDx12Renderer.cpp:872-1031 | `EnsureModelTexturesUploaded` succeeds: a texturable model whose cache hits, or whose reload meets no failure; that method's ensures ties its result to it |
| NativeRenderer.TexturedVertexCount | src/Engine/src/NativeDx12Renderer.cpp:1649 | the 32-bit vertex count of the textured pass, three per triangle; it fits a UINT and is 0 for no triangles |
| NativeRenderer.TexturedPassDraws | src/Engine/src/NativeDx12Renderer.cpp:1649-1664 | the textured pass draws: a non-zero vertex count, a buffer that is large enough or is created, and a mapped buffer; `SortAndBatch` issues calls exactly when it holds |
| NativeRenderer.ShouldDrawWireOverlay | src/Engine/src/NativeDx12Renderer.cpp:1721 | the overlay is drawn when enabled or when no textured geometry was drawn; `DrawPasses` and `DrawWireOverlay` use it |
| NativeRenderer.LiveHandlesSurviveSort | src/Engine/src/NativeDx12Renderer.cpp:1638 | the sort keeps every triangle, so every handle stays non-null |
| NativeRenderer.NativeDx12Renderer.IdleIsValid | src/Engine/src/NativeDx12Renderer.cpp:259-270 | the state before initialization and after shutdown satisfies the invariant |
| NativeRenderer.NativeDx12Renderer.constructor | src/Engine/src/NativeDx12Renderer.cpp:259-270 | a new renderer is idle: fence counter 1, frame fences 0, allocator at slot 1, no buffers and an empty cache |
| NativeRenderer.NativeDx12Renderer.Initialize | src/Engine/src/NativeDx12Renderer.cpp:1231-1244 | on success the heap is kept and the allocator restarts at slot 1 with an empty free list; on failure the renderer stays idle |
| NativeRenderer.NativeDx12Renderer.AllocateSrvDescriptor | src/Engine/src/NativeDx12Renderer.cpp:1378-1400 | returns the handles of the slot `Allocate` picks; that slot was free and is now in use |
| NativeRenderer.NativeDx12Renderer.FreeSrvDescriptor | src/Engine/src/NativeDx12Renderer.cpp:1402-1418 | the allocator becomes `Free` of the CPU handle; the GPU handle is ignored |
| NativeRenderer.NativeDx12Renderer.EnsureWireVertexBuffer | src/Engine/src/NativeDx12Renderer.cpp:761-807 | the wire buffer follows `EnsureCapacity`, and a failed creation reports its fixed message |
| NativeRenderer.NativeDx12Renderer.EnsureTexturedVertexBuffer | src/Engine/src/NativeDx12Renderer.cpp:809-855 | the textured buffer follows `EnsureCapacity`, and a failed creation reports its fixed message |
| NativeRenderer.NativeDx12Renderer.ReleaseModelTextures | src/Engine/src/NativeDx12Renderer.cpp:857-870 | every entry that holds a descriptor frees it; the cache ends empty and the invariant holds |
| NativeRenderer.NativeDx12Renderer.UploadTexture | src/Engine/src/NativeDx12Renderer.cpp:894-1027 | one pass of the upload loop changes the cache and allocator exactly as `UploadOne` does, and keeps the invariant |
| NativeRenderer.NativeDx12Renderer.RecordDecoded | src/Engine/src/NativeDx12Renderer.cpp:899-1027 | after decoding, records the path and entry as `UploadOne` does and keeps every descriptor accounted for |
| NativeRenderer.NativeDx12Renderer.CreateTexture | src/Engine/src/NativeDx12Renderer.cpp:927-1017 | fails with the message of the first step that fails; on success the entry holds the handles of the slot just allocated |
| NativeRenderer.NativeDx12Renderer.EnsureModelTexturesUploaded | src/Engine/src/NativeDx12Renderer.cpp:872-1031 | a model that cannot be textured empties the cache and fails; a cache hit changes nothing; otherwise the GPU is drained, the cache released and the textures uploaded in order until one fails; success is exactly `TexturesUploaded` of the old cache, and means at least one texture is cached |
| NativeRenderer.NativeDx12Renderer.UploadModelTextures | src/Engine/src/NativeDx12Renderer.cpp:893-1028 | the loop's outcome is `UploadPrefix` over every path; without a failure, every path is cached |
| NativeRenderer.NativeDx12Renderer.WaitForGpuIdle | src/Engine/src/NativeDx12Renderer.cpp:1364-1375 | the fence counter advances by one exactly when the queue, fence and event exist |
| NativeRenderer.NativeDx12Renderer.BeginFrame | src/Engine/src/NativeDx12Renderer.cpp:1419-1421 | the frame index becomes the swap chain's current back buffer |
| NativeRenderer.NativeDx12Renderer.EndFrame | src/Engine/src/NativeDx12Renderer.cpp:1486-1488 | the current frame is tagged with the fence value just signalled, the counter advances, and other frames are untouched; the counter stays ahead of every frame's value |
| NativeRenderer.NativeDx12Renderer.ResetFrames | src/Engine/src/NativeDx12Renderer.cpp:1310-1314 | every frame's fence value becomes 0 |
| NativeRenderer.NativeDx12Renderer.Shutdown | src/Engine/src/NativeDx12Renderer.cpp:1306-1362 | after shutdown the renderer is idle and valid again |
| NativeRenderer.NativeDx12Renderer.ResetCounters | src/Engine/src/NativeDx12Renderer.cpp:1339-1356 | every counter, list and capacity returns to its initial value |
| NativeRenderer.NativeDx12Renderer.ProjectPositions | src/Engine/src/NativeDx12Renderer.cpp:1519-1523 | the projection loop yields `ProjectAll` |
| NativeRenderer.NativeDx12Renderer.DrawTextured | src/Engine/src/NativeDx12Renderer.cpp:1553-1719 | textured calls are issued exactly when the textures upload and the built triangles reach the screen (a non-zero 32-bit vertex count, a buffer that holds them or is recreated, and a successful map); then the textures are cached and the triangles are a draw-ordered permutation of all drawable triangles, batched by the calls and binding live handles; no calls means no triangles |
| NativeRenderer.NativeDx12Renderer.SortAndBatch | src/Engine/src/NativeDx12Renderer.cpp:1564-1713 | calls are issued exactly when the built triangles have a non-zero 32-bit vertex count, the buffer holds them or is recreated, and the map succeeds; the buffer becomes `EnsureCapacity` of that count, or stays as it was for a zero count; drawn triangles are a draw-ordered permutation of the built ones, batched by the calls, binding live handles |
| NativeRenderer.NativeDx12Renderer.RenderModelWireframe | src/Engine/src/NativeDx12Renderer.cpp:1491-1751 | nothing happens without pipelines, for an invalid model or for a viewport of 1 pixel or less; otherwise, for a model the textured pass applies to, textured calls are issued exactly when the textures upload and the triangles built from the projected positions reach the screen, with the textured pass's guarantees; the wire overlay is the full line set exactly when there are lines, the overlay is enabled or nothing textured was drawn, and the buffer is available and mapped; capacities never shrink |
| NativeRenderer.NativeDx12Renderer.DrawPasses | src/Engine/src/NativeDx12Renderer.cpp:1525-1724 | both passes over the projected positions: no textured calls for a model the pass does not apply to; for one it applies to, calls exactly when the textures upload and the built triangles reach the screen; the overlay is decided by `ShouldDrawWireOverlay` over whether any call was issued |
| NativeRenderer.NativeDx12Renderer.DrawWireOverlay | src/Engine/src/NativeDx12Renderer.cpp:1721-1741 | the line vertices are drawn, all of them, exactly when wanted, non-empty, the buffer has or gets room, and the buffer is mapped |
| FbxLoader.RegisterSpec | src/Engine/src/FbxLoader.cpp:61-75 | registration keeps the path list duplicate-free in first-seen order: "" gives -1, a known path gives its earlier index, and a new path is appended and gives the old length |
| FbxLoader.TextureRegistry.constructor | src/Engine/src/FbxLoader.cpp:60 | the lookup starts empty |
| FbxLoader.TextureRegistry.Register | src/Engine/src/FbxLoader.cpp:61-75 | the lookup map and the path list change, and the index is returned, as `RegisterSpec` describes |
| FbxLoader.MeshTexCoords | src/Engine/src/FbxLoader.cpp:124-129 | one texture coordinate per vertex |
| FbxLoader.FaceTriangle | src/Engine/src/FbxLoader.cpp:135-141 | a face emits its three indices offset by the base vertex when it has exactly three, and nothing otherwise |
| FbxLoader.FaceIndicesShape | src/Engine/src/FbxLoader.cpp:133-142 | at most three indices per face, each naming a vertex of its own mesh |
| FbxLoader.FaceIndices | src/Engine/src/FbxLoader.cpp:133-142 | the indices of three-index faces, offset by the base vertex; `FaceIndicesShape`, `FaceIndicesCount` and `FaceIndicesEmptyIff` state them |
| FbxLoader.FaceIndicesCount | src/Engine/src/FbxLoader.cpp:133-142 | the number of emitted indices is a multiple of 3 |
| FbxLoader.FaceIndicesEmptyIff | src/Engine/src/FbxLoader.cpp:133-147 | a mesh emits no indices exactly when none of its faces has three indices |
| FbxLoader.RegisterMaterialSpec | src/Engine/src/FbxLoader.cpp:215-219 | the five slots are registered in order; each slot's index is -1 for an empty path and names its path otherwise; the list stays duplicate-free |
| FbxLoader.RegisterMaterial | src/Engine/src/FbxLoader.cpp:215-219 | the five slot registrations in order; `RegisterMaterialSpec` states their indices |
| FbxLoader.DecimalString | src/Engine/src/FbxLoader.cpp:262 | a non-empty string of decimal digits |
| FbxLoader.SceneClip | src/Engine/src/FbxLoader.cpp:258-265 | a named clip keeps its name; an unnamed one is called "Animation " followed by its number |
| FbxLoader.SceneClips | src/Engine/src/FbxLoader.cpp:252-266 | at most one clip per animation, and every clip has a name |
| FbxLoader.AddSubmeshKeepsInvariant | src/Engine/src/FbxLoader.cpp:209-232 | recording a submesh for the new indices keeps the tiling, the texture references and the material flags consistent |
| FbxLoader.StepKeepsInvariant | src/Engine/src/FbxLoader.cpp:112-233 | one pass of the mesh loop keeps the assembly invariant |
| FbxLoader.Step | src/Engine/src/FbxLoader.cpp:112-233 | one pass of the mesh loop: a mesh without vertices or faces is skipped, and a mesh that adds indices records a submesh; `StepKeepsInvariant` states what it keeps |
| FbxLoader.AssembleMeshes | src/Engine/src/FbxLoader.cpp:112-233 | the assembly after the mesh loop; `AssembleKeepsInvariant`, `AssembledGeometryIff` and `FallbackNeverTaken` state it |
| FbxLoader.AssembleKeepsInvariant | src/Engine/src/FbxLoader.cpp:112-233 | the assembly invariant holds after the mesh loop |
| FbxLoader.FallbackNeverTaken | src/Engine/src/FbxLoader.cpp:235-250 | every mesh that emits triangles records a submesh, so the fallback submesh is never added |
| FbxLoader.FallbackShape | src/Engine/src/FbxLoader.cpp:235-250 | the fallback would add one opaque submesh over the whole index buffer, with no flags |
| FbxLoader.LoadedModelShape | src/Engine/src/FbxLoader.cpp:51-275 | the loaded model has one texture coordinate per position and whole triangles only; its submeshes tile the index buffer; texture indices are -1 or in range of a duplicate-free path list; material flags follow the opacity texture |
| FbxLoader.LoadedModel | src/Engine/src/FbxLoader.cpp:51-275 | the model built from an imported scene; `LoadedModelShape`, `LoadedIndicesInRange` and `LoadSucceedsIffTriangles` state it |
| FbxLoader.SubmeshRangesInBounds | src/Engine/src/FbxLoader.cpp:220-232 | every submesh range is non-empty and lies inside the index buffer |
| FbxLoader.AssembledIndicesInRange | src/Engine/src/FbxLoader.cpp:139-141 | when faces name only their own mesh's vertices, every assembled index names an assembled position |
| FbxLoader.AssembledGeometryIff | src/Engine/src/FbxLoader.cpp:112-233 | the assembly has positions and indices exactly when some mesh with vertices has a three-index face |
| FbxLoader.LoadSucceedsIffTriangles | src/Engine/src/FbxLoader.cpp:268-271 | an imported scene gives a valid model exactly when some mesh with vertices has a triangle face |
| FbxLoader.LoadedIndicesInRange | src/Engine/src/FbxLoader.cpp:118-141 | every index of a loaded model names one of its positions |
| FbxLoader.RegisterMaterialSlots | src/Engine/src/FbxLoader.cpp:215-219 | the registry calls for the five slots produce `RegisterMaterial` |
| FbxLoader.AppendVertices | src/Engine/src/FbxLoader.cpp:120-130 | the vertex loop appends the mesh's positions and its texture coordinates |
| FbxLoader.AppendFaces | src/Engine/src/FbxLoader.cpp:132-142 | the face loop appends exactly `FaceIndices` |
| FbxLoader.AppendMesh | src/Engine/src/FbxLoader.cpp:113-233 | one pass over a contributing mesh produces `Step` of the assembly |
| FbxLoader.AssembleSceneMeshes | src/Engine/src/FbxLoader.cpp:112-233 | the mesh loop produces `AssembleMeshes`, with the registry holding the paths |
| FbxLoader.CollectClips | src/Engine/src/FbxLoader.cpp:252-266 | the animation loop produces `SceneClips` |
| FbxLoader.LoadModel | src/Engine/src/FbxLoader.cpp:36-276 | a failed import leaves the model untouched and reports the importer's message; otherwise the model is the assembled one, and the load succeeds exactly when it is valid, with the no-geometry error otherwise and an empty error on success |
| Application.PreferNativeDx12 | src/Engine/src/Application.cpp:115-126 | the native renderer is preferred exactly on Windows with ENGINE_NATIVE_DX12 set to "1", "true", "TRUE", "on" or "ON"; every such value is non-empty and at most four characters |
| Application.NativeDx12MatchIsCaseSensitive | src/Engine/src/Application.cpp:118-123 | "True", "On", "oN", "yes", "0" and "" are not truthy, although ENGINE_RENDERER ignores case |
| Application.TruthyFourLetterValues | src/Engine/src/Application.cpp:118-123 | a four-letter truthy value is "true" or "TRUE" |
| Application.RendererFor | src/Engine/src/Application.cpp:134-184 | the native renderer is built exactly for dx12 when it is preferred, and the software renderer exactly for the software backend |
| Application.RenderersFor | src/Engine/src/Application.cpp:190-191 | one renderer per backend of the order, in order |
| Application.FirstWorking | src/Engine/src/Application.cpp:191-212 | the first backend whose renderer initializes, with every earlier one failing; none when all fail |
| Application.FallbackNoticesAreTruthful | src/Engine/src/Application.cpp:197-209 | in automatic mode, Vulkan starts only after dx12 failed, and software only after both failed |
| Application.ForcedBackendIsTheOnlyAttempt | src/Engine/src/Application.cpp:190-234 | a forced backend is the only renderer built, whether or not it starts |
| Application.NextClip | src/Engine/src/Application.cpp:805 | the next clip is in range and wraps from the last to the first |
| Application.PreviousClip | src/Engine/src/Application.cpp:807 | the previous clip wraps from the first to the last and stays in range |
| Application.SteppedClip | src/Engine/src/Application.cpp:804-808 | stepping keeps an in-range index in range |
| Application.StepsAreInverse | src/Engine/src/Application.cpp:804-808 | stepping forward then back, or back then forward, returns to the same clip |
| Application.ForwardStepsModular | src/Engine/src/Application.cpp:805 | n forward steps move n places round the ring of clips |
| Application.FullCycleReturns | src/Engine/src/Application.cpp:805 | one forward step per clip returns to the starting clip |
| Application.WrapIntoClip | src/Engine/src/Application.cpp:789-795 | the two wrap loops yield `PlaybackTime`, which lies in [0, duration] |
| Application.PlaybackTimeInClip | src/Engine/src/Application.cpp:789-795 | the playback position lies in [0, duration], and a position already there is kept |
| Application.PlaybackTime | src/Engine/src/Application.cpp:789-795 | the position the two wrap loops give; `PlaybackTimeInClip` and `PlaybackTimePeriodic` state it |
| Application.PlaybackTimePeriodic | src/Engine/src/Application.cpp:790-795 | advancing by a whole clip shows the same position, except at time 0 |
| Application.WrapDownRange | src/Engine/src/Application.cpp:790-792 | subtracting whole durations from a positive time lands in (0, duration] |
| Application.WrapDown | src/Engine/src/Application.cpp:790-792 | the first wrap loop; `WrapDownRange` states its result |
| Application.WrapUpRange | src/Engine/src/Application.cpp:793-795 | adding whole durations to a negative time lands in [0, duration) |
| Application.WrapUp | src/Engine/src/Application.cpp:793-795 | the second wrap loop; `WrapUpRange` states its result |
| Application.NearClearColorBox | src/Engine/src/Application.cpp:473-479 | a pixel is near the clear colour exactly when each channel lies within 3 of (18, 20, 24) |
| Application.TrailingBlankExtend | src/Engine/src/Application.cpp:480 | a blank sample extends the run of trailing blank samples by one, and any other sample resets it |
| Application.BlankRunExtend | src/Engine/src/Application.cpp:480 | when the counter is exactly the run of trailing near-clear samples, a near-clear sample makes it one longer and any other sample makes it 0, and it is still exactly that run |
| Application.BlankRunUnique | src/Engine/src/Application.cpp:480 | the run of trailing near-clear samples is determined by the samples, so a counter that is exactly that run has only one possible value |
| Application.Application.constructor | src/Engine/src/Application.cpp:43-61 | running, no renderer, frame 0, clip 0 at time 0, speed 1, playing, and the detector reset |
| Application.Application.CreateRenderer | src/Engine/src/Application.cpp:107-239 | an invalid ENGINE_RENDERER fails with its message and tries nothing; otherwise the first renderer that starts in the attempt order is kept, along with its UI flag and status; if none starts, the status is the forced backend's error or all three errors |
| Application.InvalidBackendMessage | src/Engine/src/Application.cpp:129 | the status for an unrecognised ENGINE_RENDERER value, naming the value and the accepted names; `CreateRenderer` sets it |
| Application.StartedStatus | src/Engine/src/Application.cpp:194-203 | the status after a start: the backend's name when forced, a fallback notice for Vulkan or software in automatic mode, and the previous status when DX12 started in automatic mode; `FallbackNoticesAreTruthful` states that a notice follows a failed DX12 attempt |
| Application.Application.StartFirstWorking | src/Engine/src/Application.cpp:186-238 | the attempt order is tried, and the renderer, status and renderers built are those `FirstWorking` determines |
| Application.Application.TryBackends | src/Engine/src/Application.cpp:186-221 | backends are tried in order until one starts; each failed backend's error is kept in its own slot |
| Application.Application.AdoptRenderer | src/Engine/src/Application.cpp:193-211 | the started renderer is kept; the native UI backend is used exactly for the native renderer; the status follows `StartedStatus` |
| Application.Application.StepAnimationSelection | src/Engine/src/Application.cpp:798-811 | without clips nothing changes; otherwise the index steps round the ring and playback restarts at 0 |
| Application.Application.UpdateAnimationPlayback | src/Engine/src/Application.cpp:775-796 | while playing with clips, an out-of-range index becomes 0, and a clip with positive duration advances by delta times speed, wrapped into the clip |
| Application.Application.DetectorArmed | src/Engine/src/Application.cpp:462-464 | the detector samples a frame only when the UI is not native DX12, the backend was not forced, no fallback was attempted, a renderer other than software is running, the UI drew geometry, and fewer than 180 frames have passed; `DetectBlankFrame` samples nothing otherwise |
| Application.Application.DetectBlankFrame | src/Engine/src/Application.cpp:462-518 | the detector samples only in automatic mode on an accelerated SDL backend with UI geometry during the first 180 frames; it falls back exactly on the 45th consecutive near-clear sample, at most once; the invariant it keeps says the last `probableBlankFrameCount` samples were near-clear and, until the fallback, the sample before them was not, so the counter is exactly the run of trailing near-clear samples; after the fallback the counter stays 0 |
| Application.Application.FallBackToSoftware | src/Engine/src/Application.cpp:486-513 | the accelerated renderer is dropped and the software one kept exactly when it starts; the application keeps running only when the software renderer and its UI both start; the status names the step that failed |
| Application.FallbackStatus | src/Engine/src/Application.cpp:494-510 | the status after the automatic fallback: the software error, the UI failure, or the switch notice; `FallBackToSoftware` sets it |
| Application.Application.FinishFrame | src/Engine/src/Application.cpp:546 | the frame counter advances by one |
| Application.ComposeFailedStatus | src/Engine/src/Application.cpp:223-238 | the failure status built from the kept errors is `FailedStatus` |
| Application.FailedStatus | src/Engine/src/Application.cpp:223-236 | the status after every attempt failed: the forced backend's error, or all three errors; `ComposeFailedStatus` ties the method to it |
| Application.ErrorsRecordedStep | src/Engine/src/Application.cpp:214-220 | filing one failed backend's error keeps every recorded error in its slot |
| Application.KeepError | src/Engine/src/Application.cpp:214-220 | the error is filed under its own backend, and the other slots are unchanged |
| Application.FirstWorkingIsFirst | src/Engine/src/Application.cpp:191-212 | the first backend that starts is the one `FirstWorking` names |
| Application.NoneWorking | src/Engine/src/Application.cpp:191-221 | when no backend starts, `FirstWorking` names none |

## Left out

- The importer library's scene reading is not modelled (FbxLoader.cpp 37-49). Its result is an input: a failure message, or a scene of meshes and animations.
- Material texture-path resolution is not modelled (FbxLoader.cpp 77-110, 149-167). It uses the filesystem and relative-path normalisation, so each mesh carries its resolved paths.
- Material opacity derivation is not modelled (FbxLoader.cpp 172-207). It reads the importer's material properties, so each mesh carries the resulting opacity. The model applies the clamp and the cutout and transparency flags (209-213).
- Animation tick conversion is not modelled (FbxLoader.cpp 258-259). It is floating-point arithmetic on importer values, so clips carry their durations and tick rates.
- `NormalizeModel` is not modelled (FbxLoader.cpp 273). It is a floating-point rescale of the positions. `LoadModel` returns the positions before rescaling, and nothing proved depends on their values.
- FbxLoader.AppendFaces: does not model the 32-bit wrap of `baseVertex + face index`, because the importer's per-mesh vertex counts keep it far below 2^32.
- Matrix algebra is not modelled: rotation, look-at and perspective are a parameter `Transform`. All float arithmetic is on `real`.
- Direct3D 12, DXGI, WIC, COM, SDL and ImGui calls are not modelled. Device and pipeline creation, command lists, barriers, copies, descriptor writes, pixel uploads, and debug-layer logging are all reduced to their outcomes.
- NativeRenderer.NativeDx12Renderer.Initialize: does not model a failure part-way through device creation, which leaves the objects created so far; the model treats any failure as leaving the renderer idle.
- Error messages do not include the HRESULT text that `ToErrorMessage` appends, so the model's messages are the fixed prefixes.
- Fence waits (`SetEventOnCompletion`, `WaitForSingleObject`) are not modelled; only the counter values are. The 64-bit fence counter is unbounded, because it cannot wrap in practice.
- DrawOrder.SortByDrawOrder: `std::sort` is not stable, so triangles that compare equal may come out in any order. The model picks one such order (an insertion sort). The properties are stated for any draw-ordered permutation.
- The cached texture entry is recorded in one step, after its fields are known. The source emplaces it first and then fills it in. Nothing reads the entry in between.
- Pixel read-back is an input: the sampled pixel, or none when the read failed (Application.cpp 465-483).
- The frame loop of `Application::Run` is not modelled: events, camera controls, UI drawing, logging, and the `loggedFirstImGuiFrame` and `loggedImGuiRenderError` flags. The detector's frame is `DetectBlankFrame`; an ordinary frame's end is `FinishFrame`.
- SDL window creation, `Initialize`, `Shutdown`, the file dialog and `UpdateGui` are not modelled in Application.cpp, and neither are the model-loading paths that reset the clip index and time.
- The DirectX12, Vulkan and Software renderer classes are not modelled beyond their `Initialize` outcome. They are thin wrappers around `SdlRendererBase`, which is modelled.
- Logging is not modelled.

=== FILE: application.dfy ===
/**
 * The application shell's own state machine (Application.cpp): choosing and
 * starting a renderer, stepping and playing animation clips, and the
 * detector that swaps an accelerated backend for the software renderer when
 * its output stays blank. Window, UI and file-dialog code is not modelled.
 */
module Application {
  import opened Wrappers
  import opened Models
  import opened BackendSelection

  // ---------------------------------------------------------------------
  // ENGINE_NATIVE_DX12
  // ---------------------------------------------------------------------

  /**
   * The value of ENGINE_NATIVE_DX12 that opts into the native Direct3D 12
   * renderer. Unlike ENGINE_RENDERER it is matched exactly, not case-folded.
   */
  predicate TruthyNativeDx12Value(value: string) {
    value == "1" || value == "true" || value == "TRUE" || value == "on" || value == "ON"
  }

  /** `preferNativeDx12`: only on Windows builds, and only for a truthy value. */
  function PreferNativeDx12(onWindows: bool, value: string): (prefer: bool)
    ensures prefer <==> onWindows && value in {"1", "true", "TRUE", "on", "ON"}
    ensures prefer ==> onWindows && value != "" && |value| <= 4
    ensures !onWindows ==> !prefer
  {
    onWindows && TruthyNativeDx12Value(value)
  }

  /** Mixed-case spellings are not truthy, although ENGINE_RENDERER accepts any casing. */
  lemma NativeDx12MatchIsCaseSensitive()
    ensures !TruthyNativeDx12Value("True") && !TruthyNativeDx12Value("On") && !TruthyNativeDx12Value("oN")
    ensures !TruthyNativeDx12Value("yes") && !TruthyNativeDx12Value("0") && !TruthyNativeDx12Value("")
    ensures ParseRendererBackend("Dx12") == ParseRendererBackend("dx12")
  {
    assert ToLower("Dx12") == "dx12";
    assert ToLower("dx12") == "dx12";
  }

  /** A four-letter truthy value is "true" in all lower or all upper case. */
  lemma TruthyFourLetterValues(value: string)
    requires TruthyNativeDx12Value(value) && |value| == 4
    ensures value == "true" || value == "TRUE"
  {
  }

  // ---------------------------------------------------------------------
  // Starting a renderer
  // ---------------------------------------------------------------------

  /** The concrete renderer classes `tryBackend` can construct. */
  datatype Renderer = NativeDx12Renderer | DirectX12Renderer | VulkanRenderer | SoftwareRenderer

  /** What a renderer's `Initialize` reported: success, or the error it wrote. */
  datatype InitResult = InitResult(ok: bool, error: string)

  /**
   * The renderer `tryBackend` builds for a backend: the DX12 backend uses the
   * native renderer when it is preferred and the SDL one otherwise; a failing
   * native renderer is not followed by the SDL one.
   */
  function RendererFor(backend: RendererBackend, preferNativeDx12: bool): (r: Renderer)
    ensures r == NativeDx12Renderer <==> backend == Dx12 && preferNativeDx12
    ensures r == SoftwareRenderer <==> backend == Software
  {
    match backend
    case Dx12 => if preferNativeDx12 then NativeDx12Renderer else DirectX12Renderer
    case Vulkan => VulkanRenderer
    case Software => SoftwareRenderer
  }

  /** The renderers that would be built for the backends of `order`, in order. */
  function RenderersFor(order: seq<RendererBackend>, preferNativeDx12: bool): (rs: seq<Renderer>)
    ensures |rs| == |order|
    ensures forall i :: 0 <= i < |order| ==> rs[i] == RendererFor(order[i], preferNativeDx12)
  {
    if order == [] then [] else [RendererFor(order[0], preferNativeDx12)] + RenderersFor(order[1..], preferNativeDx12)
  }

  /** The position of the first backend in `order` whose renderer initializes, if any. */
  function FirstWorking(order: seq<RendererBackend>, preferNativeDx12: bool, initialize: Renderer -> InitResult)
    : (r: Option<nat>)
    ensures r.Some? ==> r.value < |order| && initialize(RendererFor(order[r.value], preferNativeDx12)).ok
    ensures r.Some? ==> forall j :: 0 <= j < r.value ==> !initialize(RendererFor(order[j], preferNativeDx12)).ok
    ensures r.None? ==> forall j :: 0 <= j < |order| ==> !initialize(RendererFor(order[j], preferNativeDx12)).ok
  {
    if order == [] then None
    else if initialize(RendererFor(order[0], preferNativeDx12)).ok then Some(0)
    else
      match FirstWorking(order[1..], preferNativeDx12, initialize)
      case None => None
      case Some(i) => Some(i + 1)
  }

  function InvalidBackendMessage(requestedBackendName: string): string {
    "Requested renderer backend is invalid. ENGINE_RENDERER=" + requestedBackendName + ". Use dx12, vulkan, or software."
  }

  /**
   * The status after `backend` started: named when forced, a fallback notice
   * for Vulkan or software in automatic mode, and the previous status when
   * DX12 started in automatic mode.
   */
  function StartedStatus(requestedBackend: Option<RendererBackend>, backend: RendererBackend, previous: string): string {
    if requestedBackend.Some? then "Using renderer backend from ENGINE_RENDERER=" + RendererBackendName(backend) + "."
    else if backend == Vulkan then "DirectX 12 failed, using Vulkan fallback."
    else if backend == Software then "Hardware backends unavailable, using software fallback renderer."
    else previous
  }

  /** The status after every attempt failed: the forced backend's error, or all three errors. */
  function FailedStatus(requestedBackendName: string, requestedBackend: Option<RendererBackend>,
                        preferNativeDx12: bool, initialize: Renderer -> InitResult): string
  {
    if requestedBackend.Some? then
      "Requested renderer backend failed. ENGINE_RENDERER=" + requestedBackendName + ", error: "
        + initialize(RendererFor(requestedBackend.value, preferNativeDx12)).error
    else
      "Failed to create renderer. DX12: " + initialize(RendererFor(Dx12, preferNativeDx12)).error
        + " | Vulkan: " + initialize(VulkanRenderer).error
        + " | Software: " + initialize(SoftwareRenderer).error
  }

  /**
   * The fallback notices are truthful: in automatic mode, Vulkan starts only
   * after DX12 failed and software only after both hardware backends failed.
   */
  lemma FallbackNoticesAreTruthful(preferNativeDx12: bool, initialize: Renderer -> InitResult)
    requires FirstWorking(BuildRendererAttemptOrder(None), preferNativeDx12, initialize).Some?
    ensures var order := BuildRendererAttemptOrder(None);
      var backend := order[FirstWorking(order, preferNativeDx12, initialize).value];
      && (backend == Vulkan ==> !initialize(RendererFor(Dx12, preferNativeDx12)).ok)
      && (backend == Software ==> !initialize(RendererFor(Dx12, preferNativeDx12)).ok && !initialize(VulkanRenderer).ok)
  {
    AutomaticOrder();
  }

  /** A forced backend is the only renderer ever initialized, whatever its outcome. */
  lemma ForcedBackendIsTheOnlyAttempt(backend: RendererBackend, preferNativeDx12: bool, initialize: Renderer -> InitResult)
    ensures RenderersFor(BuildRendererAttemptOrder(Some(backend)), preferNativeDx12) == [RendererFor(backend, preferNativeDx12)]
    ensures FirstWorking(BuildRendererAttemptOrder(Some(backend)), preferNativeDx12, initialize).Some?
        <==> initialize(RendererFor(backend, preferNativeDx12)).ok
  {
    ForcedOrder(backend);
  }

  // ---------------------------------------------------------------------
  // Animation selection and playback
  // ---------------------------------------------------------------------

  /** The clip after `index`, wrapping from the last to the first. */
  function NextClip(index: nat, count: nat): (next: nat)
    requires count > 0
    ensures next < count
    ensures index == count - 1 ==> next == 0
  {
    (index + 1) % count
  }

  /** The clip before `index`, wrapping from the first to the last. */
  function PreviousClip(index: nat, count: nat): (previous: nat)
    requires count > 0
    ensures index == 0 ==> previous == count - 1
    ensures index < count ==> previous < count
  {
    if index == 0 then count - 1 else index - 1
  }

  /** The index after `StepAnimationSelection(direction)` with `count` clips. */
  function SteppedClip(index: nat, count: nat, direction: int): (stepped: nat)
    requires count > 0
    ensures index < count ==> stepped < count
  {
    if direction > 0 then NextClip(index, count)
    else if direction < 0 then PreviousClip(index, count)
    else index
  }

  /** Stepping forward and then back, or back and then forward, returns to the same clip. */
  lemma StepsAreInverse(index: nat, count: nat)
    requires index < count
    ensures PreviousClip(NextClip(index, count), count) == index
    ensures NextClip(PreviousClip(index, count), count) == index
  {
    if index + 1 < count {
      assert NextClip(index, count) == index + 1;
    }
    if index > 0 {
      assert NextClip(index - 1, count) == index;
    }
  }

  /** The clip reached after `n` forward steps. */
  function ForwardSteps(index: nat, count: nat, n: nat): nat
    requires count > 0
  {
    if n == 0 then index else NextClip(ForwardSteps(index, count, n - 1), count)
  }

  /** `n` forward steps move `n` places round the ring of clips. */
  lemma {:induction false} ForwardStepsModular(index: nat, count: nat, n: nat)
    requires count > 0 && index < count
    ensures ForwardSteps(index, count, n) == (index + n) % count
  {
    if n == 0 {
      DivModUnique(index, count, 0, index);
    } else {
      ForwardStepsModular(index, count, n - 1);
      NextOfRemainder(index + n - 1, count);
    }
  }

  /** Stepping from the remainder of `a` gives the remainder of `a + 1`. */
  lemma NextOfRemainder(a: nat, count: nat)
    requires count > 0
    ensures NextClip(a % count, count) == (a + 1) % count
  {
    var q, r := a / count, a % count;
    assert a == q * count + r;
    if r + 1 < count {
      DivModUnique(a + 1, count, q, r + 1);
      DivModUnique(r + 1, count, 0, r + 1);
    } else {
      assert (q + 1) * count == q * count + count;
      DivModUnique(a + 1, count, q + 1, 0);
      DivModUnique(r + 1, count, 1, 0);
    }
  }

  /** Stepping forward once per clip cycles back to the starting clip. */
  lemma FullCycleReturns(index: nat, count: nat)
    requires count > 0 && index < count
    ensures ForwardSteps(index, count, count) == index
  {
    ForwardStepsModular(index, count, count);
    DivModUnique(index + count, count, 1, index);
  }

  /** Quotient and remainder are the only ones that rebuild the dividend. */
  lemma DivModUnique(a: int, c: int, q: int, r: int)
    requires c > 0 && a == q * c + r && 0 <= r < c
    ensures a / c == q && a % c == r
  {
    var q0, r0 := a / c, a % c;
    assert a == q0 * c + r0;
    SmallMultipleIsZero(q - q0, c, r0 - r);
  }

  lemma SmallMultipleIsZero(k: int, c: int, m: int)
    requires c > 0 && k * c == m && -c < m < c
    ensures k == 0
  {
  }

  /** The first `while`: subtract the duration while the time exceeds it. */
  function WrapDown(time: real, duration: real): real
    requires duration > 0.0
    decreases time / duration
  {
    if time > duration then
      DivStep(time, duration);
      WrapDown(time - duration, duration)
    else time
  }

  /** The second `while`: add the duration while the time is negative. */
  function WrapUp(time: real, duration: real): real
    requires duration > 0.0
    decreases -time / duration
  {
    if time < 0.0 then
      DivStep(-time, duration);
      WrapUp(time + duration, duration)
    else time
  }

  /** Removing one duration from a time removes one from its count of durations. */
  lemma DivStep(time: real, duration: real)
    requires duration > 0.0
    ensures (time - duration) / duration == time / duration - 1.0
  {
    var q := time / duration;
    var r := (time - duration) / duration;
    assert q * duration == time;
    assert r * duration == time - duration;
    assert (r - (q - 1.0)) * duration == r * duration - q * duration + duration;
    ZeroProduct(r - (q - 1.0), duration);
  }

  lemma ZeroProduct(a: real, d: real)
    requires d > 0.0 && a * d == 0.0
    ensures a == 0.0
  {
  }

  /** The unwrapped time after a frame of `deltaSeconds` at `speed`. */
  function Advanced(time: real, deltaSeconds: real, speed: real): real {
    time + deltaSeconds * speed
  }

  /** The playback position a clip of `duration` shows for an unwrapped time. */
  function PlaybackTime(time: real, duration: real): real
    requires duration > 0.0
  {
    WrapUp(WrapDown(time, duration), duration)
  }

  /**
   * The two `while` loops of `UpdateAnimationPlayback`: subtract the duration
   * while the time exceeds it, then add it while the time is negative.
   */
  method WrapIntoClip(time: real, duration: real) returns (wrapped: real)
    requires duration > 0.0
    ensures wrapped == PlaybackTime(time, duration)
    ensures 0.0 <= wrapped <= duration
  {
    wrapped := time;
    while wrapped > duration
      invariant WrapDown(wrapped, duration) == WrapDown(time, duration)
      decreases wrapped / duration
    {
      DivStep(wrapped, duration);
      wrapped := wrapped - duration;
    }
    while wrapped < 0.0
      invariant WrapUp(wrapped, duration) == PlaybackTime(time, duration)
      decreases -wrapped / duration
    {
      DivStep(-wrapped, duration);
      wrapped := wrapped + duration;
    }
    PlaybackTimeInClip(time, duration);
  }

  lemma WrapDownKeeps(time: real, duration: real)
    requires duration > 0.0 && time <= duration
    ensures WrapDown(time, duration) == time
  {
  }

  lemma WrapUpKeeps(time: real, duration: real)
    requires duration > 0.0 && time >= 0.0
    ensures WrapUp(time, duration) == time
  {
  }

  /** Subtracting whole durations from a positive time lands in (0, duration]. */
  lemma {:induction false} WrapDownRange(time: real, duration: real)
    requires duration > 0.0 && time > 0.0
    ensures 0.0 < WrapDown(time, duration) <= duration
    decreases time / duration
  {
    if time > duration {
      DivStep(time, duration);
      WrapDownRange(time - duration, duration);
      assert WrapDown(time, duration) == WrapDown(time - duration, duration);
    } else {
      WrapDownKeeps(time, duration);
    }
  }

  /** Adding whole durations to a negative time lands in [0, duration). */
  lemma {:induction false} WrapUpRange(time: real, duration: real)
    requires duration > 0.0 && time < 0.0
    ensures 0.0 <= WrapUp(time, duration) < duration
    decreases -time / duration
  {
    DivStep(-time, duration);
    assert WrapUp(time, duration) == WrapUp(time + duration, duration);
    if time + duration < 0.0 {
      WrapUpRange(time + duration, duration);
    } else {
      WrapUpKeeps(time + duration, duration);
    }
  }

  /** The playback position lies in [0, duration] and a position already there is kept. */
  lemma PlaybackTimeInClip(time: real, duration: real)
    requires duration > 0.0
    ensures 0.0 <= PlaybackTime(time, duration) <= duration
    ensures 0.0 <= time <= duration ==> PlaybackTime(time, duration) == time
  {
    var down := WrapDown(time, duration);
    if time > 0.0 {
      WrapDownRange(time, duration);
      WrapUpKeeps(down, duration);
    } else {
      WrapDownKeeps(time, duration);
      if time < 0.0 {
        WrapUpRange(time, duration);
      } else {
        WrapUpKeeps(time, duration);
      }
    }
  }

  /** Advancing by a whole clip shows the same position, except at the start of the clip. */
  lemma PlaybackTimePeriodic(time: real, duration: real)
    requires duration > 0.0 && time != 0.0
    ensures PlaybackTime(time + duration, duration) == PlaybackTime(time, duration)
  {
    if time < 0.0 {
      WrapDownKeeps(time + duration, duration);
      WrapDownKeeps(time, duration);
      DivStep(-time, duration);
      assert WrapUp(time, duration) == WrapUp(time + duration, duration);
    } else {
      DivStep(time + duration, duration);
      assert WrapDown(time + duration, duration) == WrapDown(time, duration);
    }
  }

  // ---------------------------------------------------------------------
  // The blank-output detector
  // ---------------------------------------------------------------------

  /** The window's clear colour and the tolerance of the pixel comparison. */
  const ClearRed: int := 18
  const ClearGreen: int := 20
  const ClearBlue: int := 24
  const ClearTolerance: int := 3
  /** Consecutive near-clear samples after which the fallback fires. */
  const BlankFrameThreshold: nat := 45
  /** Frames after which the detector stops sampling. */
  const BlankDetectionFrames: nat := 180

  /** One pixel read back from the frame, channels in 0..255. */
  datatype Pixel = Pixel(red: int, green: int, blue: int)

  function Distance(a: int, b: int): nat {
    if a < b then b - a else a - b
  }

  predicate NearClearColor(p: Pixel) {
    && Distance(p.red, ClearRed) <= ClearTolerance
    && Distance(p.green, ClearGreen) <= ClearTolerance
    && Distance(p.blue, ClearBlue) <= ClearTolerance
  }

  /** The tolerance is a box of side 7 around the clear colour, bounds included. */
  lemma NearClearColorBox(p: Pixel)
    ensures NearClearColor(p) <==> 15 <= p.red <= 21 && 17 <= p.green <= 23 && 21 <= p.blue <= 27
  {
  }

  /** The last `n` samples of `samples` were all near the clear colour. */
  predicate TrailingBlank(samples: seq<bool>, n: nat) {
    n <= |samples| && forall k :: |samples| - n <= k < |samples| ==> samples[k]
  }

  lemma {:induction false} TrailingBlankExtend(samples: seq<bool>, n: nat)
    requires TrailingBlank(samples, n)
    ensures TrailingBlank(samples + [true], n + 1)
    ensures TrailingBlank(samples + [false], 0)
  {
    var s := samples + [true];
    forall k | |s| - (n + 1) <= k < |s| ensures s[k] {
      if k < |samples| {
        assert s[k] == samples[k];
      }
    }
  }

  /** `n` is exactly the run of trailing blank samples: those are blank, and the one before them is not. */
  predicate BlankRun(samples: seq<bool>, n: nat) {
    TrailingBlank(samples, n) && (n < |samples| ==> !samples[|samples| - n - 1])
  }

  /** A blank sample lengthens the run by one, and any other sample ends it. */
  lemma {:induction false} BlankRunExtend(samples: seq<bool>, n: nat)
    requires BlankRun(samples, n)
    ensures BlankRun(samples + [true], n + 1)
    ensures BlankRun(samples + [false], 0)
  {
    TrailingBlankExtend(samples, n);
    var s := samples + [true];
    if n + 1 < |s| {
      assert s[|s| - (n + 1) - 1] == samples[|samples| - n - 1];
    }
  }

  /** The run of trailing blank samples is determined by the samples. */
  lemma BlankRunUnique(samples: seq<bool>, n: nat, m: nat)
    requires BlankRun(samples, n) && BlankRun(samples, m)
    ensures n == m
  {
  }

  // ---------------------------------------------------------------------
  // The application object
  // ---------------------------------------------------------------------

  class Application {
    /** `renderer_`, as the class it holds; `None` for a null pointer. */
    var renderer: Option<Renderer>
    var useNativeDx12ImGui: bool
    var statusMessage: string
    var running: bool

    var loadedModel: ModelData
    var currentAnimationIndex: nat
    var animationTimeSeconds: real
    var animationSpeed: real
    var animationPlaying: bool

    var frameCounter: nat
    /** `backendForcedByEnvironment` of `Run`: ENGINE_RENDERER is set and not empty. */
    var backendForcedByEnvironment: bool
    /** `probableBlankFrameCount` and `autoFallbackAttempted`, locals of the frame loop. */
    var probableBlankFrameCount: nat
    var autoFallbackAttempted: bool
    /** Every pixel sample the detector took: near the clear colour or not. */
    ghost var blankSamples: seq<bool>

    /**
     * The detector's counter is below the threshold and the last that many
     * samples were blank; until the fallback it is exactly the run of
     * trailing blank samples, and after it the counter stays reset.
     */
    ghost predicate DetectorValid()
      reads this
    {
      && probableBlankFrameCount < BlankFrameThreshold
      && TrailingBlank(blankSamples, probableBlankFrameCount)
      && (!autoFallbackAttempted ==> BlankRun(blankSamples, probableBlankFrameCount))
      && (autoFallbackAttempted ==> probableBlankFrameCount == 0)
    }

    constructor (requestedBackendName: string)
      ensures renderer.None? && !useNativeDx12ImGui && running && statusMessage == ""
      ensures loadedModel == EmptyModel() && currentAnimationIndex == 0 && animationTimeSeconds == 0.0
      ensures animationSpeed == 1.0 && animationPlaying
      ensures frameCounter == 0 && backendForcedByEnvironment == (requestedBackendName != "")
      ensures probableBlankFrameCount == 0 && !autoFallbackAttempted && blankSamples == []
      ensures DetectorValid()
    {
      renderer := None;
      useNativeDx12ImGui := false;
      statusMessage := "";
      running := true;
      loadedModel := EmptyModel();
      currentAnimationIndex := 0;
      animationTimeSeconds := 0.0;
      animationSpeed := 1.0;
      animationPlaying := true;
      frameCounter := 0;
      backendForcedByEnvironment := requestedBackendName != "";
      probableBlankFrameCount := 0;
      autoFallbackAttempted := false;
      blankSamples := [];
    }

    /**
     * `CreateRenderer`. `requestedBackendName` and `nativeDx12Value` are the
     * two environment variables ("" when unset), and `initialize` is what
     * each renderer's `Initialize` reports. `tried` lists the renderers
     * initialized, in order.
     */
    method CreateRenderer(requestedBackendName: string, nativeDx12Value: string, onWindows: bool,
                          initialize: Renderer -> InitResult)
      returns (ok: bool, ghost tried: seq<Renderer>)
      modifies this`renderer, this`useNativeDx12ImGui, this`statusMessage
      ensures var requested := ParseRendererBackend(requestedBackendName);
        requestedBackendName != "" && requested.None? ==>
          && !ok && tried == [] && renderer == old(renderer) && !useNativeDx12ImGui
          && statusMessage == InvalidBackendMessage(requestedBackendName)
      ensures var requested := ParseRendererBackend(requestedBackendName);
        var prefer := PreferNativeDx12(onWindows, nativeDx12Value);
        var order := BuildRendererAttemptOrder(requested);
        var first := FirstWorking(order, prefer, initialize);
        (requestedBackendName == "" || requested.Some?) ==>
          && (ok <==> first.Some?)
          && (ok ==>
                && tried == RenderersFor(order[..first.value + 1], prefer)
                && renderer == Some(RendererFor(order[first.value], prefer))
                && (useNativeDx12ImGui <==> renderer == Some(NativeDx12Renderer))
                && statusMessage == StartedStatus(requested, order[first.value], old(statusMessage)))
          && (!ok ==>
                && tried == RenderersFor(order, prefer)
                && renderer == old(renderer) && !useNativeDx12ImGui
                && statusMessage == FailedStatus(requestedBackendName, requested, prefer, initialize))
    {
      useNativeDx12ImGui := false;
      tried := [];
      var requestedBackend := ParseRendererBackend(requestedBackendName);
      var preferNativeDx12 := PreferNativeDx12(onWindows, nativeDx12Value);

      if requestedBackendName != "" && requestedBackend.None? {
        statusMessage := InvalidBackendMessage(requestedBackendName);
        return false, tried;
      }

      ok, tried := StartFirstWorking(requestedBackendName, requestedBackend, preferNativeDx12, initialize);
    }

    /**
     * `CreateRenderer` once the requested backend is known to be valid: try
     * the attempt order, and report the renderer that started or why none did.
     */
    method StartFirstWorking(requestedBackendName: string, requestedBackend: Option<RendererBackend>,
                             preferNativeDx12: bool, initialize: Renderer -> InitResult)
      returns (ok: bool, ghost tried: seq<Renderer>)
      requires !useNativeDx12ImGui
      modifies this`renderer, this`useNativeDx12ImGui, this`statusMessage
      ensures var order := BuildRendererAttemptOrder(requestedBackend);
        var first := FirstWorking(order, preferNativeDx12, initialize);
        && (ok <==> first.Some?)
        && (ok ==>
              && tried == RenderersFor(order[..first.value + 1], preferNativeDx12)
              && renderer == Some(RendererFor(order[first.value], preferNativeDx12))
              && (useNativeDx12ImGui <==> renderer == Some(NativeDx12Renderer))
              && statusMessage == StartedStatus(requestedBackend, order[first.value], old(statusMessage)))
        && (!ok ==>
              && tried == RenderersFor(order, preferNativeDx12)
              && renderer == old(renderer) && !useNativeDx12ImGui
              && statusMessage == FailedStatus(requestedBackendName, requestedBackend, preferNativeDx12, initialize))
    {
      var backendOrder := BuildRendererAttemptOrder(requestedBackend);
      var dx12Error, vulkanError, softwareError;
      ghost var index;
      ok, dx12Error, vulkanError, softwareError, tried, index :=
        TryBackends(requestedBackend, backendOrder, preferNativeDx12, initialize);
      if ok {
        FirstWorkingIsFirst(backendOrder, preferNativeDx12, initialize, index);
        BuiltInOrderIsRenderersFor(tried, backendOrder[..index + 1], preferNativeDx12);
        return;
      }
      NoneWorking(backendOrder, preferNativeDx12, initialize);
      BuiltInOrderIsRenderersFor(tried, backendOrder, preferNativeDx12);

      statusMessage := ComposeFailedStatus(requestedBackendName, requestedBackend, preferNativeDx12, initialize,
                                           dx12Error, vulkanError, softwareError);
    }

    /**
     * The attempt loop of `CreateRenderer`: `tryBackend` on each backend of
     * `backendOrder` until one starts, keeping each failed backend's error.
     */
    method TryBackends(requestedBackend: Option<RendererBackend>, backendOrder: seq<RendererBackend>,
                       preferNativeDx12: bool, initialize: Renderer -> InitResult)
      returns (ok: bool, dx12Error: string, vulkanError: string, softwareError: string,
               ghost tried: seq<Renderer>, ghost index: nat)
      requires !useNativeDx12ImGui
      modifies this`renderer, this`useNativeDx12ImGui, this`statusMessage
      ensures ok ==>
        && index < |backendOrder| && initialize(RendererFor(backendOrder[index], preferNativeDx12)).ok
        && (forall j :: 0 <= j < index ==> !initialize(RendererFor(backendOrder[j], preferNativeDx12)).ok)
        && BuiltInOrder(tried, backendOrder[..index + 1], preferNativeDx12)
        && renderer == Some(RendererFor(backendOrder[index], preferNativeDx12))
        && (useNativeDx12ImGui <==> renderer == Some(NativeDx12Renderer))
        && statusMessage == StartedStatus(requestedBackend, backendOrder[index], old(statusMessage))
      ensures !ok ==> forall j :: 0 <= j < |backendOrder| ==> !initialize(RendererFor(backendOrder[j], preferNativeDx12)).ok
      ensures !ok ==>
        && BuiltInOrder(tried, backendOrder, preferNativeDx12)
        && renderer == old(renderer) && !useNativeDx12ImGui && statusMessage == old(statusMessage)
        && ErrorsRecorded(backendOrder, preferNativeDx12, initialize, dx12Error, vulkanError, softwareError)
    {
      dx12Error, vulkanError, softwareError := "", "", "";
      tried := [];
      var i := 0;
      while i < |backendOrder|
        invariant 0 <= i <= |backendOrder|
        invariant forall j :: 0 <= j < i ==> !initialize(RendererFor(backendOrder[j], preferNativeDx12)).ok
        invariant BuiltInOrder(tried, backendOrder[..i], preferNativeDx12)
        invariant renderer == old(renderer) && !useNativeDx12ImGui && statusMessage == old(statusMessage)
        invariant ErrorsRecorded(backendOrder[..i], preferNativeDx12, initialize, dx12Error, vulkanError, softwareError)
      {
        var backend := backendOrder[i];
        var candidate := RendererFor(backend, preferNativeDx12);
        var result := initialize(candidate);
        tried := tried + [candidate];
        if result.ok {
          AdoptRenderer(requestedBackend, backend, candidate);
          return true, dx12Error, vulkanError, softwareError, tried, i;
        }
        ghost var before := (dx12Error, vulkanError, softwareError);
        dx12Error, vulkanError, softwareError := KeepError(backend, result.error, dx12Error, vulkanError, softwareError);
        ErrorsRecordedStep(backendOrder[..i], backend, preferNativeDx12, initialize,
                           before.0, before.1, before.2, dx12Error, vulkanError, softwareError);
        i := i + 1;
      }
      assert backendOrder[..i] == backendOrder;
      ok, index := false, 0;
    }

    /** The renderer that started is kept, with the UI backend and status that go with it. */
    method AdoptRenderer(requestedBackend: Option<RendererBackend>, backend: RendererBackend, candidate: Renderer)
      modifies this`renderer, this`useNativeDx12ImGui, this`statusMessage
      ensures renderer == Some(candidate)
      ensures useNativeDx12ImGui <==> candidate == NativeDx12Renderer
      ensures statusMessage == StartedStatus(requestedBackend, backend, old(statusMessage))
    {
      renderer := Some(candidate);
      useNativeDx12ImGui := candidate == NativeDx12Renderer;
      statusMessage := StartedStatus(requestedBackend, backend, statusMessage);
    }

    /**
     * `StepAnimationSelection`: without clips nothing changes; otherwise the
     * index steps round the ring of clips and playback restarts at 0.
     */
    method StepAnimationSelection(direction: int)
      modifies this`currentAnimationIndex, this`animationTimeSeconds
      ensures loadedModel.animations == [] ==>
        currentAnimationIndex == old(currentAnimationIndex) && animationTimeSeconds == old(animationTimeSeconds)
      ensures loadedModel.animations != [] ==>
        && currentAnimationIndex == SteppedClip(old(currentAnimationIndex), |loadedModel.animations|, direction)
        && animationTimeSeconds == 0.0
    {
      if loadedModel.animations == [] {
        return;
      }
      var animationCount := |loadedModel.animations|;
      if direction > 0 {
        currentAnimationIndex := (currentAnimationIndex + 1) % animationCount;
      } else if direction < 0 {
        currentAnimationIndex := if currentAnimationIndex == 0 then animationCount - 1 else currentAnimationIndex - 1;
      }
      animationTimeSeconds := 0.0;
    }

    /**
     * `UpdateAnimationPlayback`: while playing, an out-of-range clip index
     * falls back to the first clip, and a clip with a positive duration
     * advances by `deltaSeconds * animationSpeed`, wrapped into the clip.
     */
    method UpdateAnimationPlayback(deltaSeconds: real)
      modifies this`currentAnimationIndex, this`animationTimeSeconds
      ensures !animationPlaying || loadedModel.animations == [] ==>
        currentAnimationIndex == old(currentAnimationIndex) && animationTimeSeconds == old(animationTimeSeconds)
      ensures animationPlaying && loadedModel.animations != [] ==>
        currentAnimationIndex == (if old(currentAnimationIndex) < |loadedModel.animations| then old(currentAnimationIndex) else 0)
      ensures animationPlaying && currentAnimationIndex < |loadedModel.animations| &&
              loadedModel.animations[currentAnimationIndex].durationSeconds <= 0.0 ==>
        animationTimeSeconds == old(animationTimeSeconds)
      ensures animationPlaying && currentAnimationIndex < |loadedModel.animations| &&
              loadedModel.animations[currentAnimationIndex].durationSeconds > 0.0 ==>
        animationTimeSeconds == PlaybackTime(Advanced(old(animationTimeSeconds), deltaSeconds, animationSpeed),
                                             loadedModel.animations[currentAnimationIndex].durationSeconds)
    {
      if !animationPlaying || loadedModel.animations == [] {
        return;
      }
      if currentAnimationIndex >= |loadedModel.animations| {
        currentAnimationIndex := 0;
      }
      var duration := loadedModel.animations[currentAnimationIndex].durationSeconds;
      if duration <= 0.0 {
        return;
      }
      animationTimeSeconds := WrapIntoClip(Advanced(animationTimeSeconds, deltaSeconds, animationSpeed), duration);
    }

    /** The detector samples this frame: the conditions of the frame loop's guard. */
    predicate DetectorArmed(hasUiGeometry: bool)
      reads this
    {
      && !useNativeDx12ImGui && !backendForcedByEnvironment && !autoFallbackAttempted
      && renderer.Some? && renderer.value != SoftwareRenderer
      && hasUiGeometry && frameCounter < BlankDetectionFrames
    }

    /**
     * One frame of the blank-output detector. `sample` is the pixel read back
     * at (30, 30), `None` when the read-back failed; `softwareInit` and
     * `imguiInitialized` are the outcomes of starting the software renderer
     * and its UI. Returns whether the frame ended in the fallback.
     */
    method DetectBlankFrame(hasUiGeometry: bool, sample: Option<Pixel>, softwareInit: InitResult, imguiInitialized: bool)
      returns (fellBack: bool)
      requires DetectorValid()
      modifies this`probableBlankFrameCount, this`autoFallbackAttempted, this`blankSamples, this`renderer,
               this`useNativeDx12ImGui, this`statusMessage, this`running, this`frameCounter
      ensures DetectorValid()
      ensures old(autoFallbackAttempted) ==> autoFallbackAttempted && !fellBack
      ensures !old(DetectorArmed(hasUiGeometry)) ==> !fellBack && unchanged(this)
      ensures fellBack ==>
        && old(DetectorArmed(hasUiGeometry)) && autoFallbackAttempted
        && sample.Some? && NearClearColor(sample.value)
        && old(probableBlankFrameCount) + 1 == BlankFrameThreshold
        && TrailingBlank(blankSamples, BlankFrameThreshold)
        && probableBlankFrameCount == 0 && frameCounter == old(frameCounter) + 1
        && !useNativeDx12ImGui
        && (renderer == Some(SoftwareRenderer) <==> softwareInit.ok)
        && (running <==> old(running) && softwareInit.ok && imguiInitialized)
        && statusMessage == FallbackStatus(softwareInit, imguiInitialized)
      ensures !fellBack ==>
        && autoFallbackAttempted == old(autoFallbackAttempted)
        && renderer == old(renderer) && useNativeDx12ImGui == old(useNativeDx12ImGui)
        && statusMessage == old(statusMessage) && running == old(running) && frameCounter == old(frameCounter)
        && probableBlankFrameCount ==
             (if old(DetectorArmed(hasUiGeometry)) && sample.Some?
              then (if NearClearColor(sample.value) then old(probableBlankFrameCount) + 1 else 0)
              else old(probableBlankFrameCount))
    {
      if !DetectorArmed(hasUiGeometry) {
        return false;
      }
      if sample.Some? {
        var nearClearColor := NearClearColor(sample.value);
        BlankRunExtend(blankSamples, probableBlankFrameCount);
        blankSamples := blankSamples + [nearClearColor];
        probableBlankFrameCount := if nearClearColor then probableBlankFrameCount + 1 else 0;
      }
      if probableBlankFrameCount < BlankFrameThreshold {
        return false;
      }
      FallBackToSoftware(softwareInit, imguiInitialized);
      probableBlankFrameCount := 0;
      frameCounter := frameCounter + 1;
      return true;
    }

    /**
     * The automatic fallback: drop the accelerated renderer and start the
     * software one, reporting in the status which step failed.
     */
    method FallBackToSoftware(softwareInit: InitResult, imguiInitialized: bool)
      requires !useNativeDx12ImGui
      modifies this`autoFallbackAttempted, this`renderer, this`useNativeDx12ImGui, this`statusMessage, this`running
      ensures autoFallbackAttempted && !useNativeDx12ImGui
      ensures renderer == Some(SoftwareRenderer) <==> softwareInit.ok
      ensures renderer.Some? ==> renderer == Some(SoftwareRenderer)
      ensures running <==> old(running) && softwareInit.ok && imguiInitialized
      ensures statusMessage == FallbackStatus(softwareInit, imguiInitialized)
    {
      autoFallbackAttempted := true;
      renderer := None;
      if !softwareInit.ok {
        statusMessage := "Automatic software fallback failed: " + softwareInit.error;
        running := false;
      } else {
        renderer := Some(SoftwareRenderer);
        useNativeDx12ImGui := false;
        if !imguiInitialized {
          statusMessage := "Automatic software fallback failed during ImGui initialization.";
          running := false;
        } else {
          statusMessage := "Detected blank accelerated output. Switched to software renderer.";
        }
      }
    }

    /** The end of an ordinary frame. */
    method FinishFrame()
      modifies this`frameCounter
      ensures frameCounter == old(frameCounter) + 1
    {
      frameCounter := frameCounter + 1;
    }
  }

  /** The status the fallback leaves behind. */
  function FallbackStatus(softwareInit: InitResult, imguiInitialized: bool): string {
    if !softwareInit.ok then "Automatic software fallback failed: " + softwareInit.error
    else if !imguiInitialized then "Automatic software fallback failed during ImGui initialization."
    else "Detected blank accelerated output. Switched to software renderer."
  }

  /**
   * The status `CreateRenderer` reports when no backend started, built from
   * the errors the attempt loop kept: the forced backend's error, or all three.
   */
  method ComposeFailedStatus(requestedBackendName: string, requestedBackend: Option<RendererBackend>,
                             preferNativeDx12: bool, initialize: Renderer -> InitResult,
                             dx12Error: string, vulkanError: string, softwareError: string)
    returns (message: string)
    requires ErrorsRecorded(BuildRendererAttemptOrder(requestedBackend), preferNativeDx12, initialize,
                            dx12Error, vulkanError, softwareError)
    ensures message == FailedStatus(requestedBackendName, requestedBackend, preferNativeDx12, initialize)
  {
    if requestedBackend.Some? {
      ForcedOrder(requestedBackend.value);
      assert requestedBackend.value in BuildRendererAttemptOrder(requestedBackend);
      message := "Requested renderer backend failed. ENGINE_RENDERER=" + requestedBackendName + ", error: ";
      if requestedBackend.value == Dx12 {
        message := message + dx12Error;
      } else if requestedBackend.value == Vulkan {
        message := message + vulkanError;
      } else {
        message := message + softwareError;
      }
      return;
    }
    AutomaticOrder();
    message := "Failed to create renderer. DX12: " + dx12Error + " | Vulkan: " + vulkanError
      + " | Software: " + softwareError;
  }

  /** Each failed backend among `tried` left its initialization error in its own slot. */
  predicate ErrorsRecorded(tried: seq<RendererBackend>, preferNativeDx12: bool, initialize: Renderer -> InitResult,
                           dx12Error: string, vulkanError: string, softwareError: string) {
    && (Dx12 in tried ==> dx12Error == initialize(RendererFor(Dx12, preferNativeDx12)).error)
    && (Vulkan in tried ==> vulkanError == initialize(VulkanRenderer).error)
    && (Software in tried ==> softwareError == initialize(SoftwareRenderer).error)
  }

  lemma ErrorsRecordedStep(tried: seq<RendererBackend>, backend: RendererBackend, preferNativeDx12: bool,
                           initialize: Renderer -> InitResult,
                           dx12Error: string, vulkanError: string, softwareError: string,
                           dx12Error': string, vulkanError': string, softwareError': string)
    requires ErrorsRecorded(tried, preferNativeDx12, initialize, dx12Error, vulkanError, softwareError)
    requires var error := initialize(RendererFor(backend, preferNativeDx12)).error;
      && dx12Error' == (if backend == Dx12 then error else dx12Error)
      && vulkanError' == (if backend == Vulkan then error else vulkanError)
      && softwareError' == (if backend == Software then error else softwareError)
    ensures ErrorsRecorded(tried + [backend], preferNativeDx12, initialize, dx12Error', vulkanError', softwareError')
  {
    assert forall b :: b in tried + [backend] <==> b in tried || b == backend;
  }

  /** The `if` chain that files a failed backend's error under that backend. */
  method KeepError(backend: RendererBackend, error: string, dx12Error: string, vulkanError: string, softwareError: string)
    returns (dx12Error': string, vulkanError': string, softwareError': string)
    ensures dx12Error' == if backend == Dx12 then error else dx12Error
    ensures vulkanError' == if backend == Vulkan then error else vulkanError
    ensures softwareError' == if backend == Software then error else softwareError
  {
    dx12Error', vulkanError', softwareError' := dx12Error, vulkanError, softwareError;
    if backend == Dx12 {
      dx12Error' := error;
    } else if backend == Vulkan {
      vulkanError' := error;
    } else {
      softwareError' := error;
    }
  }

  /** `tried[j]` is the renderer built for `order[j]`. */
  predicate BuiltInOrder(tried: seq<Renderer>, order: seq<RendererBackend>, preferNativeDx12: bool) {
    |tried| == |order| && forall j :: 0 <= j < |order| ==> tried[j] == RendererFor(order[j], preferNativeDx12)
  }

  lemma BuiltInOrderIsRenderersFor(tried: seq<Renderer>, order: seq<RendererBackend>, preferNativeDx12: bool)
    requires BuiltInOrder(tried, order, preferNativeDx12)
    ensures tried == RenderersFor(order, preferNativeDx12)
  {
  }

  lemma FirstWorkingIsFirst(order: seq<RendererBackend>, preferNativeDx12: bool, initialize: Renderer -> InitResult, i: nat)
    requires i < |order| && initialize(RendererFor(order[i], preferNativeDx12)).ok
    requires forall j :: 0 <= j < i ==> !initialize(RendererFor(order[j], preferNativeDx12)).ok
    ensures FirstWorking(order, preferNativeDx12, initialize) == Some(i)
  {
  }

  lemma NoneWorking(order: seq<RendererBackend>, preferNativeDx12: bool, initialize: Renderer -> InitResult)
    requires forall j :: 0 <= j < |order| ==> !initialize(RendererFor(order[j], preferNativeDx12)).ok
    ensures FirstWorking(order, preferNativeDx12, initialize).None?
  {
  }
}

=== FILE: backend_selection.dfy ===
/**
 * Choosing which renderer backend to start (RendererBackendSelection.cpp):
 * parsing the ENGINE_RENDERER value, the order in which backends are tried,
 * and the canonical backend names.
 */
module BackendSelection {
  import opened Wrappers

  datatype RendererBackend = Dx12 | Vulkan | Software

  /** `std::tolower` in the "C" locale: only 'A'..'Z' change. */
  function ToLowerAscii(c: char): char {
    if 'A' <= c <= 'Z' then (c as int + 32) as char else c
  }

  /** The `std::transform` pass that lower-cases the whole value. */
  function ToLower(s: string): string {
    seq(|s|, i requires 0 <= i < |s| => ToLowerAscii(s[i]))
  }

  /** Two strings that differ only in the case of ASCII letters. */
  predicate SameIgnoringCase(s: string, t: string) {
    |s| == |t| && forall i :: 0 <= i < |s| ==> ToLowerAscii(s[i]) == ToLowerAscii(t[i])
  }

  function RendererBackendName(backend: RendererBackend): (name: string)
    ensures ParseRendererBackend(name) == Some(backend)
  {
    match backend
    case Dx12 => "dx12"
    case Vulkan => "vulkan"
    case Software => "software"
  }

  function ParseRendererBackend(value: string): Option<RendererBackend> {
    var normalized := ToLower(value);
    if normalized == "" then None
    else if normalized == "dx12" then Some(Dx12)
    else if normalized == "vulkan" then Some(Vulkan)
    else if normalized == "software" then Some(Software)
    else None
  }

  function BuildRendererAttemptOrder(requestedBackend: Option<RendererBackend>): seq<RendererBackend> {
    if requestedBackend.Some? then [requestedBackend.value] else [Dx12, Vulkan, Software]
  }

  /** Parsing succeeds exactly on the values whose lower-cased form is a backend name. */
  lemma ParseSomeIff(value: string, backend: RendererBackend)
    ensures ParseRendererBackend(value) == Some(backend) <==> ToLower(value) == RendererBackendName(backend)
  {
  }

  /** Parsing is case-insensitive: values equal up to ASCII case parse alike. */
  lemma ParseIgnoresCase(s: string, t: string)
    requires SameIgnoringCase(s, t)
    ensures ParseRendererBackend(s) == ParseRendererBackend(t)
  {
    assert ToLower(s) == ToLower(t);
  }

  /** Every spelling of a backend name, in any mix of cases, selects that backend. */
  lemma ParseAnyCasingOfName(value: string, backend: RendererBackend)
    requires SameIgnoringCase(value, RendererBackendName(backend))
    ensures ParseRendererBackend(value) == Some(backend)
  {
    var name := RendererBackendName(backend);
    assert ToLower(name) == name;
    ParseIgnoresCase(value, name);
  }

  /** The empty value and any value that is no backend name in any casing give "none". */
  lemma ParseNoneIff(value: string)
    ensures ParseRendererBackend(value) == None <==>
      (value == [] || forall b :: !SameIgnoringCase(value, RendererBackendName(b)))
  {
    if ParseRendererBackend(value) == None {
      forall b ensures !SameIgnoringCase(value, RendererBackendName(b)) {
        if SameIgnoringCase(value, RendererBackendName(b)) {
          ParseAnyCasingOfName(value, b);
        }
      }
    } else {
      var b := ParseRendererBackend(value).value;
      var name := RendererBackendName(b);
      assert ToLower(value) == name;
      assert SameIgnoringCase(value, name) by {
        forall i | 0 <= i < |value| ensures ToLowerAscii(value[i]) == ToLowerAscii(name[i]) {
          assert ToLower(value)[i] == name[i];
        }
      }
    }
  }

  /** The values exercised by the unit tests. */
  lemma ParseExamples()
    ensures ParseRendererBackend("") == None
    ensures ParseRendererBackend("DX12") == Some(Dx12)
    ensures ParseRendererBackend("VuLkAn") == Some(Vulkan)
    ensures ParseRendererBackend("software") == Some(Software)
    ensures ParseRendererBackend("metal") == None
  {
    assert ToLower("DX12") == "dx12";
    assert ToLower("VuLkAn") == "vulkan";
    assert ToLower("software") == "software";
    assert ToLower("metal") == "metal";
  }

  /** Without a request every backend is tried once, hardware first: dx12, vulkan, software. */
  lemma AutomaticOrder()
    ensures BuildRendererAttemptOrder(None) == [Dx12, Vulkan, Software]
    ensures forall b :: multiset(BuildRendererAttemptOrder(None))[b] == 1
  {
    var order := BuildRendererAttemptOrder(None);
    assert multiset(order) == multiset{Dx12} + multiset{Vulkan} + multiset{Software};
    forall b ensures multiset(order)[b] == 1 {
      match b
      case Dx12 => assert multiset(order)[Dx12] == 1;
      case Vulkan => assert multiset(order)[Vulkan] == 1;
      case Software => assert multiset(order)[Software] == 1;
    }
  }

  /** A requested backend is the only one tried: no fallback. */
  lemma ForcedOrder(backend: RendererBackend)
    ensures |BuildRendererAttemptOrder(Some(backend))| == 1
    ensures BuildRendererAttemptOrder(Some(backend))[0] == backend
  {
  }
}

=== FILE: batching.dfy ===
/**
 * The draw loop of the native Direct3D 12 textured pass: the sorted
 * triangles are split into maximal runs sharing colour handle, opacity handle
 * and transparency, one `DrawInstanced` each, and the pipeline state is
 * switched only when transparency changes (NativeDx12Renderer.cpp, the
 * batching loop).
 */
module Batching {
  import opened TexturedTriangles
  import opened DrawOrder

  /** One draw call of the textured pass. */
  datatype DrawCall = DrawCall(
    colorTextureHandle: nat, opacityTextureHandle: nat, isTransparent: bool,
    setsPipeline: bool, startVertex: nat, vertexCount: nat)

  /** A triangle is drawn by a call that binds its handles and its pipeline. */
  predicate Matches(t: TexturedTriangle, d: DrawCall) {
    && t.colorTextureHandle == d.colorTextureHandle
    && t.opacityTextureHandle == d.opacityTextureHandle
    && t.isTransparent == d.isTransparent
  }

  /** Triangle `t` lies inside the vertex range of `d`. */
  predicate Covers(d: DrawCall, t: nat) {
    d.startVertex <= 3 * t < d.startVertex + d.vertexCount
  }

  function EndVertex(d: DrawCall): nat {
    d.startVertex + d.vertexCount
  }

  /** Whole-triangle, non-empty ranges, one after another, covering the first `3 * n` vertices. */
  predicate TilesVertices(draws: seq<DrawCall>, n: nat) {
    && (n == 0 <==> |draws| == 0)
    && (forall k :: 0 <= k < |draws| ==>
          draws[k].vertexCount > 0 && draws[k].startVertex % 3 == 0 && draws[k].vertexCount % 3 == 0)
    && (|draws| > 0 ==> draws[0].startVertex == 0 && EndVertex(draws[|draws| - 1]) == 3 * n)
    && (forall k :: 0 < k < |draws| ==> draws[k].startVertex == EndVertex(draws[k - 1]))
  }

  /** Each of the first `n` triangles matches every call whose range covers it. */
  predicate CallsMatch(s: seq<TexturedTriangle>, n: nat, draws: seq<DrawCall>)
    requires n <= |s|
  {
    forall k, t :: 0 <= k < |draws| && 0 <= t < n && Covers(draws[k], t) ==> Matches(s[t], draws[k])
  }

  /** A call starts only where the triangle differs from the previous call. */
  predicate RunsMaximal(s: seq<TexturedTriangle>, n: nat, draws: seq<DrawCall>)
    requires n <= |s|
  {
    forall k, t :: 0 < k < |draws| && 0 <= t < n && 3 * t == draws[k].startVertex ==> !Matches(s[t], draws[k - 1])
  }

  /** The pipeline is set on the first call and whenever transparency changes. */
  predicate PipelineFlags(draws: seq<DrawCall>) {
    && (|draws| > 0 ==> draws[0].setsPipeline)
    && (forall k :: 0 < k < |draws| ==>
          draws[k].setsPipeline == (draws[k - 1].isTransparent != draws[k].isTransparent))
  }

  /**
   * `draws` batches the first `n` triangles of `s`: whole triangles in
   * contiguous non-empty ranges that tile the first `3 * n` vertices, each
   * triangle matching its call, consecutive calls split only where the
   * next triangle differs, and the pipeline set on the first call and
   * whenever transparency changes.
   */
  predicate BatchesPrefix(s: seq<TexturedTriangle>, n: nat, draws: seq<DrawCall>)
    requires n <= |s|
  {
    TilesVertices(draws, n) && CallsMatch(s, n, draws) && RunsMaximal(s, n, draws) && PipelineFlags(draws)
  }

  predicate IsBatching(s: seq<TexturedTriangle>, draws: seq<DrawCall>) {
    BatchesPrefix(s, |s|, draws)
  }

  /** The inner loop: the end of the run of triangles that match the one at `first`. */
  method RunEnd(s: seq<TexturedTriangle>, first: nat) returns (end: nat)
    requires first < |s|
    ensures first < end <= |s|
    ensures forall t :: first <= t < end ==> Matches(s[t], DrawCall(s[first].colorTextureHandle, s[first].opacityTextureHandle, s[first].isTransparent, false, 0, 0))
    ensures end < |s| ==> !Matches(s[end], DrawCall(s[first].colorTextureHandle, s[first].opacityTextureHandle, s[first].isTransparent, false, 0, 0))
  {
    end := first + 1;
    while end < |s| &&
          s[end].colorTextureHandle == s[first].colorTextureHandle &&
          s[end].opacityTextureHandle == s[first].opacityTextureHandle &&
          s[end].isTransparent == s[first].isTransparent
      invariant first < end <= |s|
      invariant forall t :: first <= t < end ==> Matches(s[t], DrawCall(s[first].colorTextureHandle, s[first].opacityTextureHandle, s[first].isTransparent, false, 0, 0))
      decreases |s| - end
    {
      end := end + 1;
    }
  }

  /** Appending the call for a maximal run extends a batching of the prefix before it. */
  lemma AppendRun(s: seq<TexturedTriangle>, first: nat, end: nat, draws: seq<DrawCall>, d: DrawCall)
    requires first < end <= |s|
    requires BatchesPrefix(s, first, draws)
    requires d.startVertex == 3 * first && d.vertexCount == 3 * (end - first)
    requires forall t :: first <= t < end ==> Matches(s[t], d)
    requires |draws| > 0 ==> !Matches(s[first], draws[|draws| - 1])
    requires d.setsPipeline == (|draws| == 0 || draws[|draws| - 1].isTransparent != d.isTransparent)
    ensures BatchesPrefix(s, end, draws + [d])
  {
    AppendTiles(first, end, draws, d);
    AppendMatches(s, first, end, draws, d);
    AppendMaximal(s, first, end, draws, d);
    AppendFlags(draws, d);
  }

  lemma AppendTiles(first: nat, end: nat, draws: seq<DrawCall>, d: DrawCall)
    requires first < end && TilesVertices(draws, first)
    requires d.startVertex == 3 * first && d.vertexCount == 3 * (end - first)
    ensures TilesVertices(draws + [d], end)
  {
    var draws' := draws + [d];
    forall k | 0 < k < |draws'| ensures draws'[k].startVertex == EndVertex(draws'[k - 1]) {
      if k < |draws| {
        assert draws'[k] == draws[k] && draws'[k - 1] == draws[k - 1];
      }
    }
  }

  lemma AppendMatches(s: seq<TexturedTriangle>, first: nat, end: nat, draws: seq<DrawCall>, d: DrawCall)
    requires first < end <= |s|
    requires TilesVertices(draws, first) && CallsMatch(s, first, draws)
    requires d.startVertex == 3 * first
    requires forall t :: first <= t < end ==> Matches(s[t], d)
    ensures CallsMatch(s, end, draws + [d])
  {
    var draws' := draws + [d];
    forall k, t | 0 <= k < |draws'| && 0 <= t < end && Covers(draws'[k], t)
      ensures Matches(s[t], draws'[k])
    {
      if k < |draws| {
        EndsBelow(first, draws, k);
        assert draws'[k] == draws[k];
      }
    }
  }

  lemma AppendMaximal(s: seq<TexturedTriangle>, first: nat, end: nat, draws: seq<DrawCall>, d: DrawCall)
    requires first < end <= |s|
    requires TilesVertices(draws, first) && RunsMaximal(s, first, draws)
    requires d.startVertex == 3 * first
    requires |draws| > 0 ==> !Matches(s[first], draws[|draws| - 1])
    ensures RunsMaximal(s, end, draws + [d])
  {
    var draws' := draws + [d];
    forall k, t | 0 < k < |draws'| && 0 <= t < end && 3 * t == draws'[k].startVertex
      ensures !Matches(s[t], draws'[k - 1])
    {
      if k < |draws| {
        EndsBelow(first, draws, k);
        assert draws'[k] == draws[k] && draws'[k - 1] == draws[k - 1];
      }
    }
  }

  lemma AppendFlags(draws: seq<DrawCall>, d: DrawCall)
    requires PipelineFlags(draws)
    requires d.setsPipeline == (|draws| == 0 || draws[|draws| - 1].isTransparent != d.isTransparent)
    ensures PipelineFlags(draws + [d])
  {
    var draws' := draws + [d];
    forall k | 0 < k < |draws'|
      ensures draws'[k].setsPipeline == (draws'[k - 1].isTransparent != draws'[k].isTransparent)
    {
      assert draws'[k - 1] == draws[k - 1];
      if k < |draws| {
        assert draws'[k] == draws[k];
      }
    }
  }

  /** In a tiling of a prefix every call ends within the prefix. */
  lemma {:induction false} EndsBelow(n: nat, draws: seq<DrawCall>, k: nat)
    requires TilesVertices(draws, n) && k < |draws|
    ensures EndVertex(draws[k]) <= 3 * n
    decreases |draws| - k
  {
    if k < |draws| - 1 {
      EndsBelow(n, draws, k + 1);
    }
  }

  /** The batching loop: one call per maximal run, in triangle order. */
  method BuildDrawCalls(s: seq<TexturedTriangle>) returns (draws: seq<DrawCall>)
    ensures IsBatching(s, draws)
  {
    draws := [];
    var currentTransparencyState := false;
    var hasCurrentTransparencyState := false;
    var first := 0;
    while first < |s|
      invariant first <= |s|
      invariant BatchesPrefix(s, first, draws)
      invariant hasCurrentTransparencyState <==> |draws| > 0
      invariant |draws| > 0 ==> currentTransparencyState == draws[|draws| - 1].isTransparent
      invariant first < |s| && |draws| > 0 ==> !Matches(s[first], draws[|draws| - 1])
      decreases |s| - first
    {
      var end := RunEnd(s, first);
      var batchIsTransparent := s[first].isTransparent;
      var setsPipeline := false;
      if !hasCurrentTransparencyState || currentTransparencyState != batchIsTransparent {
        setsPipeline := true;
        currentTransparencyState := batchIsTransparent;
        hasCurrentTransparencyState := true;
      }
      var d := DrawCall(s[first].colorTextureHandle, s[first].opacityTextureHandle, batchIsTransparent,
                        setsPipeline, 3 * first, 3 * (end - first));
      AppendRun(s, first, end, draws, d);
      draws := draws + [d];
      first := end;
    }
  }

  /** The first triangle of each call is a triangle of the input that the call draws. */
  lemma FirstTriangle(s: seq<TexturedTriangle>, draws: seq<DrawCall>, k: nat) returns (t: nat)
    requires IsBatching(s, draws) && k < |draws|
    ensures t < |s| && 3 * t == draws[k].startVertex && Matches(s[t], draws[k])
  {
    EndsBelow(|s|, draws, k);
    t := draws[k].startVertex / 3;
    assert Covers(draws[k], t);
  }

  /** After the sort, opaque calls precede transparent ones. */
  lemma SortedCallsOpaqueFirst(s: seq<TexturedTriangle>, draws: seq<DrawCall>, i: nat, j: nat)
    requires IsBatching(s, draws) && DrawOrdered(s) && i < j < |draws|
    ensures draws[i].isTransparent ==> draws[j].isTransparent
  {
    var ti := FirstTriangle(s, draws, i);
    var tj := FirstTriangle(s, draws, j);
    EndBeforeStart(s, draws, i, j);
    OpaqueFirst(s, ti, tj);
  }

  /**
   * After the sort the pipeline is set at most twice: on the first call, and
   * on at most one later call, where the opaque calls give way to the
   * transparent ones.
   */
  lemma PipelineSwitchesOnce(s: seq<TexturedTriangle>, draws: seq<DrawCall>, i: nat, j: nat)
    requires IsBatching(s, draws) && DrawOrdered(s)
    requires 0 < i < |draws| && 0 < j < |draws| && draws[i].setsPipeline && draws[j].setsPipeline
    ensures i == j
    ensures !draws[i - 1].isTransparent && draws[i].isTransparent
  {
    SortedCallsOpaqueFirst(s, draws, i - 1, i);
    SortedCallsOpaqueFirst(s, draws, j - 1, j);
    if i < j {
      SortedCallsOpaqueFirst(s, draws, i, j - 1);
    } else if j < i {
      SortedCallsOpaqueFirst(s, draws, j, i - 1);
    }
  }

  /** Every sorted triangle is drawn by exactly one call, and that call binds its handles and pipeline. */
  lemma CallOf(s: seq<TexturedTriangle>, draws: seq<DrawCall>, t: nat) returns (k: nat)
    requires IsBatching(s, draws) && t < |s|
    ensures k < |draws| && Covers(draws[k], t) && Matches(s[t], draws[k])
    ensures forall j :: 0 <= j < |draws| && Covers(draws[j], t) ==> j == k
  {
    k := CoveringCall(s, draws, t, |draws| - 1);
    forall j | 0 <= j < |draws| && Covers(draws[j], t) ensures j == k {
      if j < k {
        EndBeforeStart(s, draws, j, k);
      } else if k < j {
        EndBeforeStart(s, draws, k, j);
      }
    }
  }

  /** Calls do not overlap: an earlier call ends before a later one starts. */
  lemma {:induction false} EndBeforeStart(s: seq<TexturedTriangle>, draws: seq<DrawCall>, i: nat, j: nat)
    requires IsBatching(s, draws) && i < j < |draws|
    ensures EndVertex(draws[i]) <= draws[j].startVertex
    decreases j - i
  {
    if i + 1 < j {
      EndBeforeStart(s, draws, i + 1, j);
    }
  }

  lemma {:induction false} CoveringCall(s: seq<TexturedTriangle>, draws: seq<DrawCall>, t: nat, last: nat) returns (k: nat)
    requires IsBatching(s, draws) && last < |draws| && 3 * t < EndVertex(draws[last])
    ensures k <= last && Covers(draws[k], t)
    decreases last
  {
    if 3 * t >= draws[last].startVertex {
      k := last;
    } else {
      k := CoveringCall(s, draws, t, last - 1);
    }
  }

  /**
   * Triangles that all bind the same textures and share one transparency
   * class are drawn by a single call covering every vertex, which sets the
   * pipeline of that class.
   */
  lemma SingleStyleOneCall(s: seq<TexturedTriangle>, draws: seq<DrawCall>)
    requires IsBatching(s, draws) && s != []
    requires forall t :: 0 <= t < |s| ==>
      && s[t].colorTextureHandle == s[0].colorTextureHandle
      && s[t].opacityTextureHandle == s[0].opacityTextureHandle
      && s[t].isTransparent == s[0].isTransparent
    ensures |draws| == 1
    ensures draws[0].startVertex == 0 && draws[0].vertexCount == 3 * |s|
    ensures draws[0].setsPipeline && draws[0].isTransparent == s[0].isTransparent
  {
    var first := FirstTriangle(s, draws, 0);
    if |draws| > 1 {
      var t := FirstTriangle(s, draws, 1);
      assert Matches(s[t], draws[0]);
      assert false;
    }
  }
}

=== FILE: draw_order.dfy ===
/**
 * The order in which the native Direct3D 12 renderer draws its textured
 * triangles: opaque triangles first, nearest first; then transparent ones,
 * farthest first (the comparator handed to `std::sort` in
 * NativeDx12Renderer.cpp).
 */
module DrawOrder {
  import opened TexturedTriangles

  /** The comparator: `Before(l, r)` when `l` must be drawn before `r`. */
  predicate Before(l: TexturedTriangle, r: TexturedTriangle) {
    if l.isTransparent != r.isTransparent then !l.isTransparent
    else if l.isTransparent then l.depthKey > r.depthKey
    else l.depthKey < r.depthKey
  }

  /** `a` may precede `b` in a sorted sequence: `b` is not strictly before `a`. */
  predicate KeyLE(a: TexturedTriangle, b: TexturedTriangle) {
    !Before(b, a)
  }

  /** The comparator is a strict weak ordering, as `std::sort` demands of it. */
  lemma BeforeIsStrictWeakOrder(a: TexturedTriangle, b: TexturedTriangle, c: TexturedTriangle)
    ensures !Before(a, a)
    ensures Before(a, b) ==> !Before(b, a)
    ensures Before(a, b) && Before(b, c) ==> Before(a, c)
    ensures KeyLE(a, b) && KeyLE(b, c) ==> KeyLE(a, c)
  {
  }

  /** Any two triangles are comparable one way or the other. */
  lemma KeyLETotal(a: TexturedTriangle, b: TexturedTriangle)
    ensures KeyLE(a, b) || KeyLE(b, a)
  {
  }

  /** No triangle is drawn after one that must come before it. */
  predicate DrawOrdered(s: seq<TexturedTriangle>) {
    forall i, j :: 0 <= i < j < |s| ==> KeyLE(s[i], s[j])
  }

  predicate LowerBound(a: TexturedTriangle, s: seq<TexturedTriangle>) {
    forall k :: 0 <= k < |s| ==> KeyLE(a, s[k])
  }

  /** Inserting into a draw-ordered sequence keeps a lower bound of both the sequence and the new triangle. */
  lemma {:induction false} InsertKeepsLowerBound(a: TexturedTriangle, x: TexturedTriangle, s: seq<TexturedTriangle>)
    requires DrawOrdered(s) && LowerBound(a, s) && KeyLE(a, x)
    ensures LowerBound(a, Insert(x, s))
    decreases |s|, 1
  {
    if s != [] && !KeyLE(x, s[0]) {
      InsertKeepsLowerBound(a, x, s[1..]);
    }
  }

  /** Insertion of one triangle into a draw-ordered sequence. */
  function Insert(x: TexturedTriangle, s: seq<TexturedTriangle>): (r: seq<TexturedTriangle>)
    requires DrawOrdered(s)
    ensures multiset(r) == multiset(s) + multiset{x}
    ensures DrawOrdered(r)
    decreases |s|, 0
  {
    if s == [] then [x]
    else if KeyLE(x, s[0]) then
      assert forall k :: 0 <= k < |s| ==> KeyLE(s[0], s[k]);
      assert LowerBound(x, s) by {
        forall k | 0 <= k < |s| ensures KeyLE(x, s[k]) { BeforeIsStrictWeakOrder(x, s[0], s[k]); }
      }
      PrependKeepsOrder(x, s);
      [x] + s
    else
      KeyLETotal(x, s[0]);
      var rest := Insert(x, s[1..]);
      assert LowerBound(s[0], s[1..]);
      InsertKeepsLowerBound(s[0], x, s[1..]);
      PrependKeepsOrder(s[0], rest);
      assert s == [s[0]] + s[1..];
      [s[0]] + rest
  }

  /** A lower bound of a draw-ordered sequence may be drawn before all of it. */
  lemma PrependKeepsOrder(a: TexturedTriangle, s: seq<TexturedTriangle>)
    requires DrawOrdered(s) && LowerBound(a, s)
    ensures DrawOrdered([a] + s)
  {
    var r := [a] + s;
    forall i, j | 0 <= i < j < |r| ensures KeyLE(r[i], r[j]) {
      assert r[j] == s[j - 1];
      if i > 0 {
        assert r[i] == s[i - 1];
      }
    }
  }

  /**
   * The outcome of the sort: a rearrangement of its input in draw order.
   * `std::sort` is not stable, so any such rearrangement is a possible
   * outcome; this one is an insertion sort.
   */
  function SortByDrawOrder(s: seq<TexturedTriangle>): (r: seq<TexturedTriangle>)
    ensures multiset(r) == multiset(s)
    ensures DrawOrdered(r)
  {
    if s == [] then []
    else
      assert s == s[..|s| - 1] + [s[|s| - 1]];
      Insert(s[|s| - 1], SortByDrawOrder(s[..|s| - 1]))
  }

  /** In draw order every opaque triangle precedes every transparent one. */
  lemma OpaqueFirst(s: seq<TexturedTriangle>, i: int, j: int)
    requires DrawOrdered(s) && 0 <= i < j < |s|
    ensures s[i].isTransparent ==> s[j].isTransparent
  {
    assert KeyLE(s[i], s[j]);
  }

  /** Opaque triangles are drawn nearest first, transparent ones farthest first. */
  lemma DepthOrder(s: seq<TexturedTriangle>, i: int, j: int)
    requires DrawOrdered(s) && 0 <= i < j < |s|
    ensures !s[i].isTransparent && !s[j].isTransparent ==> s[i].depthKey <= s[j].depthKey
    ensures s[i].isTransparent && s[j].isTransparent ==> s[i].depthKey >= s[j].depthKey
  {
    assert KeyLE(s[i], s[j]);
  }
}

=== FILE: fbx_loader.dfy ===
/**
 * Model assembly in the importer (FbxLoader.cpp, `FbxLoader::LoadModel`).
 *
 * The importer library is replaced by an abstract scene: a sequence of meshes
 * (a null mesh pointer is `None`), each with its vertices, an optional first
 * UV channel, its faces (index lists) and the texture paths its material
 * resolves to ("" when a slot has none), plus the material opacity the
 * importer's material properties yield. What remains is the assembly of the
 * shared vertex, texture-coordinate and index buffers, the texture-path
 * interning, the submesh records and the final validity check.
 */
module FbxLoader {
  import opened Wrappers
  import opened Models

  /** Resolved texture path per material slot, "" when the material has none. */
  datatype MaterialTextures = MaterialTextures(
    color: string, opacity: string, normal: string, emissive: string, specular: string)

  datatype SceneMesh = SceneMesh(
    vertices: seq<Vec3>,
    uvChannel: Option<seq<Vec2>>,
    faces: seq<seq<nat>>,
    textures: MaterialTextures,
    materialOpacity: real)

  /**
   * An imported animation. Its duration in seconds and tick rate are taken as
   * already converted from the importer's ticks; only the clip name is derived here.
   */
  datatype SceneAnimation = SceneAnimation(name: string, durationSeconds: real, ticksPerSecond: real)

  datatype Scene = Scene(meshes: seq<Option<SceneMesh>>, animations: seq<Option<SceneAnimation>>)

  /** What the importer returns: no usable scene (with the importer's message) or a scene. */
  datatype ImportResult = ImportFailed(message: string) | Imported(scene: Scene)

  const NoGeometryError: string := "FBX load succeeded but no triangle geometry was found."
  const CutoutAlphaCutoff: real := 0.35
  const OpaqueThreshold: real := 0.999

  /** The importer guarantees a UV channel, when present, has one entry per vertex. */
  predicate SceneWellFormed(scene: Scene) {
    forall k :: 0 <= k < |scene.meshes| && scene.meshes[k].Some? ==>
      var m := scene.meshes[k].value;
      m.uvChannel.Some? ==> |m.uvChannel.value| == |m.vertices|
  }

  predicate Distinct(s: seq<string>) {
    forall i, j :: 0 <= i < j < |s| ==> s[i] != s[j]
  }

  // ---------------------------------------------------------------------
  // Texture-path interning (the `registerTexturePath` lambda)
  // ---------------------------------------------------------------------

  /** Position of the first occurrence of `p` in `paths`. */
  function IndexOf(paths: seq<string>, p: string): (r: nat)
    requires p in paths
    ensures r < |paths| && paths[r] == p
    ensures forall j :: 0 <= j < r ==> paths[j] != p
  {
    if paths[0] == p then 0 else 1 + IndexOf(paths[1..], p)
  }

  /** The path list after registering `p`. */
  function RegisteredPaths(paths: seq<string>, p: string): seq<string> {
    if p == "" || p in paths then paths else paths + [p]
  }

  /** The index registering `p` returns. */
  function RegisteredIndex(paths: seq<string>, p: string): int {
    if p == "" then -1 else if p in paths then IndexOf(paths, p) else |paths|
  }

  /**
   * Registering keeps the list duplicate-free in first-seen order: the empty
   * path yields -1 and changes nothing, a known path yields its earlier index
   * and changes nothing, a new path is appended and yields the old length.
   */
  lemma RegisterSpec(paths: seq<string>, p: string)
    requires Distinct(paths) && "" !in paths
    ensures var r := RegisteredIndex(paths, p); var paths' := RegisteredPaths(paths, p);
      && Distinct(paths') && "" !in paths'
      && paths <= paths'
      && (r == -1 <==> p == "")
      && (r != -1 ==> 0 <= r < |paths'| && paths'[r] == p)
      && (p in paths ==> paths' == paths && r < |paths|)
      && (p != "" && p !in paths ==> paths' == paths + [p] && r == |paths|)
  {
  }

  /** The importer's texture lookup: the path list and the map from path to index. */
  class TextureRegistry {
    var texturePaths: seq<string>
    var textureLookup: map<string, int>

    ghost predicate Valid()
      reads this
    {
      && Distinct(texturePaths)
      && "" !in texturePaths
      && (forall p :: p in textureLookup <==> p in texturePaths)
      && (forall p :: p in textureLookup ==>
            0 <= textureLookup[p] < |texturePaths| && texturePaths[textureLookup[p]] == p)
    }

    constructor ()
      ensures Valid() && texturePaths == []
    {
      texturePaths := [];
      textureLookup := map[];
    }

    method Register(texturePath: string) returns (textureIndex: int)
      requires Valid()
      modifies this
      ensures Valid()
      ensures texturePaths == RegisteredPaths(old(texturePaths), texturePath)
      ensures textureIndex == RegisteredIndex(old(texturePaths), texturePath)
    {
      if texturePath == "" {
        return -1;
      }
      if texturePath in textureLookup {
        textureIndex := textureLookup[texturePath];
        assert textureIndex == IndexOf(texturePaths, texturePath);
        return;
      }
      textureIndex := |texturePaths|;
      texturePaths := texturePaths + [texturePath];
      textureLookup := textureLookup[texturePath := textureIndex];
    }
  }

  // ---------------------------------------------------------------------
  // Specification of the assembly, mesh by mesh
  // ---------------------------------------------------------------------

  /** The buffers and lists `LoadModel` fills, as they stand between meshes. */
  datatype Assembly = Assembly(
    positions: seq<Vec3>,
    texCoords: seq<Vec2>,
    indices: seq<nat>,
    primaryTexturePath: string,
    texturePaths: seq<string>,
    submeshes: seq<ModelSubmesh>)

  /** A mesh is used only when it exists and has vertices and faces. */
  predicate Contributes(m: Option<SceneMesh>) {
    m.Some? && |m.value.vertices| != 0 && |m.value.faces| != 0
  }

  /** One texture coordinate per vertex: the first UV channel, or (0, 0) without one. */
  function MeshTexCoords(mesh: SceneMesh): (uvs: seq<Vec2>)
    requires mesh.uvChannel.Some? ==> |mesh.uvChannel.value| == |mesh.vertices|
    ensures |uvs| == |mesh.vertices|
  {
    if mesh.uvChannel.Some? then mesh.uvChannel.value else seq(|mesh.vertices|, _ => Vec2(0.0, 0.0))
  }

  /** The indices emitted for `faces`: only 3-index faces, each offset by the base vertex. */
  function FaceIndices(faces: seq<seq<nat>>, baseVertex: nat): seq<nat>
  {
    if faces == [] then []
    else
      var face := faces[|faces| - 1];
      FaceIndices(faces[..|faces| - 1], baseVertex) + FaceTriangle(face, baseVertex)
  }

  /** The indices one face emits: its three indices offset by the base, or none unless it has exactly three. */
  function FaceTriangle(face: seq<nat>, baseVertex: nat): (tri: seq<nat>)
    ensures |tri| == (if |face| == 3 then 3 else 0)
    ensures forall i :: 0 <= i < |tri| ==> tri[i] == baseVertex + face[i]
  {
    if |face| == 3 then [baseVertex + face[0], baseVertex + face[1], baseVertex + face[2]] else []
  }

  /** Each emitted index is a face index plus the base, so it lies in the mesh's vertex range. */
  lemma {:induction false} FaceIndicesShape(faces: seq<seq<nat>>, baseVertex: nat, vertexCount: nat)
    requires forall f, j :: 0 <= f < |faces| && 0 <= j < |faces[f]| ==> faces[f][j] < vertexCount
    ensures |FaceIndices(faces, baseVertex)| <= 3 * |faces|
    ensures forall i :: 0 <= i < |FaceIndices(faces, baseVertex)| ==>
      baseVertex <= FaceIndices(faces, baseVertex)[i] < baseVertex + vertexCount
  {
    if faces != [] {
      var prefix := faces[..|faces| - 1];
      var face := faces[|faces| - 1];
      assert forall f, j :: 0 <= f < |prefix| && 0 <= j < |prefix[f]| ==> prefix[f][j] < vertexCount by {
        forall f, j | 0 <= f < |prefix| && 0 <= j < |prefix[f]| ensures prefix[f][j] < vertexCount {
          assert prefix[f] == faces[f];
        }
      }
      FaceIndicesShape(prefix, baseVertex, vertexCount);
      var before := FaceIndices(prefix, baseVertex);
      var tri := FaceTriangle(face, baseVertex);
      assert FaceIndices(faces, baseVertex) == before + tri;
      assert forall i :: 0 <= i < |tri| ==> baseVertex <= tri[i] < baseVertex + vertexCount by {
        forall i | 0 <= i < |tri| ensures baseVertex <= tri[i] < baseVertex + vertexCount {
          assert face[i] < vertexCount;
        }
      }
    }
  }

  /** The indices registering a material's five slots returned, in slot order. */
  datatype SlotIndices = SlotIndices(color: int, opacity: int, normal: int, emissive: int, specular: int)

  /** Registering the colour, opacity, normal, emissive and specular paths, in that order. */
  function RegisterMaterial(paths: seq<string>, tex: MaterialTextures): (seq<string>, SlotIndices) {
    var p1 := RegisteredPaths(paths, tex.color);
    var p2 := RegisteredPaths(p1, tex.opacity);
    var p3 := RegisteredPaths(p2, tex.normal);
    var p4 := RegisteredPaths(p3, tex.emissive);
    (RegisteredPaths(p4, tex.specular),
     SlotIndices(RegisteredIndex(paths, tex.color), RegisteredIndex(p1, tex.opacity),
                 RegisteredIndex(p2, tex.normal), RegisteredIndex(p3, tex.emissive),
                 RegisteredIndex(p4, tex.specular)))
  }

  /** A slot index is -1 exactly for an empty slot, and otherwise names that slot's path. */
  predicate SlotResolved(i: int, path: string, paths: seq<string>) {
    (i == -1 <==> path == "") && (i != -1 ==> 0 <= i < |paths| && paths[i] == path)
  }

  lemma RegisterMaterialSpec(paths: seq<string>, tex: MaterialTextures)
    requires Distinct(paths) && "" !in paths
    ensures var (paths', refs) := RegisterMaterial(paths, tex);
      && Distinct(paths') && "" !in paths' && paths <= paths'
      && SlotResolved(refs.color, tex.color, paths')
      && SlotResolved(refs.opacity, tex.opacity, paths')
      && SlotResolved(refs.normal, tex.normal, paths')
      && SlotResolved(refs.emissive, tex.emissive, paths')
      && SlotResolved(refs.specular, tex.specular, paths')
      && (tex.color != "" ==> tex.color in paths')
  {
    var p1 := RegisteredPaths(paths, tex.color);
    var p2 := RegisteredPaths(p1, tex.opacity);
    var p3 := RegisteredPaths(p2, tex.normal);
    var p4 := RegisteredPaths(p3, tex.emissive);
    var p5 := RegisteredPaths(p4, tex.specular);
    RegisterResolves(paths, tex.color);
    RegisterResolves(p1, tex.opacity);
    RegisterResolves(p2, tex.normal);
    RegisterResolves(p3, tex.emissive);
    RegisterResolves(p4, tex.specular);
    var refs := RegisterMaterial(paths, tex).1;
    ResolvedAsPathsGrow(refs.color, tex.color, p1, p5);
    ResolvedAsPathsGrow(refs.opacity, tex.opacity, p2, p5);
    ResolvedAsPathsGrow(refs.normal, tex.normal, p3, p5);
    ResolvedAsPathsGrow(refs.emissive, tex.emissive, p4, p5);
  }

  /** One registration, stated with `SlotResolved`. */
  lemma RegisterResolves(paths: seq<string>, p: string)
    requires Distinct(paths) && "" !in paths
    ensures var paths' := RegisteredPaths(paths, p);
      && Distinct(paths') && "" !in paths' && paths <= paths'
      && SlotResolved(RegisteredIndex(paths, p), p, paths')
  {
    RegisterSpec(paths, p);
  }

  /** A resolved slot stays resolved when later registrations append to the list. */
  lemma ResolvedAsPathsGrow(i: int, path: string, paths: seq<string>, paths': seq<string>)
    requires SlotResolved(i, path, paths) && paths <= paths'
    ensures SlotResolved(i, path, paths')
  {
  }

  /** The submesh record built for a mesh that contributed triangles. */
  function MeshSubmesh(indexStart: nat, indexCount: nat, refs: SlotIndices,
                       materialOpacity: real, hasOpacityTexture: bool): ModelSubmesh
  {
    var opacity := Clamp01(materialOpacity);
    ModelSubmesh(indexStart, indexCount,
      refs.color, refs.opacity, refs.normal, refs.emissive, refs.specular,
      opacity,
      if hasOpacityTexture then CutoutAlphaCutoff else 0.0,
      !hasOpacityTexture && opacity < OpaqueThreshold,
      hasOpacityTexture,
      hasOpacityTexture)
  }

  /** Appending a mesh's vertices, texture coordinates and offset triangle indices. */
  function GrowBuffers(acc: Assembly, mesh: SceneMesh): Assembly
    requires mesh.uvChannel.Some? ==> |mesh.uvChannel.value| == |mesh.vertices|
  {
    acc.(positions := acc.positions + mesh.vertices,
         texCoords := acc.texCoords + MeshTexCoords(mesh),
         indices := acc.indices + FaceIndices(mesh.faces, |acc.positions|))
  }

  /** Recording the submesh for the indices from `indexStart` on, with its material. */
  function AddSubmesh(acc: Assembly, indexStart: nat, mesh: SceneMesh): Assembly
    requires indexStart <= |acc.indices|
  {
    var tex := mesh.textures;
    var (paths, refs) := RegisterMaterial(acc.texturePaths, tex);
    acc.(primaryTexturePath := if acc.primaryTexturePath == "" && tex.color != "" then tex.color else acc.primaryTexturePath,
         texturePaths := paths,
         submeshes := acc.submeshes + [MeshSubmesh(indexStart, |acc.indices| - indexStart, refs,
                                                   mesh.materialOpacity, tex.opacity != "")])
  }

  /** The effect of one pass of the mesh loop. */
  function Step(acc: Assembly, m: Option<SceneMesh>): Assembly
    requires m.Some? && m.value.uvChannel.Some? ==> |m.value.uvChannel.value| == |m.value.vertices|
  {
    if !Contributes(m) then acc
    else
      var grown := GrowBuffers(acc, m.value);
      if |grown.indices| == |acc.indices| then grown
      else AddSubmesh(grown, |acc.indices|, m.value)
  }

  /** The assembly after the mesh loop has visited every mesh of `meshes`. */
  function AssembleMeshes(meshes: seq<Option<SceneMesh>>): Assembly
    requires SceneWellFormed(Scene(meshes, []))
  {
    if meshes == [] then Assembly([], [], [], "", [], [])
    else Step(AssembleMeshes(meshes[..|meshes| - 1]), meshes[|meshes| - 1])
  }

  /** The single fallback submesh over the whole index buffer. */
  function FallbackSubmesh(indexCount: nat, textureIndex: int): ModelSubmesh {
    ModelSubmesh(0, indexCount, textureIndex, -1, -1, -1, -1, 1.0, 0.0, false, false, false)
  }

  /** After the mesh loop: one fallback submesh when triangles exist but no submesh was made. */
  function WithFallback(acc: Assembly): Assembly {
    if acc.submeshes == [] && acc.indices != [] then
      acc.(texturePaths := RegisteredPaths(acc.texturePaths, acc.primaryTexturePath),
           submeshes := [FallbackSubmesh(|acc.indices|, RegisteredIndex(acc.texturePaths, acc.primaryTexturePath))])
    else acc
  }

  /** Decimal digits of `n`, as `std::to_string` prints a non-negative integer. */
  function DecimalString(n: nat): (s: string)
    ensures |s| != 0
    ensures forall i :: 0 <= i < |s| ==> '0' <= s[i] <= '9'
  {
    var digit := ['0' + (n % 10) as char];
    if n < 10 then digit else DecimalString(n / 10) + digit
  }

  /** The clip made from the animation at position `index`: an unnamed one is called "Animation <index + 1>". */
  function SceneClip(animation: SceneAnimation, index: nat): (clip: AnimationClip)
    ensures |clip.name| != 0
    ensures animation.name != "" ==> clip.name == animation.name
    ensures animation.name == "" ==> "Animation " < clip.name
  {
    AnimationClip(
      if animation.name != "" then animation.name else "Animation " + DecimalString(index + 1),
      animation.durationSeconds, animation.ticksPerSecond)
  }

  /** The clips of the scene, skipping null entries, in order. */
  function SceneClips(animations: seq<Option<SceneAnimation>>): (clips: seq<AnimationClip>)
    ensures |clips| <= |animations|
    ensures forall k :: 0 <= k < |clips| ==> |clips[k].name| != 0
  {
    if animations == [] then []
    else
      var last := animations[|animations| - 1];
      SceneClips(animations[..|animations| - 1]) +
        (if last.Some? then [SceneClip(last.value, |animations| - 1)] else [])
  }

  /** The model `LoadModel` leaves behind for an imported scene. */
  function LoadedModel(filePath: string, scene: Scene): ModelData
    requires SceneWellFormed(scene)
  {
    assert SceneWellFormed(Scene(scene.meshes, []));
    var acc := WithFallback(AssembleMeshes(scene.meshes));
    ModelData(acc.positions, acc.texCoords, acc.indices, acc.primaryTexturePath,
              acc.texturePaths, acc.submeshes, SceneClips(scene.animations), filePath)
  }

  // ---------------------------------------------------------------------
  // Invariants of the assembly
  // ---------------------------------------------------------------------

  /** A submesh's texture index is -1 or names a registered path. */
  predicate TextureRef(i: int, paths: seq<string>) {
    i == -1 || 0 <= i < |paths|
  }

  /** The material flags the importer derives: cutout and inversion follow the opacity texture. */
  predicate MaterialFlagsConsistent(s: ModelSubmesh) {
    && s.alphaCutoutEnabled == s.opacityTextureInverted
    && s.alphaCutoutEnabled == (s.opacityTextureIndex != -1)
    && s.alphaCutoff == (if s.alphaCutoutEnabled then CutoutAlphaCutoff else 0.0)
    && (s.isTransparent <==> !s.alphaCutoutEnabled && s.opacity < OpaqueThreshold)
    && 0.0 <= s.opacity <= 1.0
  }

  predicate SubmeshWellFormed(s: ModelSubmesh, paths: seq<string>) {
    && s.indexCount != 0 && s.indexCount % 3 == 0 && s.indexStart % 3 == 0
    && TextureRef(s.textureIndex, paths) && TextureRef(s.opacityTextureIndex, paths)
    && TextureRef(s.normalTextureIndex, paths) && TextureRef(s.emissiveTextureIndex, paths)
    && TextureRef(s.specularTextureIndex, paths)
    && MaterialFlagsConsistent(s)
  }

  /** The submeshes cover the index buffer exactly, one after another, in order. */
  predicate TilesIndices(subs: seq<ModelSubmesh>, indexCount: nat) {
    && (subs == [] <==> indexCount == 0)
    && (subs != [] ==>
          subs[0].indexStart == 0 && subs[|subs| - 1].indexStart + subs[|subs| - 1].indexCount == indexCount)
    && (forall k :: 0 <= k < |subs| - 1 ==> subs[k].indexStart + subs[k].indexCount == subs[k + 1].indexStart)
  }

  predicate AssemblyInvariant(acc: Assembly) {
    && |acc.texCoords| == |acc.positions|
    && |acc.indices| % 3 == 0
    && Distinct(acc.texturePaths) && "" !in acc.texturePaths
    && TilesIndices(acc.submeshes, |acc.indices|)
    && (forall k :: 0 <= k < |acc.submeshes| ==> SubmeshWellFormed(acc.submeshes[k], acc.texturePaths))
    && (acc.primaryTexturePath != "" ==> acc.primaryTexturePath in acc.texturePaths)
  }

  /** Growing the path list keeps every existing texture reference valid. */
  lemma PathsGrowKeepsRefs(subs: seq<ModelSubmesh>, paths: seq<string>, paths': seq<string>)
    requires paths <= paths'
    requires forall k :: 0 <= k < |subs| ==> SubmeshWellFormed(subs[k], paths)
    ensures forall k :: 0 <= k < |subs| ==> SubmeshWellFormed(subs[k], paths')
  {
  }

  lemma GrowKeepsInvariant(acc: Assembly, mesh: SceneMesh)
    requires mesh.uvChannel.Some? ==> |mesh.uvChannel.value| == |mesh.vertices|
    requires AssemblyInvariant(acc)
    requires |FaceIndices(mesh.faces, |acc.positions|)| == 0
    ensures AssemblyInvariant(GrowBuffers(acc, mesh))
  {
  }

  lemma AddSubmeshKeepsInvariant(acc: Assembly, grown: Assembly, mesh: SceneMesh)
    requires AssemblyInvariant(acc)
    requires grown.texturePaths == acc.texturePaths && grown.submeshes == acc.submeshes
    requires grown.primaryTexturePath == acc.primaryTexturePath
    requires |grown.texCoords| == |grown.positions|
    requires acc.indices <= grown.indices && |acc.indices| < |grown.indices| && |grown.indices| % 3 == 0
    ensures AssemblyInvariant(AddSubmesh(grown, |acc.indices|, mesh))
  {
    var tex := mesh.textures;
    var (paths, refs) := RegisterMaterial(acc.texturePaths, tex);
    RegisterMaterialSpec(acc.texturePaths, tex);
    PathsGrowKeepsRefs(acc.submeshes, acc.texturePaths, paths);
    var next := AddSubmesh(grown, |acc.indices|, mesh);
    var sub := MeshSubmesh(|acc.indices|, |grown.indices| - |acc.indices|, refs, mesh.materialOpacity, tex.opacity != "");
    assert next.submeshes == acc.submeshes + [sub];
    assert SubmeshWellFormed(sub, paths);
    assert TilesIndices(next.submeshes, |next.indices|);
  }

  lemma StepKeepsInvariant(acc: Assembly, m: Option<SceneMesh>)
    requires m.Some? && m.value.uvChannel.Some? ==> |m.value.uvChannel.value| == |m.value.vertices|
    requires AssemblyInvariant(acc)
    ensures AssemblyInvariant(Step(acc, m))
  {
    if Contributes(m) {
      var grown := GrowBuffers(acc, m.value);
      FaceIndicesCount(m.value.faces, |acc.positions|);
      if |grown.indices| == |acc.indices| {
        GrowKeepsInvariant(acc, m.value);
      } else {
        AddSubmeshKeepsInvariant(acc, grown, m.value);
      }
    }
  }

  /** The number of emitted indices is a multiple of 3. */
  lemma {:induction false} FaceIndicesCount(faces: seq<seq<nat>>, baseVertex: nat)
    ensures |FaceIndices(faces, baseVertex)| % 3 == 0
  {
    if faces != [] {
      FaceIndicesCount(faces[..|faces| - 1], baseVertex);
    }
  }

  lemma {:induction false} AssembleKeepsInvariant(meshes: seq<Option<SceneMesh>>)
    requires SceneWellFormed(Scene(meshes, []))
    ensures AssemblyInvariant(AssembleMeshes(meshes))
  {
    if meshes != [] {
      var prefix := meshes[..|meshes| - 1];
      assert SceneWellFormed(Scene(prefix, [])) by {
        forall k | 0 <= k < |prefix| ensures prefix[k] == meshes[k] { }
      }
      AssembleKeepsInvariant(prefix);
      StepKeepsInvariant(AssembleMeshes(prefix), meshes[|meshes| - 1]);
    }
  }

  /** Every mesh that emits triangles emits a submesh, so the fallback branch is never taken. */
  lemma FallbackNeverTaken(meshes: seq<Option<SceneMesh>>)
    requires SceneWellFormed(Scene(meshes, []))
    ensures AssembleMeshes(meshes).submeshes == [] ==> AssembleMeshes(meshes).indices == []
    ensures WithFallback(AssembleMeshes(meshes)) == AssembleMeshes(meshes)
  {
    AssembleKeepsInvariant(meshes);
  }

  /** What the fallback would add: one submesh over [0, |indices|), opacity 1, no flags. */
  lemma FallbackShape(acc: Assembly)
    requires acc.submeshes == [] && acc.indices != []
    ensures |WithFallback(acc).submeshes| == 1
    ensures var s := WithFallback(acc).submeshes[0];
      s.indexStart == 0 && s.indexCount == |acc.indices| && s.opacity == 1.0 && s.alphaCutoff == 0.0 &&
      !s.isTransparent && !s.alphaCutoutEnabled && !s.opacityTextureInverted &&
      s.opacityTextureIndex == -1 && s.normalTextureIndex == -1 &&
      s.emissiveTextureIndex == -1 && s.specularTextureIndex == -1
  {
  }

  /**
   * The loaded model's buffers line up: one texture coordinate per position,
   * whole triangles only, submeshes tiling the index buffer, each submesh's
   * texture indices -1 or in range of a duplicate-free path list, and
   * material flags consistent with the presence of an opacity texture.
   */
  lemma LoadedModelShape(filePath: string, scene: Scene)
    requires SceneWellFormed(scene)
    ensures var m := LoadedModel(filePath, scene);
      && |m.texCoords| == |m.positions|
      && |m.indices| % 3 == 0
      && Distinct(m.texturePaths) && "" !in m.texturePaths
      && TilesIndices(m.submeshes, |m.indices|)
      && (forall k :: 0 <= k < |m.submeshes| ==> SubmeshWellFormed(m.submeshes[k], m.texturePaths))
      && m.sourcePath == filePath
  {
    assert SceneWellFormed(Scene(scene.meshes, []));
    FallbackNeverTaken(scene.meshes);
    AssembleKeepsInvariant(scene.meshes);
  }

  /** Every submesh range lies inside the index buffer and is non-empty. */
  lemma SubmeshRangesInBounds(filePath: string, scene: Scene, k: nat)
    requires SceneWellFormed(scene)
    requires k < |LoadedModel(filePath, scene).submeshes|
    ensures var m := LoadedModel(filePath, scene);
      0 < m.submeshes[k].indexCount && m.submeshes[k].indexStart + m.submeshes[k].indexCount <= |m.indices|
  {
    LoadedModelShape(filePath, scene);
    var subs := LoadedModel(filePath, scene).submeshes;
    TilingBounds(subs, |LoadedModel(filePath, scene).indices|, k);
  }

  /** In a tiling, each range ends no later than the buffer does. */
  lemma {:induction false} TilingBounds(subs: seq<ModelSubmesh>, indexCount: nat, k: nat)
    requires TilesIndices(subs, indexCount) && k < |subs|
    ensures subs[k].indexStart + subs[k].indexCount <= indexCount
    decreases |subs| - k
  {
    if k < |subs| - 1 {
      TilingBounds(subs, indexCount, k + 1);
    }
  }

  /** The importer's guarantee that a face only names vertices of its own mesh. */
  predicate FacesInRange(meshes: seq<Option<SceneMesh>>) {
    forall k, f, j ::
      0 <= k < |meshes| && meshes[k].Some? && 0 <= f < |meshes[k].value.faces| && 0 <= j < |meshes[k].value.faces[f]|
      ==> meshes[k].value.faces[f][j] < |meshes[k].value.vertices|
  }

  /** With faces in range, every index of the assembled buffer names an assembled position. */
  lemma {:induction false} AssembledIndicesInRange(meshes: seq<Option<SceneMesh>>)
    requires SceneWellFormed(Scene(meshes, [])) && FacesInRange(meshes)
    ensures forall i :: 0 <= i < |AssembleMeshes(meshes).indices| ==>
      AssembleMeshes(meshes).indices[i] < |AssembleMeshes(meshes).positions|
  {
    if meshes != [] {
      var prefix := meshes[..|meshes| - 1];
      var m := meshes[|meshes| - 1];
      assert SceneWellFormed(Scene(prefix, [])) && FacesInRange(prefix) by {
        forall k | 0 <= k < |prefix| ensures prefix[k] == meshes[k] { }
      }
      AssembledIndicesInRange(prefix);
      var acc := AssembleMeshes(prefix);
      if Contributes(m) {
        var mesh := m.value;
        assert forall f, j :: 0 <= f < |mesh.faces| && 0 <= j < |mesh.faces[f]| ==> mesh.faces[f][j] < |mesh.vertices| by {
          forall f, j | 0 <= f < |mesh.faces| && 0 <= j < |mesh.faces[f]| ensures mesh.faces[f][j] < |mesh.vertices| {
            assert meshes[|meshes| - 1].value.faces[f][j] < |meshes[|meshes| - 1].value.vertices|;
          }
        }
        GrowKeepsIndicesInRange(acc, mesh);
        var grown := GrowBuffers(acc, mesh);
        var next := AssembleMeshes(meshes);
        assert next.indices == grown.indices && next.positions == grown.positions;
      }
    }
  }

  /** Appending a mesh whose faces are in range keeps every index naming a position. */
  lemma GrowKeepsIndicesInRange(acc: Assembly, mesh: SceneMesh)
    requires mesh.uvChannel.Some? ==> |mesh.uvChannel.value| == |mesh.vertices|
    requires forall f, j :: 0 <= f < |mesh.faces| && 0 <= j < |mesh.faces[f]| ==> mesh.faces[f][j] < |mesh.vertices|
    requires forall i :: 0 <= i < |acc.indices| ==> acc.indices[i] < |acc.positions|
    ensures var grown := GrowBuffers(acc, mesh);
      forall i :: 0 <= i < |grown.indices| ==> grown.indices[i] < |grown.positions|
  {
    var newIndices := FaceIndices(mesh.faces, |acc.positions|);
    FaceIndicesShape(mesh.faces, |acc.positions|, |mesh.vertices|);
    var grown := GrowBuffers(acc, mesh);
    assert grown.indices == acc.indices + newIndices;
    forall i | 0 <= i < |grown.indices| ensures grown.indices[i] < |grown.positions| {
      if i >= |acc.indices| {
        assert grown.indices[i] == newIndices[i - |acc.indices|];
      } else {
        assert grown.indices[i] == acc.indices[i];
      }
    }
  }

  /** A mesh emits indices exactly when it has a face of three indices. */
  predicate HasTriangleFace(mesh: SceneMesh) {
    exists f :: 0 <= f < |mesh.faces| && |mesh.faces[f]| == 3
  }

  lemma {:induction false} FaceIndicesEmptyIff(faces: seq<seq<nat>>, baseVertex: nat)
    ensures FaceIndices(faces, baseVertex) == [] <==> forall f :: 0 <= f < |faces| ==> |faces[f]| != 3
  {
    if faces != [] {
      var prefix := faces[..|faces| - 1];
      FaceIndicesEmptyIff(prefix, baseVertex);
      assert forall f :: 0 <= f < |prefix| ==> prefix[f] == faces[f];
    }
  }

  /** Some mesh exists, has vertices, and has a triangle face. */
  predicate SceneHasTriangles(meshes: seq<Option<SceneMesh>>) {
    exists k :: 0 <= k < |meshes| && Contributes(meshes[k]) && HasTriangleFace(meshes[k].value)
  }

  lemma {:induction false} AssembledGeometryIff(meshes: seq<Option<SceneMesh>>)
    requires SceneWellFormed(Scene(meshes, []))
    ensures var acc := AssembleMeshes(meshes);
      (acc.indices != [] <==> SceneHasTriangles(meshes)) && (acc.indices != [] ==> acc.positions != [])
  {
    if meshes != [] {
      var prefix := meshes[..|meshes| - 1];
      var m := meshes[|meshes| - 1];
      assert SceneWellFormed(Scene(prefix, [])) by {
        forall k | 0 <= k < |prefix| ensures prefix[k] == meshes[k] { }
      }
      AssembledGeometryIff(prefix);
      assert forall k :: 0 <= k < |prefix| ==> prefix[k] == meshes[k];
      var acc := AssembleMeshes(prefix);
      if Contributes(m) {
        FaceIndicesEmptyIff(m.value.faces, |acc.positions|);
      }
      if SceneHasTriangles(meshes) && !SceneHasTriangles(prefix) {
        var k :| 0 <= k < |meshes| && Contributes(meshes[k]) && HasTriangleFace(meshes[k].value);
        assert k == |meshes| - 1;
      }
    }
  }

  /**
   * An imported scene yields a valid model exactly when some mesh with
   * vertices has a three-index face; otherwise the load reports the
   * no-geometry error.
   */
  lemma LoadSucceedsIffTriangles(filePath: string, scene: Scene)
    requires SceneWellFormed(scene)
    ensures IsValid(LoadedModel(filePath, scene)) <==> SceneHasTriangles(scene.meshes)
  {
    assert SceneWellFormed(Scene(scene.meshes, []));
    FallbackNeverTaken(scene.meshes);
    AssembledGeometryIff(scene.meshes);
  }

  /** Every index of a loaded model names one of its positions. */
  lemma LoadedIndicesInRange(filePath: string, scene: Scene)
    requires SceneWellFormed(scene) && FacesInRange(scene.meshes)
    ensures var m := LoadedModel(filePath, scene);
      forall i :: 0 <= i < |m.indices| ==> m.indices[i] < |m.positions|
  {
    assert SceneWellFormed(Scene(scene.meshes, []));
    FallbackNeverTaken(scene.meshes);
    AssembledIndicesInRange(scene.meshes);
  }

  // ---------------------------------------------------------------------
  // The loader
  // ---------------------------------------------------------------------

  /** `TextureRegistry` registration of a material's five slots, in the importer's order. */
  method RegisterMaterialSlots(registry: TextureRegistry, tex: MaterialTextures) returns (refs: SlotIndices)
    requires registry.Valid()
    modifies registry
    ensures registry.Valid()
    ensures (registry.texturePaths, refs) == RegisterMaterial(old(registry.texturePaths), tex)
  {
    var textureIndex := registry.Register(tex.color);
    var opacityTextureIndex := registry.Register(tex.opacity);
    var normalTextureIndex := registry.Register(tex.normal);
    var emissiveTextureIndex := registry.Register(tex.emissive);
    var specularTextureIndex := registry.Register(tex.specular);
    refs := SlotIndices(textureIndex, opacityTextureIndex, normalTextureIndex, emissiveTextureIndex, specularTextureIndex);
  }

  /** The vertex loop of one mesh: positions, and the first UV channel or (0, 0) per vertex. */
  method AppendVertices(mesh: SceneMesh, positions: seq<Vec3>, texCoords: seq<Vec2>)
    returns (positions': seq<Vec3>, texCoords': seq<Vec2>)
    requires mesh.uvChannel.Some? ==> |mesh.uvChannel.value| == |mesh.vertices|
    ensures positions' == positions + mesh.vertices
    ensures texCoords' == texCoords + MeshTexCoords(mesh)
  {
    positions', texCoords' := positions, texCoords;
    var vertexIndex := 0;
    while vertexIndex < |mesh.vertices|
      invariant 0 <= vertexIndex <= |mesh.vertices|
      invariant positions' == positions + mesh.vertices[..vertexIndex]
      invariant texCoords' == texCoords + MeshTexCoords(mesh)[..vertexIndex]
    {
      positions' := positions' + [mesh.vertices[vertexIndex]];
      if mesh.uvChannel.Some? {
        texCoords' := texCoords' + [mesh.uvChannel.value[vertexIndex]];
      } else {
        texCoords' := texCoords' + [Vec2(0.0, 0.0)];
      }
      vertexIndex := vertexIndex + 1;
    }
    assert mesh.vertices[..vertexIndex] == mesh.vertices;
    assert MeshTexCoords(mesh)[..vertexIndex] == MeshTexCoords(mesh);
  }

  /** The face loop of one mesh: each three-index face appends its indices offset by the base vertex. */
  method AppendFaces(faces: seq<seq<nat>>, baseVertex: nat, indices: seq<nat>) returns (indices': seq<nat>)
    ensures indices' == indices + FaceIndices(faces, baseVertex)
  {
    indices' := indices;
    var faceIndex := 0;
    while faceIndex < |faces|
      invariant 0 <= faceIndex <= |faces|
      invariant indices' == indices + FaceIndices(faces[..faceIndex], baseVertex)
    {
      var face := faces[faceIndex];
      assert faces[..faceIndex + 1][..faceIndex] == faces[..faceIndex];
      if |face| == 3 {
        indices' := indices' + [baseVertex + face[0], baseVertex + face[1], baseVertex + face[2]];
      }
      faceIndex := faceIndex + 1;
    }
    assert faces[..faceIndex] == faces;
  }

  /** One pass of the mesh loop over a contributing mesh. */
  method AppendMesh(mesh: SceneMesh, positions: seq<Vec3>, texCoords: seq<Vec2>, indices: seq<nat>,
                    primaryTexturePath: string, submeshes: seq<ModelSubmesh>, registry: TextureRegistry)
    returns (positions': seq<Vec3>, texCoords': seq<Vec2>, indices': seq<nat>,
             primaryTexturePath': string, submeshes': seq<ModelSubmesh>)
    requires mesh.uvChannel.Some? ==> |mesh.uvChannel.value| == |mesh.vertices|
    requires Contributes(Some(mesh))
    requires registry.Valid()
    modifies registry
    ensures registry.Valid()
    ensures Assembly(positions', texCoords', indices', primaryTexturePath', registry.texturePaths, submeshes')
            == Step(Assembly(positions, texCoords, indices, primaryTexturePath, old(registry.texturePaths), submeshes), Some(mesh))
  {
    ghost var acc := Assembly(positions, texCoords, indices, primaryTexturePath, registry.texturePaths, submeshes);
    positions', texCoords' := AppendVertices(mesh, positions, texCoords);
    indices' := AppendFaces(mesh.faces, |positions|, indices);
    primaryTexturePath', submeshes' := primaryTexturePath, submeshes;
    ghost var grown := GrowBuffers(acc, mesh);
    assert grown == Assembly(positions', texCoords', indices', primaryTexturePath, registry.texturePaths, submeshes);
    var indexStart := |indices|;
    var indexCount := |indices'| - indexStart;
    if indexCount != 0 {
      var tex := mesh.textures;
      if primaryTexturePath' == "" && tex.color != "" {
        primaryTexturePath' := tex.color;
      }
      var refs := RegisterMaterialSlots(registry, tex);
      submeshes' := submeshes' + [MeshSubmesh(indexStart, indexCount, refs, mesh.materialOpacity, tex.opacity != "")];
      assert Assembly(positions', texCoords', indices', primaryTexturePath', registry.texturePaths, submeshes')
             == AddSubmesh(grown, indexStart, mesh);
    }
  }

  /** The mesh loop of `LoadModel`, filling the buffers and the texture registry. */
  method AssembleSceneMeshes(meshes: seq<Option<SceneMesh>>, registry: TextureRegistry)
    returns (positions: seq<Vec3>, texCoords: seq<Vec2>, indices: seq<nat>,
             primaryTexturePath: string, submeshes: seq<ModelSubmesh>)
    requires SceneWellFormed(Scene(meshes, []))
    requires registry.Valid() && registry.texturePaths == []
    modifies registry
    ensures registry.Valid()
    ensures Assembly(positions, texCoords, indices, primaryTexturePath, registry.texturePaths, submeshes)
            == AssembleMeshes(meshes)
  {
    positions, texCoords, indices, primaryTexturePath, submeshes := [], [], [], "", [];
    var meshIndex := 0;
    while meshIndex < |meshes|
      invariant 0 <= meshIndex <= |meshes|
      invariant registry.Valid()
      invariant SceneWellFormed(Scene(meshes[..meshIndex], []))
      invariant Assembly(positions, texCoords, indices, primaryTexturePath, registry.texturePaths, submeshes)
                == AssembleMeshes(meshes[..meshIndex])
    {
      var m := meshes[meshIndex];
      assert meshes[..meshIndex + 1][..meshIndex] == meshes[..meshIndex];
      if Contributes(m) {
        positions, texCoords, indices, primaryTexturePath, submeshes :=
          AppendMesh(m.value, positions, texCoords, indices, primaryTexturePath, submeshes, registry);
      }
      meshIndex := meshIndex + 1;
    }
    assert meshes[..meshIndex] == meshes;
  }

  /** The animation loop of `LoadModel`. */
  method CollectClips(sceneAnimations: seq<Option<SceneAnimation>>) returns (animations: seq<AnimationClip>)
    ensures animations == SceneClips(sceneAnimations)
  {
    animations := [];
    var animationIndex := 0;
    while animationIndex < |sceneAnimations|
      invariant 0 <= animationIndex <= |sceneAnimations|
      invariant animations == SceneClips(sceneAnimations[..animationIndex])
    {
      assert sceneAnimations[..animationIndex + 1][..animationIndex] == sceneAnimations[..animationIndex];
      var animation := sceneAnimations[animationIndex];
      if animation.Some? {
        animations := animations + [SceneClip(animation.value, animationIndex)];
      }
      animationIndex := animationIndex + 1;
    }
    assert sceneAnimations[..animationIndex] == sceneAnimations;
  }

  /**
   * `FbxLoader::LoadModel`. `outModel` is the model passed by reference: it is
   * returned untouched when the import itself fails, and otherwise replaced by
   * the assembled model, which is kept even when the final validity check fails.
   */
  method LoadModel(filePath: string, imported: ImportResult, outModel: ModelData)
    returns (ok: bool, model: ModelData, error: string)
    requires imported.Imported? ==> SceneWellFormed(imported.scene)
    ensures imported.ImportFailed? ==> !ok && model == outModel && error == imported.message
    ensures imported.Imported? ==> model == LoadedModel(filePath, imported.scene)
    ensures imported.Imported? ==> (ok <==> IsValid(model))
    ensures ok ==> error == ""
    ensures imported.Imported? && !ok ==> error == NoGeometryError
  {
    if imported.ImportFailed? {
      return false, outModel, imported.message;
    }
    var scene := imported.scene;
    assert SceneWellFormed(Scene(scene.meshes, []));
    var registry := new TextureRegistry();
    var positions, texCoords, indices, primaryTexturePath, submeshes :=
      AssembleSceneMeshes(scene.meshes, registry);
    ghost var acc := AssembleMeshes(scene.meshes);

    if |submeshes| == 0 && |indices| != 0 {
      var fallbackTextureIndex := registry.Register(primaryTexturePath);
      submeshes := submeshes + [FallbackSubmesh(|indices|, fallbackTextureIndex)];
    }
    assert Assembly(positions, texCoords, indices, primaryTexturePath, registry.texturePaths, submeshes)
           == WithFallback(acc);

    var animations := CollectClips(scene.animations);

    model := ModelData(positions, texCoords, indices, primaryTexturePath, registry.texturePaths,
                       submeshes, animations, filePath);
    if !IsValid(model) {
      return false, model, NoGeometryError;
    }
    return true, model, "";
  }
}

=== FILE: model_data.dfy ===
/**
 * The in-memory model produced by the importer and consumed by every renderer
 * (Engine/ModelData.hpp). Floating-point vectors and scalars are `real`;
 * `std::uint32_t` indices and counts are `nat`, `std::int32_t` texture indices
 * are `int` with -1 meaning "no texture".
 */
module Models {

  datatype Vec3 = Vec3(x: real, y: real, z: real)
  datatype Vec2 = Vec2(u: real, v: real)

  datatype AnimationClip = AnimationClip(name: string, durationSeconds: real, ticksPerSecond: real)

  /** A contiguous run of the shared index buffer drawn with one material. */
  datatype ModelSubmesh = ModelSubmesh(
    indexStart: nat,
    indexCount: nat,
    textureIndex: int,
    opacityTextureIndex: int,
    normalTextureIndex: int,
    emissiveTextureIndex: int,
    specularTextureIndex: int,
    opacity: real,
    alphaCutoff: real,
    isTransparent: bool,
    alphaCutoutEnabled: bool,
    opacityTextureInverted: bool)

  datatype ModelData = ModelData(
    positions: seq<Vec3>,
    texCoords: seq<Vec2>,
    indices: seq<nat>,
    primaryTexturePath: string,
    texturePaths: seq<string>,
    submeshes: seq<ModelSubmesh>,
    animations: seq<AnimationClip>,
    sourcePath: string)

  /** One more than the largest value of the source's 32-bit unsigned `UINT`. */
  const Uint32Modulus: nat := 0x1_0000_0000

  /** A default-constructed model: every container and string empty. */
  function EmptyModel(): ModelData {
    ModelData([], [], [], "", [], [], [], "")
  }

  /** The guard every renderer entry point and the importer apply to a model. */
  predicate IsValid(m: ModelData) {
    |m.positions| != 0 && |m.indices| != 0
  }

  /** A model is valid exactly when it has at least one position and at least one index. */
  lemma ValidIffGeometry(m: ModelData)
    ensures IsValid(m) <==> m.positions != [] && m.indices != []
  {
  }

  /** Validity looks at nothing but the position and index buffers. */
  lemma ValidityIgnoresAttributes(m: ModelData, m': ModelData)
    requires m.positions == m'.positions && m.indices == m'.indices
    ensures IsValid(m) == IsValid(m')
  {
  }

  /** The four cases of the unit test: empty, positions only, indices only, one triangle. */
  lemma ValidityExamples()
    ensures !IsValid(EmptyModel())
    ensures !IsValid(EmptyModel().(positions := [Vec3(0.0, 0.0, 0.0)]))
    ensures !IsValid(EmptyModel().(indices := [0, 1, 2]))
    ensures IsValid(EmptyModel().(
      positions := [Vec3(0.0, 0.0, 0.0), Vec3(1.0, 0.0, 0.0), Vec3(0.0, 1.0, 0.0)],
      indices := [0, 1, 2]))
  {
  }

  /** Triangle `t` is read from indices 3t, 3t+1, 3t+2. */
  predicate HasTriangle(indices: seq<nat>, t: nat) {
    3 * t + 2 < |indices|
  }

  /** The number of triangle slots a stride-3 walk over the index buffer visits; one or two trailing indices do not form one. */
  function TriangleCount(indices: seq<nat>): (n: nat)
    ensures n == 0 || HasTriangle(indices, n - 1)
    ensures !HasTriangle(indices, n)
  {
    |indices| / 3
  }

  /** `std::clamp(v, 0, 1)`, as the importer and the renderer apply it to opacities. */
  function Clamp01(v: real): (r: real)
    ensures 0.0 <= r <= 1.0
    ensures 0.0 <= v <= 1.0 ==> r == v
    ensures v < 0.0 ==> r == 0.0
    ensures 1.0 < v ==> r == 1.0
  {
    if v < 0.0 then 0.0 else if 1.0 < v then 1.0 else v
  }
}

=== FILE: native_renderer.dfy ===
/**
 * The state the native Direct3D 12 renderer (`NativeDx12Renderer::Impl`)
 * keeps between calls: the descriptor allocator, the two vertex buffers'
 * capacities, the model-texture cache, the per-frame fence values and the
 * fence counter. Every Direct3D object is reduced to whether it exists;
 * what the system reports (creation results, decoded images, the back
 * buffer index, the window size) arrives as parameters.
 */
module NativeRenderer {
  import opened Wrappers
  import opened Models
  import opened Viewing
  import opened NativeWire
  import opened SrvDescriptors
  import opened VertexBuffers
  import opened TextureCache
  import opened TexturedTriangles
  import opened DrawOrder
  import opened Batching

  /** Frames in flight: one fence value each. */
  const FrameCount: nat := 2

  const RendererName: string := "DirectX 12 Native"
  const WireBufferError: string := "CreateCommittedResource for wire vertex buffer failed"
  const TexturedBufferError: string := "CreateCommittedResource for textured vertex buffer failed"

  /** The wireframe is drawn over the model when asked for, and always when nothing textured was drawn. */
  predicate ShouldDrawWireOverlay(wireOverlayEnabled: bool, renderedAnyTexturedGeometry: bool) {
    wireOverlayEnabled || !renderedAnyTexturedGeometry
  }

  /** What one render call draws: the uploaded textured triangles with their draw calls, and the wire vertices. */
  datatype FrameDraws = FrameDraws(texturedTriangles: seq<TexturedTriangle>, drawCalls: seq<DrawCall>, wireVertices: seq<WireVertex>)

  const NothingDrawn: FrameDraws := FrameDraws([], [], [])

  /** What the system reports during one render call. */
  datatype RenderEnvironment = RenderEnvironment(
    viewportWidth: int, viewportHeight: int,
    transform: Transform,
    sources: string -> TextureSource,
    texturedBufferCreation: bool, texturedBufferMapped: bool,
    wireBufferCreation: bool, wireBufferMapped: bool)

  /** Every model position through the model-view-projection product and the perspective divide. */
  function ProjectAll(model: ModelData, camera: Camera, transform: Transform): (projected: seq<ClipVertex>)
    ensures |projected| == |model.positions|
    ensures forall v :: 0 <= v < |projected| ==> projected[v] == ProjectToNdc(transform(camera, model.positions[v]))
  {
    seq(|model.positions|, v requires 0 <= v < |model.positions| => ProjectToNdc(transform(camera, model.positions[v])))
  }

  /** A model the textured pass applies to. */
  predicate CanRenderTextured(model: ModelData) {
    |model.texCoords| == |model.positions| && model.texturePaths != [] && model.submeshes != []
  }

  /**
   * `EnsureModelTexturesUploaded` reports success: the model can be textured,
   * and either the cache already holds its paths or reloading them, after the
   * old entries are released, meets no failure.
   */
  predicate TexturesUploaded(model: ModelData, cachedPaths: seq<string>, cachedTextures: seq<CachedModelTexture>,
                             heap: SrvHeap, srv: SrvState, sources: string -> TextureSource) {
    && TexturableModel(model)
    && (|| CacheHit(cachedPaths, cachedTextures, model)
        || UploadPrefix(heap, ReleasePrefix(heap, srv, cachedTextures, |cachedTextures|),
                        model.texturePaths, sources, |model.texturePaths|).error.None?)
  }

  /** The vertex count of the textured pass, as the 32-bit `UINT` the source computes. */
  function TexturedVertexCount(triangles: seq<TexturedTriangle>): (count: nat)
    ensures count < Uint32Modulus
    ensures triangles == [] ==> count == 0
  {
    (|triangles| * 3) % Uint32Modulus
  }

  /**
   * The built triangles reach the screen: their vertex count is non-zero,
   * the textured buffer holds them or a larger one is created, and it maps.
   */
  predicate TexturedPassDraws(triangles: seq<TexturedTriangle>, buffer: VertexBuffer, env: RenderEnvironment) {
    var count := TexturedVertexCount(triangles);
    count > 0 && (LargeEnough(buffer, count) || env.texturedBufferCreation) && env.texturedBufferMapped
  }

  /** Rearranging triangles keeps every one of them, so every live handle stays live. */
  lemma LiveHandlesSurviveSort(built: seq<TexturedTriangle>, sorted: seq<TexturedTriangle>)
    requires multiset(sorted) == multiset(built)
    requires forall k :: 0 <= k < |built| ==> built[k].colorTextureHandle != 0 && built[k].opacityTextureHandle != 0
    ensures forall k :: 0 <= k < |sorted| ==> sorted[k].colorTextureHandle != 0 && sorted[k].opacityTextureHandle != 0
  {
    forall k | 0 <= k < |sorted|
      ensures sorted[k].colorTextureHandle != 0 && sorted[k].opacityTextureHandle != 0
    {
      assert sorted[k] in multiset(built);
    }
  }

  class NativeDx12Renderer {
    /** The command queue, the fence and its event exist. */
    var deviceReady: bool
    /** The command list, both root signatures and all three pipeline states exist. */
    var pipelinesReady: bool
    var srvHeap: SrvHeap
    var srvNextFreeIndex: nat
    var srvFreeList: seq<nat>
    var wireVertexBuffer: VertexBuffer
    var texturedVertexBuffer: VertexBuffer
    var modelTexturePaths: seq<string>
    var modelTextures: seq<CachedModelTexture>
    /** The descriptor slot each cached texture holds, 0 for none. */
    ghost var textureSlots: seq<nat>
    /** `frames[i].fenceValue`. */
    const frameFenceValues: array<nat>
    var frameIndex: nat
    var nextFenceValue: nat

    function Srv(): SrvState
      reads this
    {
      SrvState(srvNextFreeIndex, srvFreeList)
    }

    /**
     * The fence counter is ahead of every frame's fence value, the
     * allocator is well formed, the buffers' capacities fit a `UINT`, and
     * the cache keeps one entry per path.
     */
    ghost predicate Valid()
      reads this, frameFenceValues
    {
      && frameFenceValues.Length == FrameCount
      && frameIndex < FrameCount
      && nextFenceValue >= 1
      && (forall i :: 0 <= i < FrameCount ==> frameFenceValues[i] < nextFenceValue)
      && WellFormed(Srv())
      && (srvHeap.SrvHeap? ==> Usable(srvHeap) && srvHeap.cpuStart != 0 && srvHeap.gpuStart != 0)
      && BufferValid(wireVertexBuffer) && BufferValid(texturedVertexBuffer)
      && |modelTexturePaths| == |modelTextures|
      && CacheHoldsSlots(srvHeap, modelTextures, textureSlots, Srv())
    }

    /** The state of a renderer that is not initialized, or has been shut down. */
    ghost predicate Idle()
      reads this, frameFenceValues
    {
      && !deviceReady && !pipelinesReady && srvHeap == NoHeap
      && Srv() == InitialSrvState
      && wireVertexBuffer == NoBuffer && texturedVertexBuffer == NoBuffer
      && modelTexturePaths == [] && modelTextures == [] && textureSlots == []
      && frameFenceValues.Length == FrameCount
      && (forall i :: 0 <= i < FrameCount ==> frameFenceValues[i] == 0)
      && frameIndex == 0 && nextFenceValue == 1
    }

    /** The idle state satisfies the invariant. */
    lemma IdleIsValid()
      requires Idle()
      ensures Valid()
    {
      InitialWellFormed();
    }

    constructor ()
      ensures Valid() && Idle()
      ensures fresh(frameFenceValues)
    {
      deviceReady, pipelinesReady := false, false;
      srvHeap := NoHeap;
      srvNextFreeIndex, srvFreeList := 1, [];
      wireVertexBuffer, texturedVertexBuffer := NoBuffer, NoBuffer;
      modelTexturePaths, modelTextures := [], [];
      textureSlots := [];
      frameFenceValues := new nat[FrameCount](_ => 0);
      frameIndex, nextFenceValue := 0, 1;
    }

    /**
     * `Initialize`, reduced to its effect on this state: with every device
     * object created (`created` holds the descriptor heap), the allocator
     * restarts at slot 1 with an empty free list.
     */
    method Initialize(created: Option<SrvHeap>) returns (ok: bool)
      requires Valid() && Idle()
      requires created.Some? ==> Usable(created.value) && created.value.cpuStart != 0 && created.value.gpuStart != 0
      modifies this`deviceReady, this`pipelinesReady, this`srvHeap, this`srvNextFreeIndex, this`srvFreeList
      ensures Valid()
      ensures ok == created.Some?
      ensures ok ==> deviceReady && pipelinesReady && srvHeap == created.value && Srv() == InitialSrvState
      ensures !ok ==> Idle()
    {
      if created.None? {
        deviceReady, pipelinesReady := false, false;
        ok := false;
      } else {
        srvHeap := created.value;
        srvNextFreeIndex := 1;
        srvFreeList := [];
        deviceReady, pipelinesReady := true, true;
        ok := true;
      }
    }

    /**
     * `AllocateSrvDescriptor`: the handles of the slot `Allocate` picks, a
     * slot that was not in use before and is now.
     */
    method AllocateSrvDescriptor() returns (ok: bool, cpuHandle: nat, gpuHandle: nat)
      requires WellFormed(Srv())
      modifies this`srvNextFreeIndex, this`srvFreeList
      ensures WellFormed(Srv())
      ensures var a := Allocate(srvHeap, old(Srv()));
        && ok == a.ok && Srv() == a.state
        && (ok ==> srvHeap.SrvHeap? && cpuHandle == CpuHandle(srvHeap, a.index) && gpuHandle == GpuHandle(srvHeap, a.index))
        && (ok ==> 1 <= a.index < SrvDescriptorCount && a.index !in InUse(old(Srv())) && InUse(Srv()) == InUse(old(Srv())) + {a.index})
    {
      if Allocate(srvHeap, Srv()).ok {
        AllocateTakesFreeSlot(srvHeap, Srv());
      }
      if srvHeap.NoHeap? || srvHeap.descriptorSize == 0 {
        return false, 0, 0;
      }
      var descriptorIndex := 0;
      if srvFreeList != [] {
        descriptorIndex := srvFreeList[|srvFreeList| - 1];
        srvFreeList := srvFreeList[..|srvFreeList| - 1];
      } else {
        if srvNextFreeIndex >= SrvDescriptorCount {
          return false, 0, 0;
        }
        descriptorIndex := srvNextFreeIndex;
        srvNextFreeIndex := srvNextFreeIndex + 1;
      }
      cpuHandle := srvHeap.cpuStart + descriptorIndex * srvHeap.descriptorSize;
      gpuHandle := srvHeap.gpuStart + descriptorIndex * srvHeap.descriptorSize;
      ok := true;
    }

    /** `FreeSrvDescriptor`: only the CPU handle is consulted. */
    method FreeSrvDescriptor(cpuHandle: nat, gpuHandle: nat)
      modifies this`srvFreeList
      ensures Srv() == Free(srvHeap, cpuHandle, old(Srv()))
    {
      if srvHeap.NoHeap? || srvHeap.descriptorSize == 0 || cpuHandle == 0 {
        return;
      }
      if cpuHandle < srvHeap.cpuStart {
        return;
      }
      var offset := cpuHandle - srvHeap.cpuStart;
      var descriptorIndex := (offset / srvHeap.descriptorSize) % Uint32Modulus;
      if descriptorIndex < SrvDescriptorCount {
        srvFreeList := srvFreeList + [descriptorIndex];
      }
    }

    /** `EnsureWireVertexBuffer`; `creationSucceeds` is the outcome of creating a new buffer. */
    method EnsureWireVertexBuffer(requiredVertexCount: nat, creationSucceeds: bool, outError: string)
      returns (ok: bool, error: string)
      requires Valid() && requiredVertexCount < Uint32Modulus
      modifies this`wireVertexBuffer
      ensures Valid()
      ensures var e := EnsureCapacity(old(wireVertexBuffer), requiredVertexCount, creationSucceeds);
        ok == e.ok && wireVertexBuffer == e.buffer
      ensures error == if ok then outError else WireBufferError
    {
      var e := EnsureCapacity(wireVertexBuffer, requiredVertexCount, creationSucceeds);
      EnsureCapacitySpec(wireVertexBuffer, requiredVertexCount, creationSucceeds);
      ok, error := e.ok, if e.ok then outError else WireBufferError;
      wireVertexBuffer := e.buffer;
    }

    /** `EnsureTexturedVertexBuffer`, the same logic for the textured buffer. */
    method EnsureTexturedVertexBuffer(requiredVertexCount: nat, creationSucceeds: bool, outError: string)
      returns (ok: bool, error: string)
      requires Valid() && requiredVertexCount < Uint32Modulus
      modifies this`texturedVertexBuffer
      ensures Valid()
      ensures var e := EnsureCapacity(old(texturedVertexBuffer), requiredVertexCount, creationSucceeds);
        ok == e.ok && texturedVertexBuffer == e.buffer
      ensures error == if ok then outError else TexturedBufferError
    {
      var e := EnsureCapacity(texturedVertexBuffer, requiredVertexCount, creationSucceeds);
      EnsureCapacitySpec(texturedVertexBuffer, requiredVertexCount, creationSucceeds);
      ok, error := e.ok, if e.ok then outError else TexturedBufferError;
      texturedVertexBuffer := e.buffer;
    }

    /** `ReleaseModelTextures`: every entry holding a descriptor returns it, and the cache is emptied. */
    method ReleaseModelTextures()
      requires Valid()
      modifies this`srvFreeList, this`modelTexturePaths, this`modelTextures, this`textureSlots
      ensures Valid()
      ensures Srv() == ReleasePrefix(srvHeap, old(Srv()), old(modelTextures), |old(modelTextures)|)
      ensures modelTexturePaths == [] && modelTextures == []
    {
      for k := 0 to |modelTextures|
        invariant modelTextures == old(modelTextures) && textureSlots == old(textureSlots)
        invariant modelTexturePaths == old(modelTexturePaths)
        invariant Srv() == ReleasePrefix(srvHeap, old(Srv()), modelTextures, k)
      {
        var texture := modelTextures[k];
        if texture.srvCpuDescriptor != 0 || texture.srvGpuDescriptor != 0 {
          FreeSrvDescriptor(texture.srvCpuDescriptor, texture.srvGpuDescriptor);
        }
      }
      ReleaseReturnsSlots(srvHeap, old(Srv()), modelTextures, textureSlots, |modelTextures|);
      modelTextures := [];
      modelTexturePaths := [];
      textureSlots := [];
    }

    /**
     * One pass of the upload loop in `EnsureModelTexturesUploaded`: record
     * the path and its entry, scan the alpha channel, then create, fill and
     * describe the texture, stopping at the first step that fails.
     */
    method UploadTexture(path: string, source: TextureSource) returns (failure: Option<string>)
      requires Valid()
      modifies this`srvNextFreeIndex, this`srvFreeList, this`modelTexturePaths, this`modelTextures, this`textureSlots
      ensures Valid()
      ensures UploadState(modelTexturePaths, modelTextures, Srv(), failure) ==
        UploadOne(srvHeap, UploadState(old(modelTexturePaths), old(modelTextures), old(Srv()), None), path, source)
      ensures textureSlots ==
        if source.DecodeFailed? then old(textureSlots)
        else if failure.None? then old(textureSlots) + [Allocate(srvHeap, old(Srv())).index]
        else old(textureSlots) + [0]
    {
      if source.DecodeFailed? {
        failure := Some(source.message);
      } else {
        failure := RecordDecoded(path, source);
      }
    }

    /** The steps of one upload pass after the image decoded. */
    method RecordDecoded(path: string, source: TextureSource) returns (failure: Option<string>)
      requires Valid() && source.Decoded?
      modifies this`srvNextFreeIndex, this`srvFreeList, this`modelTexturePaths, this`modelTextures, this`textureSlots
      ensures WellFormed(Srv()) && |modelTexturePaths| == |modelTextures|
      ensures CacheHoldsSlots(srvHeap, modelTextures, textureSlots, Srv())
      ensures UploadState(modelTexturePaths, modelTextures, Srv(), failure) ==
        UploadOne(srvHeap, UploadState(old(modelTexturePaths), old(modelTextures), old(Srv()), None), path, source)
      ensures textureSlots ==
        old(textureSlots) + [if failure.None? then Allocate(srvHeap, old(Srv())).index else 0]
    {
      ghost var before := UploadState(modelTexturePaths, modelTextures, Srv(), None);
      modelTexturePaths := modelTexturePaths + [path];
      var hasTransparency := ScanAlpha(source.pixels);
      // The entry is recorded whatever happens next; each step fills in what it created.
      var entry := CachedModelTexture(path, source.resourceCreated, false, 0, 0, hasTransparency);
      ghost var slot;
      entry, slot, failure := CreateTexture(entry, source);
      UploadOneDecoded(srvHeap, before, textureSlots, path, source, entry, Srv(), slot, failure);
      modelTextures := modelTextures + [entry];
      textureSlots := textureSlots + [slot];
    }

    /**
     * The steps of one upload pass after decoding: create the texture and
     * its upload buffer, map the buffer, and describe the texture in a fresh
     * descriptor slot; `entry` records what was created before a step failed.
     */
    method CreateTexture(entry: CachedModelTexture, source: TextureSource)
      returns (entry': CachedModelTexture, ghost slot: nat, failure: Option<string>)
      requires WellFormed(Srv()) && source.Decoded?
      requires entry.resourcePresent == source.resourceCreated && !entry.uploadResourcePresent
      requires entry.srvCpuDescriptor == 0 && entry.srvGpuDescriptor == 0
      modifies this`srvNextFreeIndex, this`srvFreeList
      ensures WellFormed(Srv())
      ensures failure == (if !source.resourceCreated then Some(ResourceError)
                          else if !source.uploadBufferCreated then Some(UploadBufferError)
                          else if !source.uploadMapped then Some(MapError)
                          else if !Allocate(srvHeap, old(Srv())).ok then Some(SrvError)
                          else None)
      ensures failure.Some? ==>
        && Srv() == old(Srv()) && slot == 0
        && entry' == CachedModelTexture(entry.path, source.resourceCreated, source.resourceCreated && source.uploadBufferCreated,
                                        0, 0, entry.hasTransparency)
      ensures failure.None? ==>
        var a := Allocate(srvHeap, old(Srv()));
        && srvHeap.SrvHeap? && Srv() == a.state && slot == a.index
        && entry' == CachedModelTexture(entry.path, true, true, CpuHandle(srvHeap, a.index), GpuHandle(srvHeap, a.index),
                                        entry.hasTransparency)
    {
      entry', slot := entry, 0;
      if !source.resourceCreated {
        return entry', slot, Some(ResourceError);
      }
      entry' := entry'.(uploadResourcePresent := source.uploadBufferCreated);
      if !source.uploadBufferCreated {
        return entry', slot, Some(UploadBufferError);
      }
      if !source.uploadMapped {
        return entry', slot, Some(MapError);
      }
      ghost var a := Allocate(srvHeap, Srv());
      var described, cpuHandle, gpuHandle := AllocateSrvDescriptor();
      if !described {
        return entry', slot, Some(SrvError);
      }
      entry' := entry'.(srvCpuDescriptor := cpuHandle, srvGpuDescriptor := gpuHandle);
      return entry', a.index, None;
    }

    /**
     * `EnsureModelTexturesUploaded`. A model that cannot be textured empties
     * the cache; a cache holding exactly the model's paths is reused
     * untouched; otherwise the GPU is drained, the cache released, and the
     * model's textures uploaded in order until one fails.
     */
    method EnsureModelTexturesUploaded(model: ModelData, sources: string -> TextureSource, outError: string)
      returns (ok: bool, error: string)
      requires Valid()
      modifies this`srvNextFreeIndex, this`srvFreeList, this`modelTexturePaths, this`modelTextures, this`textureSlots,
               this`nextFenceValue
      ensures Valid()
      ensures !TexturableModel(model) ==>
        && !ok && error == outError && nextFenceValue == old(nextFenceValue)
        && Srv() == ReleasePrefix(srvHeap, old(Srv()), old(modelTextures), |old(modelTextures)|)
        && modelTexturePaths == [] && modelTextures == []
      ensures TexturableModel(model) && CacheHit(old(modelTexturePaths), old(modelTextures), model) ==>
        && ok && error == outError && nextFenceValue == old(nextFenceValue) && Srv() == old(Srv())
        && modelTexturePaths == old(modelTexturePaths) && modelTextures == old(modelTextures)
      ensures TexturableModel(model) && !CacheHit(old(modelTexturePaths), old(modelTextures), model) ==>
        var released := ReleasePrefix(srvHeap, old(Srv()), old(modelTextures), |old(modelTextures)|);
        var st := UploadPrefix(srvHeap, released, model.texturePaths, sources, |model.texturePaths|);
        && nextFenceValue == old(nextFenceValue) + (if deviceReady then 1 else 0)
        && modelTexturePaths == st.paths && modelTextures == st.textures && Srv() == st.srv
        && ok == st.error.None?
        && error == if st.error.Some? then st.error.value else outError
      ensures ok ==> modelTextures != []
      ensures ok == TexturesUploaded(model, old(modelTexturePaths), old(modelTextures), srvHeap, old(Srv()), sources)
    {
      if !IsValid(model) || model.texturePaths == [] || |model.texCoords| != |model.positions| {
        ReleaseModelTextures();
        return false, outError;
      }
      if modelTexturePaths == model.texturePaths && |modelTextures| == |model.texturePaths| {
        return true, outError;
      }
      WaitForGpuIdle();
      ReleaseModelTextures();
      var failure := UploadModelTextures(model.texturePaths, sources);
      if failure.Some? {
        return false, failure.value;
      }
      return modelTextures != [], outError;
    }

    /** The upload loop of `EnsureModelTexturesUploaded`, from an empty cache. */
    method UploadModelTextures(paths: seq<string>, sources: string -> TextureSource) returns (failure: Option<string>)
      requires Valid() && modelTexturePaths == [] && modelTextures == []
      modifies this`srvNextFreeIndex, this`srvFreeList, this`modelTexturePaths, this`modelTextures, this`textureSlots
      ensures Valid()
      ensures var st := UploadPrefix(srvHeap, old(Srv()), paths, sources, |paths|);
        && modelTexturePaths == st.paths && modelTextures == st.textures && Srv() == st.srv && failure == st.error
      ensures failure.None? ==> |modelTextures| == |paths|
    {
      ghost var released := Srv();
      for i := 0 to |paths|
        invariant Valid()
        invariant UploadState(modelTexturePaths, modelTextures, Srv(), None) == UploadPrefix(srvHeap, released, paths, sources, i)
        invariant textureSlots == UploadSlots(srvHeap, released, paths, sources, i)
      {
        failure := UploadTexture(paths[i], sources(paths[i]));
        if failure.Some? {
          FailureIsFinal(srvHeap, released, paths, sources, i + 1, |paths|);
          return;
        }
      }
      UploadPrefixShape(srvHeap, released, paths, sources, |paths|);
      failure := None;
    }

    /** `WaitForGpuIdle`: with the queue, fence and event present, signals and waits on the next fence value. */
    method WaitForGpuIdle()
      requires Valid()
      modifies this`nextFenceValue
      ensures Valid()
      ensures nextFenceValue == old(nextFenceValue) + (if deviceReady then 1 else 0)
    {
      if !deviceReady {
        return;
      }
      nextFenceValue := nextFenceValue + 1;
    }

    /** `BeginFrame`: the frame to record is the swap chain's current back buffer. */
    method BeginFrame(currentBackBufferIndex: nat)
      requires Valid() && deviceReady && currentBackBufferIndex < FrameCount
      modifies this`frameIndex
      ensures Valid()
      ensures frameIndex == currentBackBufferIndex
    {
      frameIndex := currentBackBufferIndex;
    }

    /** `EndFrame`: the current frame is tagged with the fence value just signalled. */
    method EndFrame()
      requires Valid() && deviceReady
      modifies this`nextFenceValue, frameFenceValues
      ensures Valid()
      ensures nextFenceValue == old(nextFenceValue) + 1
      ensures frameFenceValues[frameIndex] == old(nextFenceValue)
      ensures forall i :: 0 <= i < FrameCount && i != frameIndex ==> frameFenceValues[i] == old(frameFenceValues[i])
    {
      var fenceValue := nextFenceValue;
      nextFenceValue := nextFenceValue + 1;
      frameFenceValues[frameIndex] := fenceValue;
    }

    /** Every frame's fence value back to 0. */
    method ResetFrames()
      requires frameFenceValues.Length == FrameCount
      modifies frameFenceValues
      ensures forall i :: 0 <= i < FrameCount ==> frameFenceValues[i] == 0
    {
      for i := 0 to FrameCount
        invariant forall j :: 0 <= j < i ==> frameFenceValues[j] == 0
      {
        frameFenceValues[i] := 0;
      }
    }

    /** `Shutdown`: drain the GPU, release the textures, and return every counter and list to its initial value. */
    method Shutdown()
      requires Valid()
      modifies this, frameFenceValues
      ensures Valid() && Idle()
    {
      WaitForGpuIdle();
      ReleaseModelTextures();
      ResetFrames();
      ResetCounters();
      IdleIsValid();
    }

    /** The field resets at the end of `Shutdown`. */
    method ResetCounters()
      requires frameFenceValues.Length == FrameCount
      requires forall i :: 0 <= i < FrameCount ==> frameFenceValues[i] == 0
      modifies this
      ensures Idle()
    {
      deviceReady, pipelinesReady := false, false;
      srvHeap := NoHeap;
      frameIndex := 0;
      nextFenceValue := 1;
      srvNextFreeIndex := 1;
      srvFreeList := [];
      modelTexturePaths, modelTextures := [], [];
      textureSlots := [];
      wireVertexBuffer, texturedVertexBuffer := NoBuffer, NoBuffer;
    }

    /** The projection loop of `RenderModelWireframe`. */
    method ProjectPositions(model: ModelData, camera: Camera, transform: Transform) returns (projected: seq<ClipVertex>)
      ensures projected == ProjectAll(model, camera, transform)
    {
      projected := [];
      for v := 0 to |model.positions|
        invariant |projected| == v
        invariant forall j :: 0 <= j < v ==> projected[j] == ProjectToNdc(transform(camera, model.positions[j]))
      {
        projected := projected + [ProjectToNdc(transform(camera, model.positions[v]))];
      }
    }

    /**
     * The textured pass of `RenderModelWireframe`: upload the textures, build
     * and sort the triangles, make room for them, and batch them into draw
     * calls. Nothing is drawn when the upload fails, no triangle survives,
     * the buffer cannot be grown or mapped.
     */
    method DrawTextured(model: ModelData, projected: seq<ClipVertex>, env: RenderEnvironment)
      returns (triangles: seq<TexturedTriangle>, calls: seq<DrawCall>)
      requires Valid()
      modifies this`srvNextFreeIndex, this`srvFreeList, this`modelTexturePaths, this`modelTextures, this`textureSlots,
               this`nextFenceValue, this`texturedVertexBuffer
      ensures Valid()
      ensures calls != [] <==>
        && TexturesUploaded(model, old(modelTexturePaths), old(modelTextures), srvHeap, old(Srv()), env.sources)
        && TexturedPassDraws(AllTriangles(model, projected, modelTextures, |model.submeshes|), old(texturedVertexBuffer), env)
      ensures nextFenceValue >= old(nextFenceValue)
      ensures texturedVertexBuffer.capacity >= old(texturedVertexBuffer.capacity)
      ensures calls == [] ==> triangles == []
      ensures calls != [] ==>
        && modelTextures != []
        && DrawOrdered(triangles)
        && multiset(triangles) == multiset(AllTriangles(model, projected, modelTextures, |model.submeshes|))
        && IsBatching(triangles, calls)
        && (forall k :: 0 <= k < |triangles| ==>
              triangles[k].colorTextureHandle != 0 && triangles[k].opacityTextureHandle != 0)
    {
      triangles, calls := [], [];
      var uploaded, textureError := EnsureModelTexturesUploaded(model, env.sources, "");
      if !uploaded {
        return;
      }
      triangles, calls := SortAndBatch(model, projected, env);
    }

    /** The textured pass once the textures are in place: build, sort, make room, batch. */
    method SortAndBatch(model: ModelData, projected: seq<ClipVertex>, env: RenderEnvironment)
      returns (triangles: seq<TexturedTriangle>, calls: seq<DrawCall>)
      requires Valid()
      modifies this`texturedVertexBuffer
      ensures Valid()
      ensures var all := AllTriangles(model, projected, modelTextures, |model.submeshes|);
        && (calls != [] <==> TexturedPassDraws(all, old(texturedVertexBuffer), env))
        && texturedVertexBuffer ==
             if TexturedVertexCount(all) == 0 then old(texturedVertexBuffer)
             else EnsureCapacity(old(texturedVertexBuffer), TexturedVertexCount(all), env.texturedBufferCreation).buffer
      ensures texturedVertexBuffer.capacity >= old(texturedVertexBuffer.capacity)
      ensures calls == [] ==> triangles == []
      ensures calls != [] ==>
        && DrawOrdered(triangles)
        && multiset(triangles) == multiset(AllTriangles(model, projected, modelTextures, |model.submeshes|))
        && IsBatching(triangles, calls)
        && (forall k :: 0 <= k < |triangles| ==>
              triangles[k].colorTextureHandle != 0 && triangles[k].opacityTextureHandle != 0)
    {
      triangles, calls := [], [];
      var built := BuildTexturedTriangles(model, projected, modelTextures);
      var sorted := SortByDrawOrder(built);
      assert |sorted| == |multiset(sorted)| == |multiset(built)| == |built|;
      var texturedVertexCount := TexturedVertexCount(sorted);
      assert texturedVertexCount == TexturedVertexCount(built);
      if texturedVertexCount > 0 {
        var bufferReady, allocationError := EnsureTexturedVertexBuffer(texturedVertexCount, env.texturedBufferCreation, "");
        if !bufferReady {
          sorted := [];
        }
      }
      if sorted != [] && texturedVertexCount > 0 && env.texturedBufferMapped {
        TrianglesBindLiveDescriptors(model, projected, modelTextures, |model.submeshes|);
        LiveHandlesSurviveSort(built, sorted);
        triangles := sorted;
        calls := BuildDrawCalls(sorted);
      }
    }

    /**
     * `RenderModelWireframe`: the textured pass (when the model has
     * textures, texture coordinates and submeshes) and then the wire
     * overlay, drawn when asked for or when nothing textured was drawn.
     * Both buffers keep or grow their capacity; the fence counter and the
     * frames are untouched, except that a texture reload drains the GPU.
     */
    method RenderModelWireframe(model: ModelData, yawDegrees: real, pitchDegrees: real, rollDegrees: real,
                                cameraDistance: real, wireOverlayEnabled: bool, env: RenderEnvironment)
      returns (draws: FrameDraws)
      requires Valid()
      modifies this`srvNextFreeIndex, this`srvFreeList, this`modelTexturePaths, this`modelTextures, this`textureSlots,
               this`nextFenceValue, this`texturedVertexBuffer, this`wireVertexBuffer
      ensures Valid()
      ensures !pipelinesReady || !IsValid(model) || env.viewportWidth <= 1 || env.viewportHeight <= 1 ==>
        draws == NothingDrawn && unchanged(this)
      ensures nextFenceValue >= old(nextFenceValue)
      ensures wireVertexBuffer.capacity >= old(wireVertexBuffer.capacity)
      ensures texturedVertexBuffer.capacity >= old(texturedVertexBuffer.capacity)
      ensures !CanRenderTextured(model) ==> draws.drawCalls == [] && unchanged(this`modelTextures, this`srvFreeList)
      ensures pipelinesReady && env.viewportWidth > 1 && env.viewportHeight > 1 && CanRenderTextured(model) ==>
        var camera := CameraFor(yawDegrees, pitchDegrees, rollDegrees, cameraDistance, env.viewportWidth, env.viewportHeight);
        var projected := ProjectAll(model, camera, env.transform);
        (draws.drawCalls != [] <==>
          && TexturesUploaded(model, old(modelTexturePaths), old(modelTextures), srvHeap, old(Srv()), env.sources)
          && TexturedPassDraws(AllTriangles(model, projected, modelTextures, |model.submeshes|), old(texturedVertexBuffer), env))
      ensures draws.drawCalls == [] ==> draws.texturedTriangles == []
      ensures draws.drawCalls != [] ==>
        var camera := CameraFor(yawDegrees, pitchDegrees, rollDegrees, cameraDistance, env.viewportWidth, env.viewportHeight);
        var projected := ProjectAll(model, camera, env.transform);
        && DrawOrdered(draws.texturedTriangles)
        && multiset(draws.texturedTriangles) == multiset(AllTriangles(model, projected, modelTextures, |model.submeshes|))
        && IsBatching(draws.texturedTriangles, draws.drawCalls)
        && (forall k :: 0 <= k < |draws.texturedTriangles| ==>
              draws.texturedTriangles[k].colorTextureHandle != 0 && draws.texturedTriangles[k].opacityTextureHandle != 0)
      ensures pipelinesReady && IsValid(model) && env.viewportWidth > 1 && env.viewportHeight > 1 ==>
        var camera := CameraFor(yawDegrees, pitchDegrees, rollDegrees, cameraDistance, env.viewportWidth, env.viewportHeight);
        var lines := NativeLines(model.indices, ProjectAll(model, camera, env.transform), TriangleCount(model.indices));
        && (draws.wireVertices == [] || draws.wireVertices == lines)
        && (draws.wireVertices != [] <==>
              && lines != []
              && ShouldDrawWireOverlay(wireOverlayEnabled, draws.drawCalls != [])
              && (LargeEnough(old(wireVertexBuffer), |lines| % Uint32Modulus) || env.wireBufferCreation)
              && env.wireBufferMapped)
    {
      draws := NothingDrawn;
      if !pipelinesReady || !IsValid(model) {
        return;
      }
      if env.viewportWidth <= 1 || env.viewportHeight <= 1 {
        return;
      }
      var camera := CameraFor(yawDegrees, pitchDegrees, rollDegrees, cameraDistance, env.viewportWidth, env.viewportHeight);
      var projected := ProjectPositions(model, camera, env.transform);
      draws := DrawPasses(model, projected, wireOverlayEnabled, env);
    }

    /**
     * Both passes of `RenderModelWireframe` over the projected positions:
     * nothing when there are no lines and no textures to draw; otherwise the
     * textured pass when it applies, then the wire overlay.
     */
    method DrawPasses(model: ModelData, projected: seq<ClipVertex>, wireOverlayEnabled: bool, env: RenderEnvironment)
      returns (draws: FrameDraws)
      requires Valid()
      modifies this`srvNextFreeIndex, this`srvFreeList, this`modelTexturePaths, this`modelTextures, this`textureSlots,
               this`nextFenceValue, this`texturedVertexBuffer, this`wireVertexBuffer
      ensures Valid()
      ensures nextFenceValue >= old(nextFenceValue)
      ensures wireVertexBuffer.capacity >= old(wireVertexBuffer.capacity)
      ensures texturedVertexBuffer.capacity >= old(texturedVertexBuffer.capacity)
      ensures !CanRenderTextured(model) ==> draws.drawCalls == [] && unchanged(this`modelTextures, this`srvFreeList)
      ensures CanRenderTextured(model) ==>
        (draws.drawCalls != [] <==>
          && TexturesUploaded(model, old(modelTexturePaths), old(modelTextures), srvHeap, old(Srv()), env.sources)
          && TexturedPassDraws(AllTriangles(model, projected, modelTextures, |model.submeshes|), old(texturedVertexBuffer), env))
      ensures draws.drawCalls == [] ==> draws.texturedTriangles == []
      ensures draws.drawCalls != [] ==>
        && DrawOrdered(draws.texturedTriangles)
        && multiset(draws.texturedTriangles) == multiset(AllTriangles(model, projected, modelTextures, |model.submeshes|))
        && IsBatching(draws.texturedTriangles, draws.drawCalls)
        && (forall k :: 0 <= k < |draws.texturedTriangles| ==>
              draws.texturedTriangles[k].colorTextureHandle != 0 && draws.texturedTriangles[k].opacityTextureHandle != 0)
      ensures var lines := NativeLines(model.indices, projected, TriangleCount(model.indices));
        && (draws.wireVertices == [] || draws.wireVertices == lines)
        && (draws.wireVertices != [] <==>
              && lines != []
              && ShouldDrawWireOverlay(wireOverlayEnabled, draws.drawCalls != [])
              && (LargeEnough(old(wireVertexBuffer), |lines| % Uint32Modulus) || env.wireBufferCreation)
              && env.wireBufferMapped)
    {
      draws := NothingDrawn;
      var lineVertices := BuildLineVertices(model.indices, projected);
      var canRenderTextured := |model.texCoords| == |model.positions| && model.texturePaths != [] && model.submeshes != [];
      if lineVertices == [] && !canRenderTextured {
        return;
      }
      var triangles: seq<TexturedTriangle> := [];
      var calls: seq<DrawCall> := [];
      if canRenderTextured {
        triangles, calls := DrawTextured(model, projected, env);
      }
      var renderedAnyTexturedGeometry := calls != [];
      var wire := DrawWireOverlay(lineVertices, ShouldDrawWireOverlay(wireOverlayEnabled, renderedAnyTexturedGeometry), env);
      draws := FrameDraws(triangles, calls, wire);
    }

    /** The wire pass: make room for the line vertices and map the buffer, when the overlay is wanted. */
    method DrawWireOverlay(lineVertices: seq<WireVertex>, wanted: bool, env: RenderEnvironment) returns (wire: seq<WireVertex>)
      requires Valid()
      modifies this`wireVertexBuffer
      ensures Valid()
      ensures wireVertexBuffer.capacity >= old(wireVertexBuffer.capacity)
      ensures wire == [] || wire == lineVertices
      ensures wire != [] <==>
        && lineVertices != [] && wanted
        && (LargeEnough(old(wireVertexBuffer), |lineVertices| % Uint32Modulus) || env.wireBufferCreation)
        && env.wireBufferMapped
    {
      wire := [];
      if !wanted || lineVertices == [] {
        return;
      }
      var wireReady, allocationError := EnsureWireVertexBuffer(|lineVertices| % Uint32Modulus, env.wireBufferCreation, "");
      if !wireReady {
        return;
      }
      if !env.wireBufferMapped {
        return;
      }
      wire := lineVertices;
    }
  }
}

=== FILE: native_wire.dfy ===
/**
 * The wire-line pass of the native Direct3D 12 path (NativeDx12Renderer.cpp,
 * `ProjectToNdc`, `AddLine` and the line loop of `RenderModelWireframe`).
 * Unlike the SDL path, a triangle is filtered edge by edge: each edge whose
 * two endpoints projected validly becomes two line-list vertices, whatever
 * happens to the triangle's other edges.
 */
module NativeWire {
  import opened Models
  import opened Viewing
  import SdlRenderer

  /** A vertex in normalised device coordinates; `valid` is false for points behind the eye. */
  datatype ClipVertex = ClipVertex(x: real, y: real, z: real, valid: bool)

  /** One line-list vertex: position (x, y, 0, 1) and the fixed wire colour. */
  datatype WireVertex = WireVertex(x: real, y: real, z: real, w: real, r: real, g: real, b: real, a: real)

  /** `ProjectToNdc`: the perspective divide, refused for w at or below the threshold. */
  function ProjectToNdc(clip: ClipCoords): (v: ClipVertex)
    ensures v.valid <==> clip.w > MinClipW
    ensures !v.valid ==> v == ClipVertex(0.0, 0.0, 0.0, false)
    ensures v.valid ==> v.x * clip.w == clip.x && v.y * clip.w == clip.y && v.z * clip.w == clip.z
  {
    if clip.w <= MinClipW then ClipVertex(0.0, 0.0, 0.0, false)
    else ClipVertex(clip.x / clip.w, clip.y / clip.w, clip.z / clip.w, true)
  }

  /** The line-list vertex for an endpoint. */
  function Endpoint(v: ClipVertex): WireVertex {
    WireVertex(v.x, v.y, 0.0, 1.0, 0.69, 0.82, 1.0, 1.0)
  }

  /** What `AddLine` appends for the edge from `a` to `b`. */
  function EdgeVertices(a: ClipVertex, b: ClipVertex): (vs: seq<WireVertex>)
    ensures |vs| == (if a.valid && b.valid then 2 else 0)
  {
    if a.valid && b.valid then [Endpoint(a), Endpoint(b)] else []
  }

  /** `AddLine`: appends both endpoints of a visible edge, or nothing. */
  method AddLine(vertices: seq<WireVertex>, a: ClipVertex, b: ClipVertex) returns (vertices': seq<WireVertex>)
    ensures vertices' == vertices + EdgeVertices(a, b)
  {
    vertices' := vertices;
    if !a.valid || !b.valid {
      return;
    }
    vertices' := vertices' + [Endpoint(a)];
    vertices' := vertices' + [Endpoint(b)];
  }

  /** Triangle `t`'s three indices all name a projected vertex. */
  predicate TriangleInRange(indices: seq<nat>, projected: seq<ClipVertex>, t: nat)
    requires HasTriangle(indices, t)
  {
    indices[3 * t] < |projected| && indices[3 * t + 1] < |projected| && indices[3 * t + 2] < |projected|
  }

  /** The vertices one triangle contributes: its edges 0-1, 1-2 and 2-0, each on its own. */
  function TriangleEdges(p0: ClipVertex, p1: ClipVertex, p2: ClipVertex): seq<WireVertex> {
    EdgeVertices(p0, p1) + EdgeVertices(p1, p2) + EdgeVertices(p2, p0)
  }

  /** The line vertices for the first `t` triangles. */
  function NativeLines(indices: seq<nat>, projected: seq<ClipVertex>, t: nat): seq<WireVertex>
    requires t == 0 || HasTriangle(indices, t - 1)
  {
    if t == 0 then []
    else
      var k := t - 1;
      NativeLines(indices, projected, k) +
        (if TriangleInRange(indices, projected, k)
         then TriangleEdges(projected[indices[3 * k]], projected[indices[3 * k + 1]], projected[indices[3 * k + 2]])
         else [])
  }

  lemma NativeLinesStep(indices: seq<nat>, projected: seq<ClipVertex>, t: nat)
    requires HasTriangle(indices, t)
    ensures TriangleInRange(indices, projected, t) ==>
      NativeLines(indices, projected, t + 1) == NativeLines(indices, projected, t) +
        TriangleEdges(projected[indices[3 * t]], projected[indices[3 * t + 1]], projected[indices[3 * t + 2]])
    ensures !TriangleInRange(indices, projected, t) ==>
      NativeLines(indices, projected, t + 1) == NativeLines(indices, projected, t)
  {
  }

  /** One triangle adds an even number of line vertices, at most six. */
  lemma NativeLinesGrowth(indices: seq<nat>, projected: seq<ClipVertex>, k: nat)
    requires HasTriangle(indices, k)
    ensures var added := |NativeLines(indices, projected, k + 1)| - |NativeLines(indices, projected, k)|;
      added % 2 == 0 && 0 <= added <= 6
  {
    NativeLinesStep(indices, projected, k);
    if TriangleInRange(indices, projected, k) {
      var p0, p1, p2 := projected[indices[3 * k]], projected[indices[3 * k + 1]], projected[indices[3 * k + 2]];
      assert |TriangleEdges(p0, p1, p2)| == |EdgeVertices(p0, p1)| + |EdgeVertices(p1, p2)| + |EdgeVertices(p2, p0)|;
    }
  }

  /** Line vertices come in pairs, at most six per triangle, so at most two per index. */
  lemma {:induction false} NativeLinesBound(indices: seq<nat>, projected: seq<ClipVertex>, t: nat)
    requires t == 0 || HasTriangle(indices, t - 1)
    ensures |NativeLines(indices, projected, t)| % 2 == 0
    ensures |NativeLines(indices, projected, t)| <= 6 * t
    ensures |NativeLines(indices, projected, t)| <= 2 * |indices|
  {
    if t > 0 {
      NativeLinesBound(indices, projected, t - 1);
      NativeLinesGrowth(indices, projected, t - 1);
      EvenBoundStep(|NativeLines(indices, projected, t - 1)|, |NativeLines(indices, projected, t)|, t, |indices|);
    }
  }

  lemma EvenBoundStep(before: nat, after: nat, t: nat, indexCount: nat)
    requires t > 0 && 3 * (t - 1) + 2 < indexCount
    requires before % 2 == 0 && before <= 6 * (t - 1)
    requires (after - before) % 2 == 0 && 0 <= after - before <= 6
    ensures after % 2 == 0 && after <= 6 * t && after <= 2 * indexCount
  {
  }

  /** With every index in range and every vertex valid, each triangle yields all six vertices. */
  lemma {:induction false} NativeLinesAllVisible(indices: seq<nat>, projected: seq<ClipVertex>, t: nat)
    requires t == 0 || HasTriangle(indices, t - 1)
    requires forall i :: 0 <= i < |indices| ==> indices[i] < |projected|
    requires forall v :: 0 <= v < |projected| ==> projected[v].valid
    ensures |NativeLines(indices, projected, t)| == 6 * t
  {
    if t > 0 {
      var k := t - 1;
      NativeLinesAllVisible(indices, projected, k);
      NativeLinesStep(indices, projected, k);
      var p0, p1, p2 := projected[indices[3 * k]], projected[indices[3 * k + 1]], projected[indices[3 * k + 2]];
      assert p0.valid && p1.valid && p2.valid;
      assert |TriangleEdges(p0, p1, p2)| == 6;
    }
  }

  /** The SDL-path vertex and the native-path vertex of the same clip coordinates agree on validity. */
  lemma SameValidity(clip: ClipCoords, width: int, height: int)
    ensures SdlRenderer.ProjectVertex(clip, width, height).valid == ProjectToNdc(clip).valid
  {
  }

  /**
   * The two paths filter differently: for one triangle whose third vertex is
   * behind the eye, the SDL path draws nothing while the native path still
   * emits the edge between the first two vertices.
   */
  lemma EdgeFilteringDiffersFromSdl(c0: ClipCoords, c1: ClipCoords, c2: ClipCoords, width: int, height: int)
    requires c0.w > MinClipW && c1.w > MinClipW && c2.w <= MinClipW
    ensures var indices: seq<nat> := [0, 1, 2];
      && SdlRenderer.SdlLines(indices, [SdlRenderer.ProjectVertex(c0, width, height), SdlRenderer.ProjectVertex(c1, width, height),
                                        SdlRenderer.ProjectVertex(c2, width, height)], 1) == []
      && NativeLines(indices, [ProjectToNdc(c0), ProjectToNdc(c1), ProjectToNdc(c2)], 1)
         == [Endpoint(ProjectToNdc(c0)), Endpoint(ProjectToNdc(c1))]
  {
    var indices: seq<nat> := [0, 1, 2];
    var native := [ProjectToNdc(c0), ProjectToNdc(c1), ProjectToNdc(c2)];
    assert NativeLines(indices, native, 1) == NativeLines(indices, native, 0) + TriangleEdges(native[0], native[1], native[2]);
  }

  /** The three `AddLine` calls for one triangle. */
  method AddTriangleLines(vertices: seq<WireVertex>, p0: ClipVertex, p1: ClipVertex, p2: ClipVertex)
    returns (vertices': seq<WireVertex>)
    ensures vertices' == vertices + TriangleEdges(p0, p1, p2)
  {
    vertices' := AddLine(vertices, p0, p1);
    vertices' := AddLine(vertices', p1, p2);
    vertices' := AddLine(vertices', p2, p0);
  }

  /**
   * The line loop of `RenderModelWireframe` (NativeDx12Renderer.cpp, from the
   * stride-3 loop to its end): every in-range triangle passes its three edges
   * to `AddLine`.
   */
  method BuildLineVertices(indices: seq<nat>, projected: seq<ClipVertex>) returns (lineVertices: seq<WireVertex>)
    ensures lineVertices == NativeLines(indices, projected, TriangleCount(indices))
    ensures |lineVertices| % 2 == 0 && |lineVertices| <= 2 * |indices|
  {
    lineVertices := [];
    var index := 0;
    ghost var t := 0;
    while index + 2 < |indices|
      invariant index == 3 * t && index <= |indices|
      invariant t == 0 || HasTriangle(indices, t - 1)
      invariant lineVertices == NativeLines(indices, projected, t)
      decreases |indices| - index
    {
      lineVertices := AddTriangleAt(lineVertices, indices, projected, index, t);
      index := index + 3;
      t := t + 1;
    }
    assert t == TriangleCount(indices);
    NativeLinesBound(indices, projected, TriangleCount(indices));
  }

  /** One pass of the line loop: the triangle starting at `index` adds its visible edges when all three indices are in range. */
  method AddTriangleAt(lineVertices: seq<WireVertex>, indices: seq<nat>, projected: seq<ClipVertex>, index: nat, ghost t: nat)
    returns (lineVertices': seq<WireVertex>)
    requires index == 3 * t && HasTriangle(indices, t)
    requires lineVertices == NativeLines(indices, projected, t)
    ensures lineVertices' == NativeLines(indices, projected, t + 1)
  {
    NativeLinesStep(indices, projected, t);
    lineVertices' := lineVertices;
    var i0, i1, i2 := indices[index], indices[index + 1], indices[index + 2];
    if i0 < |projected| && i1 < |projected| && i2 < |projected| {
      lineVertices' := AddTriangleLines(lineVertices', projected[i0], projected[i1], projected[i2]);
    }
  }
}

=== FILE: sdl_renderer.dfy ===
/**
 * The SDL render path (SdlRendererBase.cpp): renderer creation and teardown,
 * and the wireframe pass, which projects every position to the screen and
 * draws the three edges of each triangle whose vertices all exist and are in
 * front of the camera.
 */
module SdlRenderer {
  import opened Models
  import opened Viewing

  /** A projected vertex in screen pixels; `valid` is false for points behind the eye. */
  datatype ProjectedVertex = ProjectedVertex(x: real, y: real, valid: bool)

  /** One `SDL_RenderLine` call. */
  datatype Line = Line(x0: real, y0: real, x1: real, y1: real)

  /**
   * `ProjectVertex`: perspective divide, then mapping normalised device
   * coordinates to pixels with y pointing down.
   */
  function ProjectVertex(clip: ClipCoords, width: int, height: int): (p: ProjectedVertex)
    ensures p.valid <==> clip.w > MinClipW
    ensures !p.valid ==> p.x == 0.0 && p.y == 0.0
    ensures p.valid && -1.0 <= clip.x / clip.w <= 1.0 && 0 <= width ==> 0.0 <= p.x <= width as real
    ensures p.valid && -1.0 <= clip.y / clip.w <= 1.0 && 0 <= height ==> 0.0 <= p.y <= height as real
  {
    if clip.w <= MinClipW then ProjectedVertex(0.0, 0.0, false)
    else
      var ndcX := clip.x / clip.w;
      var ndcY := clip.y / clip.w;
      ProjectedVertex(ScreenCoordinate(ndcX * 0.5 + 0.5, width), ScreenCoordinate(1.0 - (ndcY * 0.5 + 0.5), height), true)
  }

  /** A fraction of the viewport extent, in pixels. */
  function ScreenCoordinate(fraction: real, extent: int): (r: real)
    ensures 0.0 <= fraction <= 1.0 && 0 <= extent ==> 0.0 <= r <= extent as real
  {
    var e := extent as real;
    assert 0.0 <= fraction <= 1.0 && 0.0 <= e ==> 0.0 <= fraction * e <= e by {
      if 0.0 <= fraction <= 1.0 && 0.0 <= e {
        ScaledWithin(fraction, e);
      }
    }
    fraction * e
  }

  lemma ScaledWithin(fraction: real, e: real)
    requires 0.0 <= fraction <= 1.0 && 0.0 <= e
    ensures 0.0 <= fraction * e <= e
  {
    var rest := 1.0 - fraction;
    assert 0.0 <= rest;
    assert 0.0 <= rest * e;
    assert fraction * e + rest * e == e;
  }

  /** Triangle `t` is drawn: all three indices name a vertex and all three projected validly. */
  predicate TriangleKept(indices: seq<nat>, projected: seq<ProjectedVertex>, t: nat)
    requires HasTriangle(indices, t)
  {
    var i0, i1, i2 := indices[3 * t], indices[3 * t + 1], indices[3 * t + 2];
    i0 < |projected| && i1 < |projected| && i2 < |projected| &&
    projected[i0].valid && projected[i1].valid && projected[i2].valid
  }

  /** The three edges of a triangle, in the order they are drawn. */
  function TriangleOutline(p0: ProjectedVertex, p1: ProjectedVertex, p2: ProjectedVertex): seq<Line> {
    [Line(p0.x, p0.y, p1.x, p1.y), Line(p1.x, p1.y, p2.x, p2.y), Line(p2.x, p2.y, p0.x, p0.y)]
  }

  /** The lines drawn for the first `t` triangles. */
  function SdlLines(indices: seq<nat>, projected: seq<ProjectedVertex>, t: nat): seq<Line>
    requires t == 0 || HasTriangle(indices, t - 1)
  {
    if t == 0 then []
    else
      var k := t - 1;
      SdlLines(indices, projected, k) +
        (if TriangleKept(indices, projected, k)
         then TriangleOutline(projected[indices[3 * k]], projected[indices[3 * k + 1]], projected[indices[3 * k + 2]])
         else [])
  }

  lemma SdlLinesStep(indices: seq<nat>, projected: seq<ProjectedVertex>, k: nat)
    requires HasTriangle(indices, k)
    ensures TriangleKept(indices, projected, k) ==> |SdlLines(indices, projected, k + 1)| == |SdlLines(indices, projected, k)| + 3
    ensures !TriangleKept(indices, projected, k) ==> SdlLines(indices, projected, k + 1) == SdlLines(indices, projected, k)
  {
  }

  /** The triangles kept among the first `t`. */
  function KeptTriangles(indices: seq<nat>, projected: seq<ProjectedVertex>, t: nat): set<nat>
    requires t == 0 || HasTriangle(indices, t - 1)
  {
    set k: nat | k < t && TriangleKept(indices, projected, k)
  }

  /** Every kept triangle draws exactly three lines and nothing else is drawn. */
  lemma {:induction false} SdlLinesPerTriangle(indices: seq<nat>, projected: seq<ProjectedVertex>, t: nat)
    requires t == 0 || HasTriangle(indices, t - 1)
    ensures |SdlLines(indices, projected, t)| == 3 * |KeptTriangles(indices, projected, t)|
  {
    if t == 0 {
      assert KeptTriangles(indices, projected, t) == {};
    } else {
      var k := t - 1;
      SdlLinesPerTriangle(indices, projected, k);
      var before := KeptTriangles(indices, projected, k);
      var after := KeptTriangles(indices, projected, t);
      assert k !in before;
      if TriangleKept(indices, projected, k) {
        assert after == before + {k};
      } else {
        assert after == before;
      }
    }
  }

  /** Triangles whose slots lie in a prefix of the index buffer are kept or dropped alike. */
  lemma {:induction false} SdlLinesPrefix(indices: seq<nat>, extra: seq<nat>, projected: seq<ProjectedVertex>, t: nat)
    requires t == 0 || HasTriangle(indices, t - 1)
    ensures SdlLines(indices + extra, projected, t) == SdlLines(indices, projected, t)
  {
    if t > 0 {
      SdlLinesPrefix(indices, extra, projected, t - 1);
      var k := t - 1;
      assert (indices + extra)[3 * k] == indices[3 * k];
      assert (indices + extra)[3 * k + 1] == indices[3 * k + 1];
      assert (indices + extra)[3 * k + 2] == indices[3 * k + 2];
    }
  }

  /** One or two trailing indices after the last full triangle draw nothing. */
  lemma TrailingIndicesIgnored(indices: seq<nat>, extra: seq<nat>, projected: seq<ProjectedVertex>)
    requires |indices| % 3 == 0 && |extra| < 3
    ensures SdlLines(indices + extra, projected, TriangleCount(indices + extra))
         == SdlLines(indices, projected, TriangleCount(indices))
  {
    assert TriangleCount(indices + extra) == TriangleCount(indices);
    SdlLinesPrefix(indices, extra, projected, TriangleCount(indices));
  }

  /** With every index in range and every vertex valid, every triangle draws its three edges. */
  lemma {:induction false} AllTrianglesDrawnWhenVisible(indices: seq<nat>, projected: seq<ProjectedVertex>, t: nat)
    requires t == 0 || HasTriangle(indices, t - 1)
    requires forall i :: 0 <= i < |indices| ==> indices[i] < |projected|
    requires forall v :: 0 <= v < |projected| ==> projected[v].valid
    ensures |SdlLines(indices, projected, t)| == 3 * t
  {
    if t > 0 {
      var k := t - 1;
      AllTrianglesDrawnWhenVisible(indices, projected, k);
      var i0, i1, i2 := indices[3 * k], indices[3 * k + 1], indices[3 * k + 2];
      assert i0 < |projected| && i1 < |projected| && i2 < |projected|;
      assert projected[i0].valid && projected[i1].valid && projected[i2].valid;
      SdlLinesStep(indices, projected, k);
    }
  }

  /** A triangle with a vertex behind the eye draws none of its edges. */
  lemma InvalidVertexDropsTriangle(indices: seq<nat>, projected: seq<ProjectedVertex>, t: nat, corner: nat)
    requires HasTriangle(indices, t) && corner < 3
    requires indices[3 * t + corner] < |projected| && !projected[indices[3 * t + corner]].valid
    ensures SdlLines(indices, projected, t + 1) == SdlLines(indices, projected, t)
    ensures t !in KeptTriangles(indices, projected, t + 1)
  {
  }

  /** The SDL renderer object; `renderer` is the SDL renderer handle, 0 for null. */
  class SdlRendererBase {
    const rendererHint: string
    const displayName: string
    var renderer: nat
    /** The handles passed to `SDL_DestroyRenderer`, oldest first. */
    var destroyedRenderers: seq<nat>

    constructor (rendererHint: string, displayName: string)
      ensures this.rendererHint == rendererHint && this.displayName == displayName
      ensures renderer == 0 && destroyedRenderers == []
    {
      this.rendererHint := rendererHint;
      this.displayName := displayName;
      renderer := 0;
      destroyedRenderers := [];
    }

    /**
     * `Initialize`. `hintAccepted` is what `SDL_SetHint` returned, `created`
     * the handle `SDL_CreateRenderer` returned (0 on failure) and `sdlError`
     * the text of `SDL_GetError` at that point.
     */
    method Initialize(hintAccepted: bool, created: nat, sdlError: string, outError: string)
      returns (ok: bool, error: string)
      modifies this`renderer
      ensures !hintAccepted ==> !ok && renderer == old(renderer) && error == "Failed to set SDL render driver hint."
      ensures hintAccepted ==> renderer == created && (ok <==> created != 0)
      ensures hintAccepted && created == 0 ==> error == sdlError
      ensures ok ==> error == outError
    {
      if !hintAccepted {
        return false, "Failed to set SDL render driver hint.";
      }
      renderer := created;
      if renderer == 0 {
        return false, sdlError;
      }
      return true, outError;
    }

    /** `Shutdown`: destroys a live renderer once and forgets it; a second call does nothing. */
    method Shutdown()
      modifies this`renderer, this`destroyedRenderers
      ensures renderer == 0
      ensures old(renderer) != 0 ==> destroyedRenderers == old(destroyedRenderers) + [old(renderer)]
      ensures old(renderer) == 0 ==> destroyedRenderers == old(destroyedRenderers)
    {
      if renderer != 0 {
        destroyedRenderers := destroyedRenderers + [renderer];
        renderer := 0;
      }
    }

    /**
     * `RenderModelWireframe`: the returned lines are the `SDL_RenderLine`
     * calls, in order. The output size is what `SDL_GetRenderOutputSize`
     * reports; `transform` is the model-view-projection product.
     */
    method RenderModelWireframe(model: ModelData, yawDegrees: real, pitchDegrees: real, rollDegrees: real,
                                cameraDistance: real, outputWidth: int, outputHeight: int, transform: Transform)
      returns (lines: seq<Line>)
      ensures renderer == 0 || !IsValid(model) || outputWidth <= 1 || outputHeight <= 1 ==> lines == []
      ensures renderer != 0 && IsValid(model) && outputWidth > 1 && outputHeight > 1 ==>
        var camera := CameraFor(yawDegrees, pitchDegrees, rollDegrees, cameraDistance, outputWidth, outputHeight);
        var projected := seq(|model.positions|, v requires 0 <= v < |model.positions| =>
                               ProjectVertex(transform(camera, model.positions[v]), outputWidth, outputHeight));
        lines == SdlLines(model.indices, projected, TriangleCount(model.indices))
    {
      if renderer == 0 || !IsValid(model) {
        return [];
      }
      if outputWidth <= 1 || outputHeight <= 1 {
        return [];
      }
      var camera := CameraFor(yawDegrees, pitchDegrees, rollDegrees, cameraDistance, outputWidth, outputHeight);

      var projected: seq<ProjectedVertex> := [];
      var v := 0;
      while v < |model.positions|
        invariant 0 <= v <= |model.positions|
        invariant |projected| == v
        invariant forall j :: 0 <= j < v ==>
          projected[j] == ProjectVertex(transform(camera, model.positions[j]), outputWidth, outputHeight)
      {
        projected := projected + [ProjectVertex(transform(camera, model.positions[v]), outputWidth, outputHeight)];
        v := v + 1;
      }
      assert projected == seq(|model.positions|, j requires 0 <= j < |model.positions| =>
                                ProjectVertex(transform(camera, model.positions[j]), outputWidth, outputHeight));

      lines := [];
      var index := 0;
      ghost var t := 0;
      while index + 2 < |model.indices|
        invariant index == 3 * t && index <= |model.indices|
        invariant t == 0 || HasTriangle(model.indices, t - 1)
        invariant lines == SdlLines(model.indices, projected, t)
        decreases |model.indices| - index
      {
        var i0, i1, i2 := model.indices[index], model.indices[index + 1], model.indices[index + 2];
        if i0 < |projected| && i1 < |projected| && i2 < |projected| {
          var p0, p1, p2 := projected[i0], projected[i1], projected[i2];
          if p0.valid && p1.valid && p2.valid {
            lines := lines + [Line(p0.x, p0.y, p1.x, p1.y)];
            lines := lines + [Line(p1.x, p1.y, p2.x, p2.y)];
            lines := lines + [Line(p2.x, p2.y, p0.x, p0.y)];
          }
        }
        index := index + 3;
        t := t + 1;
      }
      assert t == TriangleCount(model.indices);
    }
  }
}

=== FILE: srv_descriptors.dfy ===
/**
 * The shader-resource-view descriptor allocator of the native Direct3D 12
 * renderer (`AllocateSrvDescriptor` / `FreeSrvDescriptor`). The heap holds 64
 * descriptors; slot 0 belongs to the UI font, so fresh slots are handed out
 * from 1 upwards by a bump index, and freed slots are reused last-in first-out.
 */
module SrvDescriptors {
  import opened Wrappers
  import opened Models

  const SrvDescriptorCount: nat := 64

  /** `srvNextFreeIndex` and `srvFreeList`. */
  datatype SrvState = SrvState(nextFreeIndex: nat, freeList: seq<nat>)

  /** The descriptor heap as the allocator sees it: absent, or its increment and start addresses. */
  datatype SrvHeap = NoHeap | SrvHeap(descriptorSize: nat, cpuStart: nat, gpuStart: nat)

  /** The state after `Shutdown` or before `Initialize`. */
  const InitialSrvState: SrvState := SrvState(1, [])

  predicate Usable(heap: SrvHeap) {
    heap.SrvHeap? && heap.descriptorSize != 0
  }

  /** The outcome of one allocation: success, the slot, and the new allocator state. */
  datatype Allocation = Allocation(ok: bool, index: nat, state: SrvState)

  function Allocate(heap: SrvHeap, s: SrvState): (a: Allocation)
    ensures !a.ok ==> a.state == s
  {
    if !Usable(heap) then Allocation(false, 0, s)
    else if s.freeList != [] then
      Allocation(true, s.freeList[|s.freeList| - 1], s.(freeList := s.freeList[..|s.freeList| - 1]))
    else if s.nextFreeIndex >= SrvDescriptorCount then Allocation(false, 0, s)
    else Allocation(true, s.nextFreeIndex, s.(nextFreeIndex := s.nextFreeIndex + 1))
  }

  function CpuHandle(heap: SrvHeap, index: nat): nat
    requires heap.SrvHeap?
  {
    heap.cpuStart + index * heap.descriptorSize
  }

  function GpuHandle(heap: SrvHeap, index: nat): nat
    requires heap.SrvHeap?
  {
    heap.gpuStart + index * heap.descriptorSize
  }

  /**
   * The slot `FreeSrvDescriptor` returns to the free list for a CPU handle:
   * none for a missing heap, a zero increment, a null handle or one below the
   * heap start; otherwise the offset in descriptors, truncated to 32 bits,
   * when it is below 64.
   */
  function FreedIndex(heap: SrvHeap, cpuHandle: nat): Option<nat> {
    if !Usable(heap) || cpuHandle == 0 || cpuHandle < heap.cpuStart then None
    else
      var index := ((cpuHandle - heap.cpuStart) / heap.descriptorSize) % Uint32Modulus;
      if index < SrvDescriptorCount then Some(index) else None
  }

  function Free(heap: SrvHeap, cpuHandle: nat, s: SrvState): SrvState {
    match FreedIndex(heap, cpuHandle)
    case None => s
    case Some(index) => s.(freeList := s.freeList + [index])
  }

  /** Every slot the allocator holds lies in the heap: true initially, kept by every call. */
  predicate InHeap(s: SrvState) {
    && 1 <= s.nextFreeIndex <= SrvDescriptorCount
    && forall k :: 0 <= k < |s.freeList| ==> s.freeList[k] < SrvDescriptorCount
  }

  lemma InHeapPreserved(heap: SrvHeap, s: SrvState, cpuHandle: nat)
    requires InHeap(s)
    ensures InHeap(Allocate(heap, s).state)
    ensures Allocate(heap, s).ok ==> Allocate(heap, s).index < SrvDescriptorCount
    ensures InHeap(Free(heap, cpuHandle, s))
  {
  }

  /** Allocation fails only without a usable heap, or with an empty free list and all 63 fresh slots used. */
  lemma AllocationFailure(heap: SrvHeap, s: SrvState)
    requires InHeap(s)
    ensures !Allocate(heap, s).ok <==> !Usable(heap) || (s.freeList == [] && s.nextFreeIndex == SrvDescriptorCount)
  {
  }

  /** The handle of a slot maps back to that slot. */
  lemma HandleRoundTrip(heap: SrvHeap, index: nat)
    requires Usable(heap) && heap.cpuStart != 0 && index < SrvDescriptorCount
    ensures FreedIndex(heap, CpuHandle(heap, index)) == Some(index)
  {
    DivOfMultiple(index, heap.descriptorSize);
  }

  lemma DivOfMultiple(q: nat, d: nat)
    requires d != 0
    ensures (q * d) / d == q
  {
    var r := (q * d) / d;
    var m := (q * d) % d;
    assert q * d == d * r + m && 0 <= m < d;
    assert d * (q - r) == m;
    MultipleBelowDivisor(q - r, d);
  }

  lemma MultipleBelowDivisor(k: int, d: nat)
    requires d != 0 && 0 <= d * k < d
    ensures k == 0
  {
    assert k >= 1 ==> d * k >= d * 1;
    assert k <= -1 ==> d * k <= d * -1;
  }

  /** Freeing a slot and allocating again returns the same slot and state: the free list is LIFO. */
  lemma AllocFreeAlloc(heap: SrvHeap, s: SrvState)
    requires heap.SrvHeap? && heap.cpuStart != 0 && InHeap(s)
    requires Allocate(heap, s).ok
    ensures var a := Allocate(heap, s);
      var again := Allocate(heap, Free(heap, CpuHandle(heap, a.index), a.state));
      again.ok && again.index == a.index && again.state == a.state
  {
    var a := Allocate(heap, s);
    HandleRoundTrip(heap, a.index);
    var freed := Free(heap, CpuHandle(heap, a.index), a.state);
    assert freed.freeList[..|freed.freeList| - 1] == a.state.freeList;
  }

  // ---------------------------------------------------------------------
  // Slots in use, when every freed slot was handed out before
  // ---------------------------------------------------------------------

  /** The free list holds distinct slots, each handed out by the bump index before. */
  predicate WellFormed(s: SrvState) {
    && InHeap(s)
    && (forall k :: 0 <= k < |s.freeList| ==> 1 <= s.freeList[k] < s.nextFreeIndex)
    && (forall j, k :: 0 <= j < k < |s.freeList| ==> s.freeList[j] != s.freeList[k])
  }

  /** The slots currently held by textures: handed out and not returned. */
  function InUse(s: SrvState): set<nat> {
    set i: nat | 1 <= i < s.nextFreeIndex && i !in s.freeList
  }

  lemma InitialWellFormed()
    ensures WellFormed(InitialSrvState) && InUse(InitialSrvState) == {}
  {
  }

  /** An allocation hands out a slot no texture holds, never the font's slot 0, and marks it used. */
  lemma AllocateTakesFreeSlot(heap: SrvHeap, s: SrvState)
    requires WellFormed(s) && Allocate(heap, s).ok
    ensures var a := Allocate(heap, s);
      && WellFormed(a.state)
      && 1 <= a.index < SrvDescriptorCount
      && a.index !in InUse(s)
      && InUse(a.state) == InUse(s) + {a.index}
  {
    var a := Allocate(heap, s);
    if s.freeList != [] {
      var n := |s.freeList|;
      assert s.freeList == a.state.freeList + [a.index];
      assert a.index !in a.state.freeList;
    }
  }

  /** Freeing the handle of a used slot returns exactly that slot. */
  lemma FreeReturnsSlot(heap: SrvHeap, s: SrvState, index: nat)
    requires Usable(heap) && heap.cpuStart != 0
    requires WellFormed(s) && index in InUse(s)
    ensures var s' := Free(heap, CpuHandle(heap, index), s);
      WellFormed(s') && InUse(s') == InUse(s) - {index}
  {
    HandleRoundTrip(heap, index);
  }

  /** Used slots and free-list slots together are exactly the slots the bump index has passed. */
  lemma {:induction false} InUseCount(s: SrvState)
    requires WellFormed(s)
    ensures |InUse(s)| + |s.freeList| == s.nextFreeIndex - 1
    decreases |s.freeList|
  {
    if s.freeList == [] {
      assert InUse(s) == SlotRange(1, s.nextFreeIndex);
      RangeSize(1, s.nextFreeIndex);
    } else {
      var n := |s.freeList|;
      var last := s.freeList[n - 1];
      var shorter := s.(freeList := s.freeList[..n - 1]);
      assert s.freeList == shorter.freeList + [last];
      assert WellFormed(shorter);
      InUseCount(shorter);
      assert InUse(shorter) == InUse(s) + {last};
      assert last !in InUse(s);
    }
  }

  predicate Between(lo: nat, i: nat, hi: nat) {
    lo <= i < hi
  }

  function SlotRange(lo: nat, hi: nat): set<nat> {
    set i: nat | lo <= i < hi && Between(lo, i, hi)
  }

  lemma {:induction false} RangeSize(lo: nat, hi: nat)
    requires lo <= hi
    ensures |SlotRange(lo, hi)| == hi - lo
    decreases hi - lo
  {
    if lo < hi {
      RangeSize(lo, hi - 1);
      assert SlotRange(lo, hi) == SlotRange(lo, hi - 1) + {hi - 1};
    }
  }

  /** With a usable heap, allocation fails exactly when all 63 texture slots are in use. */
  lemma ExhaustedIffAllInUse(heap: SrvHeap, s: SrvState)
    requires Usable(heap) && WellFormed(s)
    ensures !Allocate(heap, s).ok <==> |InUse(s)| == SrvDescriptorCount - 1
  {
    InUseCount(s);
  }
}

=== FILE: texture_cache.dfy ===
/**
 * The model-texture cache of the native Direct3D 12 renderer
 * (`EnsureModelTexturesUploaded`): the entries it keeps per texture path, the
 * test that decides whether the cached set can be reused, and the scan of the
 * decoded RGBA pixels for any alpha value below 250.
 */
module TextureCache {
  import opened Wrappers
  import opened Models
  import opened SrvDescriptors

  newtype byte = x: int | 0 <= x < 256

  /** Alpha values at or above this count as opaque. */
  const OpaqueAlpha: byte := 250

  /** One cached texture: GPU resources present or not, its descriptor handles (0 when none) and its alpha flag. */
  datatype CachedModelTexture = CachedModelTexture(
    path: string,
    resourcePresent: bool,
    uploadResourcePresent: bool,
    srvCpuDescriptor: nat,
    srvGpuDescriptor: nat,
    hasTransparency: bool)

  /** Some pixel of an RGBA8 image has alpha (every fourth byte, from offset 3) below 250. */
  predicate HasTransparency(pixels: seq<byte>) {
    exists k :: 0 <= k < |pixels| && k % 4 == 3 && pixels[k] < OpaqueAlpha
  }

  /** The alpha scan: stride 4 from offset 3, stopping at the first translucent pixel. */
  method ScanAlpha(pixels: seq<byte>) returns (hasTransparency: bool)
    ensures hasTransparency <==> HasTransparency(pixels)
  {
    hasTransparency := false;
    var pixelOffset := 3;
    while pixelOffset < |pixels|
      invariant pixelOffset % 4 == 3
      invariant !hasTransparency
      invariant forall k :: 0 <= k < pixelOffset && k < |pixels| && k % 4 == 3 ==> pixels[k] >= OpaqueAlpha
      decreases |pixels| - pixelOffset
    {
      if pixels[pixelOffset] < OpaqueAlpha {
        hasTransparency := true;
        break;
      }
      pixelOffset := pixelOffset + 4;
    }
  }

  /** Fully opaque images, and images too short to hold an alpha byte, are not transparent. */
  lemma OpaqueImages(pixels: seq<byte>)
    ensures |pixels| < 4 ==> !HasTransparency(pixels)
    ensures (forall k :: 0 <= k < |pixels| ==> pixels[k] >= OpaqueAlpha) ==> !HasTransparency(pixels)
  {
  }

  /** Colour bytes never matter: only offsets 3, 7, 11, ... are read. */
  lemma OnlyAlphaMatters(pixels: seq<byte>, other: seq<byte>)
    requires |pixels| == |other|
    requires forall k :: 0 <= k < |pixels| && k % 4 == 3 ==> pixels[k] == other[k]
    ensures HasTransparency(pixels) <==> HasTransparency(other)
  {
    if HasTransparency(pixels) {
      var k :| 0 <= k < |pixels| && k % 4 == 3 && pixels[k] < OpaqueAlpha;
      assert other[k] < OpaqueAlpha;
    }
    if HasTransparency(other) {
      var k :| 0 <= k < |other| && k % 4 == 3 && other[k] < OpaqueAlpha;
      assert pixels[k] < OpaqueAlpha;
    }
  }

  /** The cached set can be reused: same paths in the same order, one entry per path. */
  predicate CacheHit(cachedPaths: seq<string>, cachedTextures: seq<CachedModelTexture>, model: ModelData) {
    cachedPaths == model.texturePaths && |cachedTextures| == |model.texturePaths|
  }

  /** The model can be textured at all: valid, with texture paths and one texture coordinate per position. */
  predicate TexturableModel(model: ModelData) {
    IsValid(model) && model.texturePaths != [] && |model.texCoords| == |model.positions|
  }

  // ---------------------------------------------------------------------
  // Uploading the model's textures
  // ---------------------------------------------------------------------

  /**
   * What the system offers for one texture path: the decoder's failure
   * message, or the decoded RGBA pixels together with whether the texture
   * resource and its upload buffer can be created and the buffer mapped.
   */
  datatype TextureSource =
    | DecodeFailed(message: string)
    | Decoded(pixels: seq<byte>, resourceCreated: bool, uploadBufferCreated: bool, uploadMapped: bool)

  const ResourceError: string := "CreateCommittedResource for model texture failed"
  const UploadBufferError: string := "CreateCommittedResource for model texture upload buffer failed"
  const MapError: string := "Map for model texture upload buffer failed"
  const SrvError: string := "Failed to allocate SRV descriptor for model texture."

  /** The cache lists, the allocator, and the error that stopped the upload, if any. */
  datatype UploadState = UploadState(paths: seq<string>, textures: seq<CachedModelTexture>, srv: SrvState, error: Option<string>)

  /**
   * One decoded pass, told step by step: the entry, slot and allocator state
   * that the creation steps leave, and the error of the first step that
   * failed. The entry holds the slot just allocated, or none.
   */
  lemma UploadOneDecoded(heap: SrvHeap, st: UploadState, slots: seq<nat>, path: string, source: TextureSource,
                         entry: CachedModelTexture, srv': SrvState, slot: nat, failure: Option<string>)
    requires source.Decoded?
    requires WellFormed(st.srv) && CacheHoldsSlots(heap, st.textures, slots, st.srv)
    requires failure == (if !source.resourceCreated then Some(ResourceError)
                         else if !source.uploadBufferCreated then Some(UploadBufferError)
                         else if !source.uploadMapped then Some(MapError)
                         else if !Allocate(heap, st.srv).ok then Some(SrvError)
                         else None)
    requires entry.path == path && entry.hasTransparency == HasTransparency(source.pixels)
    requires failure.Some? ==>
      && srv' == st.srv && slot == 0
      && entry == CachedModelTexture(path, source.resourceCreated, source.resourceCreated && source.uploadBufferCreated,
                                     0, 0, entry.hasTransparency)
    requires failure.None? ==>
      var a := Allocate(heap, st.srv);
      && heap.SrvHeap? && srv' == a.state && slot == a.index
      && entry == CachedModelTexture(path, true, true, CpuHandle(heap, a.index), GpuHandle(heap, a.index), entry.hasTransparency)
    ensures UploadOne(heap, st, path, source) == UploadState(st.paths + [path], st.textures + [entry], srv', failure)
    ensures WellFormed(srv') && CacheHoldsSlots(heap, st.textures + [entry], slots + [slot], srv')
  {
    RecordedEntryHoldsSlot(heap, st.textures, slots, st.srv, entry, srv', slot, failure.None?);
  }

  /** A texture entry that holds the descriptor of `slot`. */
  predicate HoldsSlot(heap: SrvHeap, t: CachedModelTexture, slot: nat)
    requires heap.SrvHeap?
  {
    t.srvCpuDescriptor == CpuHandle(heap, slot) && t.srvGpuDescriptor == GpuHandle(heap, slot)
  }

  /**
   * One pass of the upload loop. A decode failure stops before anything is
   * recorded; past decoding, the path and its entry are recorded first and
   * then filled in, so a later failure leaves a recorded entry without a
   * descriptor.
   */
  function UploadOne(heap: SrvHeap, st: UploadState, path: string, source: TextureSource): (st': UploadState)
    ensures source.DecodeFailed? ==> st' == st.(error := Some(source.message))
    ensures source.Decoded? ==> st'.paths == st.paths + [path] && |st'.textures| == |st.textures| + 1
    ensures source.Decoded? ==> st'.textures[..|st.textures|] == st.textures
    ensures source.Decoded? ==> st'.textures[|st.textures|].path == path
    ensures source.Decoded? ==> st'.textures[|st.textures|].hasTransparency == HasTransparency(source.pixels)
    ensures st'.error.None? <==>
      source.Decoded? && source.resourceCreated && source.uploadBufferCreated && source.uploadMapped && Allocate(heap, st.srv).ok
    ensures source.Decoded? && st'.error.Some? ==> st'.srv == st.srv && st'.textures[|st.textures|].srvGpuDescriptor == 0
    ensures st'.error.None? ==>
      var a := Allocate(heap, st.srv);
      heap.SrvHeap? && st'.srv == a.state && HoldsSlot(heap, st'.textures[|st.textures|], a.index)
  {
    match source
    case DecodeFailed(message) => st.(error := Some(message))
    case Decoded(pixels, resourceCreated, uploadBufferCreated, uploadMapped) =>
      var hasTransparency := HasTransparency(pixels);
      var paths := st.paths + [path];
      if !resourceCreated then
        UploadState(paths, st.textures + [CachedModelTexture(path, false, false, 0, 0, hasTransparency)], st.srv, Some(ResourceError))
      else if !uploadBufferCreated then
        UploadState(paths, st.textures + [CachedModelTexture(path, true, false, 0, 0, hasTransparency)], st.srv, Some(UploadBufferError))
      else if !uploadMapped then
        UploadState(paths, st.textures + [CachedModelTexture(path, true, true, 0, 0, hasTransparency)], st.srv, Some(MapError))
      else
        var a := Allocate(heap, st.srv);
        if !a.ok then
          UploadState(paths, st.textures + [CachedModelTexture(path, true, true, 0, 0, hasTransparency)], st.srv, Some(SrvError))
        else
          var entry := CachedModelTexture(path, true, true, CpuHandle(heap, a.index), GpuHandle(heap, a.index), hasTransparency);
          UploadState(paths, st.textures + [entry], a.state, None)
  }

  /** The upload loop over the first `n` paths, stopping at the first failure. */
  function UploadPrefix(heap: SrvHeap, start: SrvState, paths: seq<string>, sources: string -> TextureSource, n: nat): UploadState
    requires n <= |paths|
  {
    if n == 0 then UploadState([], [], start, None)
    else
      var st := UploadPrefix(heap, start, paths, sources, n - 1);
      if st.error.Some? then st else UploadOne(heap, st, paths[n - 1], sources(paths[n - 1]))
  }

  /**
   * The slot each recorded entry holds after the upload loop over the first
   * `n` paths, 0 for an entry recorded without a descriptor.
   */
  function UploadSlots(heap: SrvHeap, start: SrvState, paths: seq<string>, sources: string -> TextureSource, n: nat): seq<nat>
    requires n <= |paths|
  {
    if n == 0 then []
    else
      var st := UploadPrefix(heap, start, paths, sources, n - 1);
      var slots := UploadSlots(heap, start, paths, sources, n - 1);
      if st.error.Some? || sources(paths[n - 1]).DecodeFailed? then slots
      else if UploadOne(heap, st, paths[n - 1], sources(paths[n - 1])).error.None?
      then slots + [Allocate(heap, st.srv).index]
      else slots + [0]
  }

  /**
   * After the upload loop over the first `n` paths the cache lists a prefix of
   * them, one entry per path and in path order, and every one of them
   * unless a failure stopped the loop.
   */
  predicate RecordsPaths(st: UploadState, paths: seq<string>, n: nat)
    requires n <= |paths|
  {
    && |st.paths| == |st.textures| <= n
    && st.paths == paths[..|st.paths|]
    && (forall k :: 0 <= k < |st.textures| ==> st.textures[k].path == st.paths[k])
    && (st.error.None? ==> |st.paths| == n)
  }

  lemma {:induction false} UploadPrefixShape(heap: SrvHeap, start: SrvState, paths: seq<string>, sources: string -> TextureSource, n: nat)
    requires n <= |paths|
    ensures RecordsPaths(UploadPrefix(heap, start, paths, sources, n), paths, n)
  {
    if n > 0 {
      UploadPrefixShape(heap, start, paths, sources, n - 1);
      var prev := UploadPrefix(heap, start, paths, sources, n - 1);
      if prev.error.None? {
        UploadOneRecordsPaths(heap, prev, paths, n, sources(paths[n - 1]));
      }
    }
  }

  /** The pass over the `n`-th path extends what the first `n - 1` passes recorded. */
  lemma UploadOneRecordsPaths(heap: SrvHeap, prev: UploadState, paths: seq<string>, n: nat, source: TextureSource)
    requires 0 < n <= |paths| && RecordsPaths(prev, paths, n - 1) && prev.error.None?
    ensures RecordsPaths(UploadOne(heap, prev, paths[n - 1], source), paths, n)
  {
    UploadOneKeepsPaths(heap, prev, paths[n - 1], source);
    if source.Decoded? {
      assert paths[..n] == prev.paths + [paths[n - 1]];
    }
  }

  /** One pass records the path and its entry together, or records nothing. */
  lemma UploadOneKeepsPaths(heap: SrvHeap, st: UploadState, path: string, source: TextureSource)
    requires |st.paths| == |st.textures|
    requires forall k :: 0 <= k < |st.textures| ==> st.textures[k].path == st.paths[k]
    ensures var st' := UploadOne(heap, st, path, source);
      && |st'.paths| == |st'.textures|
      && (forall k :: 0 <= k < |st'.textures| ==> st'.textures[k].path == st'.paths[k])
      && (source.Decoded? ==> st'.paths == st.paths + [path])
      && (source.DecodeFailed? ==> st'.paths == st.paths && st'.error.Some?)
  {
    var st' := UploadOne(heap, st, path, source);
    if source.Decoded? {
      forall k | 0 <= k < |st'.textures| ensures st'.textures[k].path == st'.paths[k] {
        if k < |st.textures| {
          assert st'.textures[k] == st'.textures[..|st.textures|][k];
        }
      }
    }
  }

  /**
   * Entry `k` holds slot `slots[k]`, or no descriptor at all when that is 0;
   * held slots are in the heap, in use, and distinct.
   */
  predicate CacheHoldsSlots(heap: SrvHeap, textures: seq<CachedModelTexture>, slots: seq<nat>, srv: SrvState) {
    && |slots| == |textures|
    && (forall k :: 0 <= k < |slots| && slots[k] == 0 ==>
          textures[k].srvCpuDescriptor == 0 && textures[k].srvGpuDescriptor == 0)
    && (forall k :: 0 <= k < |slots| && slots[k] != 0 ==>
          && heap.SrvHeap? && slots[k] < SrvDescriptorCount && HoldsSlot(heap, textures[k], slots[k])
          && slots[k] in InUse(srv))
    && (forall j, k :: 0 <= j < k < |slots| && slots[j] != 0 ==> slots[j] != slots[k])
  }

  /**
   * The allocator is well formed and every recorded entry's descriptor is
   * accounted for; without a failure every entry holds a descriptor.
   */
  predicate SlotsAccounted(heap: SrvHeap, st: UploadState, slots: seq<nat>) {
    && WellFormed(st.srv)
    && CacheHoldsSlots(heap, st.textures, slots, st.srv)
    && (st.error.None? ==> forall k :: 0 <= k < |st.textures| ==> slots[k] != 0)
  }

  /** The upload loop keeps every descriptor accounted for. */
  lemma {:induction false} UploadPrefixSlots(heap: SrvHeap, start: SrvState, paths: seq<string>, sources: string -> TextureSource, n: nat)
    requires n <= |paths| && WellFormed(start)
    ensures SlotsAccounted(heap, UploadPrefix(heap, start, paths, sources, n), UploadSlots(heap, start, paths, sources, n))
  {
    if n > 0 {
      UploadPrefixSlots(heap, start, paths, sources, n - 1);
      var prev := UploadPrefix(heap, start, paths, sources, n - 1);
      if prev.error.None? {
        UploadOneAccounts(heap, prev, UploadSlots(heap, start, paths, sources, n - 1), paths[n - 1], sources(paths[n - 1]));
      }
    }
  }

  /** One pass, after passes that all succeeded, keeps every descriptor accounted for. */
  lemma UploadOneAccounts(heap: SrvHeap, prev: UploadState, slots: seq<nat>, path: string, source: TextureSource)
    requires SlotsAccounted(heap, prev, slots) && prev.error.None?
    ensures SlotsAccounted(heap, UploadOne(heap, prev, path, source),
                           if source.DecodeFailed? then slots
                           else if UploadOne(heap, prev, path, source).error.None? then slots + [Allocate(heap, prev.srv).index]
                           else slots + [0])
  {
    UploadOneSlots(heap, prev, slots, path, source);
  }

  /** One pass keeps the allocator well formed and accounts for the entry it records. */
  lemma UploadOneSlots(heap: SrvHeap, st: UploadState, slots: seq<nat>, path: string, source: TextureSource)
    requires WellFormed(st.srv) && CacheHoldsSlots(heap, st.textures, slots, st.srv)
    ensures WellFormed(UploadOne(heap, st, path, source).srv)
    ensures source.DecodeFailed? ==> UploadOne(heap, st, path, source) == st.(error := Some(source.message))
    ensures source.Decoded? && UploadOne(heap, st, path, source).error.None? ==>
      && 1 <= Allocate(heap, st.srv).index
      && CacheHoldsSlots(heap, UploadOne(heap, st, path, source).textures, slots + [Allocate(heap, st.srv).index],
                         UploadOne(heap, st, path, source).srv)
    ensures source.Decoded? && UploadOne(heap, st, path, source).error.Some? ==>
      CacheHoldsSlots(heap, UploadOne(heap, st, path, source).textures, slots + [0], UploadOne(heap, st, path, source).srv)
  {
    var st' := UploadOne(heap, st, path, source);
    if source.Decoded? {
      var n := |st.textures|;
      assert st'.textures == st.textures + [st'.textures[n]];
      var slot := if st'.error.None? then Allocate(heap, st.srv).index else 0;
      RecordedEntryHoldsSlot(heap, st.textures, slots, st.srv, st'.textures[n], st'.srv, slot, st'.error.None?);
    }
  }

  /**
   * Recording an entry that either holds the slot just allocated or holds
   * none, with the allocator left as it was, keeps every descriptor accounted for.
   */
  lemma RecordedEntryHoldsSlot(heap: SrvHeap, textures: seq<CachedModelTexture>, slots: seq<nat>, srv: SrvState,
                               entry: CachedModelTexture, srv': SrvState, slot: nat, described: bool)
    requires WellFormed(srv) && CacheHoldsSlots(heap, textures, slots, srv)
    requires described ==>
      var a := Allocate(heap, srv);
      && a.ok && heap.SrvHeap? && srv' == a.state && slot == a.index && HoldsSlot(heap, entry, slot)
    requires !described ==> srv' == srv && slot == 0 && entry.srvCpuDescriptor == 0 && entry.srvGpuDescriptor == 0
    ensures WellFormed(srv') && CacheHoldsSlots(heap, textures + [entry], slots + [slot], srv')
    ensures described ==> 1 <= slot
  {
    if described {
      AllocateTakesFreeSlot(heap, srv);
    }
    AppendHeldSlot(heap, textures, slots, srv, srv', entry, slot);
  }

  /** Recording one more entry, with a fresh slot or none, keeps every descriptor accounted for. */
  lemma AppendHeldSlot(heap: SrvHeap, textures: seq<CachedModelTexture>, slots: seq<nat>, srv: SrvState, srv': SrvState,
                       t: CachedModelTexture, slot: nat)
    requires CacheHoldsSlots(heap, textures, slots, srv) && InUse(srv) <= InUse(srv')
    requires slot == 0 ==> t.srvCpuDescriptor == 0 && t.srvGpuDescriptor == 0
    requires slot != 0 ==> && heap.SrvHeap? && slot < SrvDescriptorCount && HoldsSlot(heap, t, slot)
                           && slot in InUse(srv') && slot !in InUse(srv)
    ensures CacheHoldsSlots(heap, textures + [t], slots + [slot], srv')
  {
    var slots' := slots + [slot];
    var textures' := textures + [t];
    assert forall k :: 0 <= k < |slots| ==> slots'[k] == slots[k] && textures'[k] == textures[k];
  }

  /** Once a failure stops the loop, the remaining paths change nothing. */
  lemma {:induction false} FailureIsFinal(heap: SrvHeap, start: SrvState, paths: seq<string>, sources: string -> TextureSource, m: nat, n: nat)
    requires m <= n <= |paths|
    requires UploadPrefix(heap, start, paths, sources, m).error.Some?
    ensures UploadPrefix(heap, start, paths, sources, n) == UploadPrefix(heap, start, paths, sources, m)
    decreases n - m
  {
    if m < n {
      FailureIsFinal(heap, start, paths, sources, m, n - 1);
    }
  }

  /** A descriptor handle the heap hands out is never null. */
  lemma EntryDescriptorNonNull(heap: SrvHeap, t: CachedModelTexture, slot: nat)
    requires heap.SrvHeap? && heap.cpuStart != 0 && heap.gpuStart != 0 && HoldsSlot(heap, t, slot)
    ensures t.srvCpuDescriptor != 0 && t.srvGpuDescriptor != 0
  {
  }

  /**
   * A failure after decoding the last path leaves every path recorded, so
   * the next call sees a cache hit although the last entry has no
   * descriptor: the texture is not retried and its submeshes are never
   * drawn textured.
   */
  lemma LateFailureOnLastPathIsCached(heap: SrvHeap, start: SrvState, model: ModelData, sources: string -> TextureSource)
    requires model.texturePaths != []
    requires var n := |model.texturePaths|;
      && UploadPrefix(heap, start, model.texturePaths, sources, n - 1).error.None?
      && sources(model.texturePaths[n - 1]).Decoded?
      && UploadPrefix(heap, start, model.texturePaths, sources, n).error.Some?
    ensures var st := UploadPrefix(heap, start, model.texturePaths, sources, |model.texturePaths|);
      && CacheHit(st.paths, st.textures, model)
      && st.textures[|st.textures| - 1].srvGpuDescriptor == 0
  {
    var n := |model.texturePaths|;
    var paths := model.texturePaths;
    UploadPrefixShape(heap, start, paths, sources, n - 1);
    var st := UploadPrefix(heap, start, paths, sources, n - 1);
    assert paths[..n - 1] + [paths[n - 1]] == paths;
    FailedUploadIsRecorded(heap, st, paths[n - 1], sources(paths[n - 1]), model);
  }

  /** A pass that fails after decoding the model's last path records that path, without a descriptor. */
  lemma FailedUploadIsRecorded(heap: SrvHeap, st: UploadState, path: string, source: TextureSource, model: ModelData)
    requires |st.paths| == |st.textures| && st.paths + [path] == model.texturePaths
    requires source.Decoded? && UploadOne(heap, st, path, source).error.Some?
    ensures var st' := UploadOne(heap, st, path, source);
      CacheHit(st'.paths, st'.textures, model) && st'.textures[|st'.textures| - 1].srvGpuDescriptor == 0
  {
  }

  // ---------------------------------------------------------------------
  // Releasing the cached textures
  // ---------------------------------------------------------------------

  /**
   * The allocator after `ReleaseModelTextures` has visited the first `n`
   * entries: an entry with either handle set returns its CPU handle.
   */
  function ReleasePrefix(heap: SrvHeap, s: SrvState, textures: seq<CachedModelTexture>, n: nat): SrvState
    requires n <= |textures|
  {
    if n == 0 then s
    else
      var s' := ReleasePrefix(heap, s, textures, n - 1);
      var t := textures[n - 1];
      if t.srvCpuDescriptor != 0 || t.srvGpuDescriptor != 0 then Free(heap, t.srvCpuDescriptor, s') else s'
  }

  /** The slots held by the first `n` entries. */
  function HeldSlots(slots: seq<nat>, n: nat): set<nat>
    requires n <= |slots|
  {
    set k | 0 <= k < n && slots[k] != 0 :: slots[k]
  }

  /**
   * Releasing entries whose descriptors are accounted for returns exactly
   * their slots to the allocator and keeps it well formed.
   */
  lemma {:induction false} ReleaseReturnsSlots(heap: SrvHeap, s: SrvState, textures: seq<CachedModelTexture>, slots: seq<nat>, n: nat)
    requires heap.SrvHeap? ==> Usable(heap) && heap.cpuStart != 0 && heap.gpuStart != 0
    requires WellFormed(s) && n <= |textures| && CacheHoldsSlots(heap, textures, slots, s)
    ensures WellFormed(ReleasePrefix(heap, s, textures, n))
    ensures InUse(ReleasePrefix(heap, s, textures, n)) == InUse(s) - HeldSlots(slots, n)
  {
    if n > 0 {
      ReleaseReturnsSlots(heap, s, textures, slots, n - 1);
      var s' := ReleasePrefix(heap, s, textures, n - 1);
      var slot := slots[n - 1];
      if slot != 0 {
        EntryDescriptorNonNull(heap, textures[n - 1], slot);
        assert slot !in HeldSlots(slots, n - 1);
        FreeReturnsSlot(heap, s', slot);
        assert HeldSlots(slots, n) == HeldSlots(slots, n - 1) + {slot};
      } else {
        assert HeldSlots(slots, n) == HeldSlots(slots, n - 1);
      }
    }
  }
}

=== FILE: textured_triangles.dfy ===
/**
 * The textured pass of the native Direct3D 12 `RenderModelWireframe`: which
 * submeshes are drawn textured, whether each counts as transparent, and the
 * triangles built from their index ranges (NativeDx12Renderer.cpp, the
 * submesh loop before the sort).
 */
module TexturedTriangles {
  import opened Wrappers
  import opened Models
  import opened NativeWire
  import opened TextureCache
  import FbxLoader

  /**
   * A vertex of the textured pass: position, flipped texture coordinate, and
   * the submesh's sign-encoded opacity (`alpha`) and alpha cutoff (`padding`).
   */
  datatype TexturedVertex = TexturedVertex(x: real, y: real, z: real, w: real, u: real, v: real, alpha: real, padding: real)

  /** One triangle queued for drawing, with the descriptor handles it binds and its sort key. */
  datatype TexturedTriangle = TexturedTriangle(
    v0: TexturedVertex, v1: TexturedVertex, v2: TexturedVertex,
    colorTextureHandle: nat, opacityTextureHandle: nat,
    depthKey: real, isTransparent: bool)

  /** Opacities at or above this count as opaque. */
  const OpaqueOpacity: real := 0.999

  /** A submesh is drawn textured when its colour texture is cached with a descriptor and it spans a triangle. */
  predicate SubmeshDrawable(sub: ModelSubmesh, textures: seq<CachedModelTexture>) {
    0 <= sub.textureIndex < |textures| && textures[sub.textureIndex].srvGpuDescriptor != 0 && sub.indexCount >= 3
  }

  /** The separate opacity texture, when the index is in range and that texture has a descriptor. */
  function OpacityTexture(sub: ModelSubmesh, textures: seq<CachedModelTexture>): (t: Option<CachedModelTexture>)
    ensures t.Some? ==> t.value.srvGpuDescriptor != 0
  {
    if 0 <= sub.opacityTextureIndex < |textures| && textures[sub.opacityTextureIndex].srvGpuDescriptor != 0
    then Some(textures[sub.opacityTextureIndex]) else None
  }

  /** The transparency classification of a drawn submesh. */
  predicate SubmeshTransparent(sub: ModelSubmesh, color: CachedModelTexture, opacity: Option<CachedModelTexture>) {
    || sub.alphaCutoutEnabled
    || sub.isTransparent
    || color.hasTransparency
    || (opacity.Some? && opacity.value.hasTransparency)
    || Clamp01(sub.opacity) < OpaqueOpacity
  }

  /**
   * For submeshes as the importer builds them, the classification reduces to
   * the material: a submesh is drawn transparent exactly when it has an
   * opacity texture, its opacity is below 0.999, or one of its textures has a
   * translucent pixel.
   */
  lemma ImportedSubmeshClassification(sub: ModelSubmesh, color: CachedModelTexture, opacity: Option<CachedModelTexture>)
    requires FbxLoader.MaterialFlagsConsistent(sub)
    ensures SubmeshTransparent(sub, color, opacity) <==>
      || sub.opacityTextureIndex != -1
      || sub.opacity < OpaqueOpacity
      || color.hasTransparency
      || (opacity.Some? && opacity.value.hasTransparency)
  {
  }

  function Abs(r: real): real {
    if r < 0.0 then -r else r
  }

  /**
   * The opacity every vertex of a submesh carries: the clamped opacity,
   * negated for an alpha-cutout material so that the shader can tell the two
   * apart by the sign.
   */
  function EncodedOpacity(sub: ModelSubmesh): (alpha: real)
    ensures Abs(alpha) == Clamp01(sub.opacity)
    ensures alpha < 0.0 ==> sub.alphaCutoutEnabled
    ensures sub.alphaCutoutEnabled && sub.opacity > 0.0 ==> alpha < 0.0
  {
    if sub.alphaCutoutEnabled then -Clamp01(sub.opacity) else Clamp01(sub.opacity)
  }

  /** The alpha cutoff every vertex of a submesh carries: clamped, and negated when the opacity texture is inverted. */
  function EncodedCutoff(sub: ModelSubmesh): (padding: real)
    ensures Abs(padding) == Clamp01(sub.alphaCutoff)
    ensures padding < 0.0 ==> sub.opacityTextureInverted
    ensures sub.opacityTextureInverted && sub.alphaCutoff > 0.0 ==> padding < 0.0
  {
    if sub.opacityTextureInverted then -Clamp01(sub.alphaCutoff) else Clamp01(sub.alphaCutoff)
  }

  function TexturedVertexOf(p: ClipVertex, uv: Vec2, style: SubmeshStyle): TexturedVertex {
    TexturedVertex(p.x, p.y, p.z, 1.0, 1.0 - uv.u, 1.0 - uv.v, style.encodedOpacity, style.encodedCutoff)
  }

  /** The triangle at `index` has all its vertices projected validly and a texture coordinate each. */
  predicate TriangleUsable(model: ModelData, projected: seq<ClipVertex>, index: nat)
    requires index + 2 < |model.indices|
  {
    var i0, i1, i2 := model.indices[index], model.indices[index + 1], model.indices[index + 2];
    && i0 < |projected| && i1 < |projected| && i2 < |projected|
    && i0 < |model.texCoords| && i1 < |model.texCoords| && i2 < |model.texCoords|
    && projected[i0].valid && projected[i1].valid && projected[i2].valid
  }

  /** Handles and classification shared by every triangle of one submesh. */
  datatype SubmeshStyle = SubmeshStyle(colorTextureHandle: nat, opacityTextureHandle: nat, isTransparent: bool,
                                       encodedOpacity: real, encodedCutoff: real)

  function MakeTriangle(model: ModelData, projected: seq<ClipVertex>, index: nat, style: SubmeshStyle): TexturedTriangle
    requires index + 2 < |model.indices| && TriangleUsable(model, projected, index)
  {
    var i0, i1, i2 := model.indices[index], model.indices[index + 1], model.indices[index + 2];
    TexturedTriangle(
      TexturedVertexOf(projected[i0], model.texCoords[i0], style),
      TexturedVertexOf(projected[i1], model.texCoords[i1], style),
      TexturedVertexOf(projected[i2], model.texCoords[i2], style),
      style.colorTextureHandle, style.opacityTextureHandle,
      (projected[i0].z + projected[i1].z + projected[i2].z) / 3.0,
      style.isTransparent)
  }

  /** The triangles built from the first `t` triangle slots from `start` on. */
  function RangeTriangles(model: ModelData, projected: seq<ClipVertex>, start: nat, t: nat, style: SubmeshStyle): seq<TexturedTriangle>
    requires t == 0 || start + 3 * (t - 1) + 2 < |model.indices|
  {
    if t == 0 then []
    else
      var index := start + 3 * (t - 1);
      RangeTriangles(model, projected, start, t - 1, style) +
        (if TriangleUsable(model, projected, index) then [MakeTriangle(model, projected, index, style)] else [])
  }

  /** The style a drawable submesh gives its triangles. */
  function StyleOf(sub: ModelSubmesh, textures: seq<CachedModelTexture>): SubmeshStyle
    requires SubmeshDrawable(sub, textures)
  {
    var color := textures[sub.textureIndex];
    var opacity := OpacityTexture(sub, textures);
    SubmeshStyle(color.srvGpuDescriptor,
                 if opacity.Some? then opacity.value.srvGpuDescriptor else color.srvGpuDescriptor,
                 SubmeshTransparent(sub, color, opacity),
                 EncodedOpacity(sub), EncodedCutoff(sub))
  }

  /** The triangles one submesh contributes: none when not drawable or when its range overruns the index buffer. */
  function SubmeshTriangles(model: ModelData, projected: seq<ClipVertex>, textures: seq<CachedModelTexture>, sub: ModelSubmesh): seq<TexturedTriangle>
  {
    if !SubmeshDrawable(sub, textures) || sub.indexStart + sub.indexCount > |model.indices| then []
    else RangeTriangles(model, projected, sub.indexStart, sub.indexCount / 3, StyleOf(sub, textures))
  }

  /** The triangles of the first `n` submeshes, in submesh order. */
  function AllTriangles(model: ModelData, projected: seq<ClipVertex>, textures: seq<CachedModelTexture>, n: nat): seq<TexturedTriangle>
    requires n <= |model.submeshes|
  {
    if n == 0 then []
    else AllTriangles(model, projected, textures, n - 1) + SubmeshTriangles(model, projected, textures, model.submeshes[n - 1])
  }

  /** All three vertices carry the style's encoded opacity and cutoff. */
  predicate EncodedWith(tri: TexturedTriangle, alpha: real, padding: real) {
    && tri.v0.alpha == alpha && tri.v0.padding == padding
    && tri.v1.alpha == alpha && tri.v1.padding == padding
    && tri.v2.alpha == alpha && tri.v2.padding == padding
  }

  /** Every triangle of a range carries the style of its submesh, and there is at most one per slot. */
  lemma {:induction false} RangeTrianglesStyle(model: ModelData, projected: seq<ClipVertex>, start: nat, t: nat, style: SubmeshStyle)
    requires t == 0 || start + 3 * (t - 1) + 2 < |model.indices|
    ensures |RangeTriangles(model, projected, start, t, style)| <= t
    ensures forall k :: 0 <= k < |RangeTriangles(model, projected, start, t, style)| ==>
      RangeTriangles(model, projected, start, t, style)[k].colorTextureHandle == style.colorTextureHandle &&
      RangeTriangles(model, projected, start, t, style)[k].opacityTextureHandle == style.opacityTextureHandle &&
      RangeTriangles(model, projected, start, t, style)[k].isTransparent == style.isTransparent
    ensures forall k :: 0 <= k < |RangeTriangles(model, projected, start, t, style)| ==>
      EncodedWith(RangeTriangles(model, projected, start, t, style)[k], style.encodedOpacity, style.encodedCutoff)
  {
    if t > 0 {
      RangeTrianglesStyle(model, projected, start, t - 1, style);
    }
  }

  /**
   * Every queued triangle binds live descriptors: its colour handle and its
   * opacity handle are those of cached textures with a descriptor.
   */
  lemma {:induction false} TrianglesBindLiveDescriptors(model: ModelData, projected: seq<ClipVertex>, textures: seq<CachedModelTexture>, n: nat)
    requires n <= |model.submeshes|
    ensures forall k :: 0 <= k < |AllTriangles(model, projected, textures, n)| ==>
      AllTriangles(model, projected, textures, n)[k].colorTextureHandle != 0 &&
      AllTriangles(model, projected, textures, n)[k].opacityTextureHandle != 0
  {
    if n > 0 {
      TrianglesBindLiveDescriptors(model, projected, textures, n - 1);
      var sub := model.submeshes[n - 1];
      if SubmeshDrawable(sub, textures) && sub.indexStart + sub.indexCount <= |model.indices| {
        RangeTrianglesStyle(model, projected, sub.indexStart, sub.indexCount / 3, StyleOf(sub, textures));
      }
    }
  }

  /** A submesh queues at most one triangle per three of its indices, each classified like the submesh. */
  lemma SubmeshTrianglesShape(model: ModelData, projected: seq<ClipVertex>, textures: seq<CachedModelTexture>, sub: ModelSubmesh)
    ensures |SubmeshTriangles(model, projected, textures, sub)| <= sub.indexCount / 3
    ensures forall k :: 0 <= k < |SubmeshTriangles(model, projected, textures, sub)| ==>
      SubmeshTriangles(model, projected, textures, sub)[k].isTransparent ==
        SubmeshTransparent(sub, textures[sub.textureIndex], OpacityTexture(sub, textures))
    ensures forall k :: 0 <= k < |SubmeshTriangles(model, projected, textures, sub)| ==>
      EncodedWith(SubmeshTriangles(model, projected, textures, sub)[k], EncodedOpacity(sub), EncodedCutoff(sub))
  {
    if SubmeshDrawable(sub, textures) && sub.indexStart + sub.indexCount <= |model.indices| {
      RangeTrianglesStyle(model, projected, sub.indexStart, sub.indexCount / 3, StyleOf(sub, textures));
    }
  }

  /** The inner loop: one submesh's range, stride 3, skipping unusable triangles. */
  method AppendRangeTriangles(model: ModelData, projected: seq<ClipVertex>, indexStart: nat, indexEnd: nat,
                              style: SubmeshStyle, triangles: seq<TexturedTriangle>)
    returns (triangles': seq<TexturedTriangle>)
    requires indexStart <= indexEnd <= |model.indices|
    ensures triangles' == triangles + RangeTriangles(model, projected, indexStart, (indexEnd - indexStart) / 3, style)
  {
    triangles' := triangles;
    var index := indexStart;
    ghost var t := 0;
    while index + 2 < indexEnd
      invariant index == indexStart + 3 * t && index <= indexEnd
      invariant triangles' == triangles + RangeTriangles(model, projected, indexStart, t, style)
      decreases indexEnd - index
    {
      if TriangleUsable(model, projected, index) {
        triangles' := triangles' + [MakeTriangle(model, projected, index, style)];
      }
      index := index + 3;
      t := t + 1;
    }
    assert t == (indexEnd - indexStart) / 3;
  }

  /** The submesh loop: every submesh's triangles, in submesh order. */
  method BuildTexturedTriangles(model: ModelData, projected: seq<ClipVertex>, textures: seq<CachedModelTexture>)
    returns (triangles: seq<TexturedTriangle>)
    ensures triangles == AllTriangles(model, projected, textures, |model.submeshes|)
  {
    triangles := [];
    for s := 0 to |model.submeshes|
      invariant triangles == AllTriangles(model, projected, textures, s)
    {
      var sub := model.submeshes[s];
      if sub.textureIndex < 0 || sub.textureIndex >= |textures| {
        continue;
      }
      var texture := textures[sub.textureIndex];
      if texture.srvGpuDescriptor == 0 || sub.indexCount < 3 {
        continue;
      }
      var opacityTexture := OpacityTexture(sub, textures);
      var submeshIsTransparent := SubmeshTransparent(sub, texture, opacityTexture);
      var indexStart := sub.indexStart;
      var indexEnd := indexStart + sub.indexCount;
      if indexEnd > |model.indices| {
        continue;
      }
      var style := SubmeshStyle(texture.srvGpuDescriptor,
        if opacityTexture.Some? then opacityTexture.value.srvGpuDescriptor else texture.srvGpuDescriptor,
        submeshIsTransparent, EncodedOpacity(sub), EncodedCutoff(sub));
      assert style == StyleOf(sub, textures);
      triangles := AppendRangeTriangles(model, projected, indexStart, indexEnd, style, triangles);
    }
  }
}

=== FILE: vertex_buffers.dfy ===
/**
 * Capacity bookkeeping of the native Direct3D 12 renderer's two upload
 * vertex buffers (`EnsureWireVertexBuffer` / `EnsureTexturedVertexBuffer`):
 * a buffer is recreated only when it is missing or too small, and then with
 * room for at least 8192 more vertices than before. Capacities are `UINT`s,
 * so the `+ 8192` wraps modulo 2^32.
 */
module VertexBuffers {
  import opened Models

  /** The minimum growth, in vertices, of a recreated buffer. */
  const GrowthStep: nat := 8192

  /** Whether the buffer resource exists, and its capacity in vertices. */
  datatype VertexBuffer = VertexBuffer(present: bool, capacity: nat)

  /** The state before the first allocation and after `Shutdown`. */
  const NoBuffer: VertexBuffer := VertexBuffer(false, 0)

  /** A capacity fits a `UINT`, and a missing buffer has capacity 0. */
  predicate BufferValid(b: VertexBuffer) {
    b.capacity < Uint32Modulus && (!b.present ==> b.capacity == 0)
  }

  /** Nothing to do: no vertices requested, or an existing buffer already large enough. */
  predicate LargeEnough(b: VertexBuffer, required: nat) {
    required == 0 || (b.present && b.capacity >= required)
  }

  /** The capacity of a recreated buffer: `max(required, capacity + 8192)` in 32-bit arithmetic. */
  function GrownCapacity(b: VertexBuffer, required: nat): (c: nat)
    requires required < Uint32Modulus && b.capacity < Uint32Modulus
    ensures required <= c < Uint32Modulus
    ensures b.capacity + GrowthStep < Uint32Modulus ==> c >= b.capacity + GrowthStep
  {
    var stepped := (b.capacity + GrowthStep) % Uint32Modulus;
    if required > stepped then required else stepped
  }

  /** The outcome of one `Ensure*VertexBuffer` call. */
  datatype Ensured = Ensured(ok: bool, buffer: VertexBuffer)

  /**
   * One call, given whether creating the new resource would succeed: a
   * buffer that is large enough is kept; otherwise a new one is created, and
   * a failed creation leaves the old buffer and capacity in place.
   */
  function EnsureCapacity(b: VertexBuffer, required: nat, creationSucceeds: bool): Ensured
    requires required < Uint32Modulus && b.capacity < Uint32Modulus
  {
    if LargeEnough(b, required) then Ensured(true, b)
    else if !creationSucceeds then Ensured(false, b)
    else Ensured(true, VertexBuffer(true, GrownCapacity(b, required)))
  }

  /**
   * A successful call leaves room for the request; a call fails only when a
   * creation was needed and failed, and then changes nothing; the capacity
   * never shrinks and strictly grows whenever a buffer is recreated.
   */
  lemma EnsureCapacitySpec(b: VertexBuffer, required: nat, creationSucceeds: bool)
    requires BufferValid(b) && required < Uint32Modulus
    ensures var e := EnsureCapacity(b, required, creationSucceeds);
      && BufferValid(e.buffer)
      && (e.ok <==> LargeEnough(b, required) || creationSucceeds)
      && (e.ok ==> LargeEnough(e.buffer, required))
      && (!e.ok ==> e.buffer == b)
      && (LargeEnough(b, required) ==> e.buffer == b)
      && e.buffer.capacity >= b.capacity
      && (e.buffer != b ==> e.buffer.present && e.buffer.capacity > b.capacity)
  {
  }

  /** Asking again for what was just granted is a no-op. */
  lemma EnsureCapacityIdempotent(b: VertexBuffer, required: nat, first: bool, second: bool)
    requires BufferValid(b) && required < Uint32Modulus
    requires EnsureCapacity(b, required, first).ok
    ensures var b' := EnsureCapacity(b, required, first).buffer;
      EnsureCapacity(b', required, second) == Ensured(true, b')
  {
  }

  /**
   * Near the top of the `UINT` range the `+ 8192` wraps, yet a recreated
   * buffer still holds the request and is larger than the old one, because
   * only a present buffer can be near that range and it was recreated for
   * being too small.
   */
  lemma WrapStillGrows(b: VertexBuffer, required: nat)
    requires BufferValid(b) && required < Uint32Modulus && !LargeEnough(b, required)
    requires b.capacity + GrowthStep >= Uint32Modulus
    ensures GrownCapacity(b, required) == required
    ensures GrownCapacity(b, required) > b.capacity
  {
  }
}

=== FILE: viewing.dfy ===
/**
 * What both wireframe paths share before any projection: the clamped camera
 * distance, the viewport aspect ratio and the model-view-projection transform.
 * The rotation, look-at and perspective matrices are floating-point matrix
 * algebra and are not modelled; `Transform` stands for their product applied
 * to a point, giving homogeneous clip coordinates.
 */
module Viewing {
  import opened Models

  const MinCameraDistance: real := 1.0
  const MaxCameraDistance: real := 20.0

  /** `std::clamp(cameraDistance, 1, 20)`. */
  function ClampDistance(distance: real): (r: real)
    ensures MinCameraDistance <= r <= MaxCameraDistance
    ensures MinCameraDistance <= distance <= MaxCameraDistance ==> r == distance
    ensures distance < MinCameraDistance ==> r == MinCameraDistance
    ensures MaxCameraDistance < distance ==> r == MaxCameraDistance
  {
    if distance < MinCameraDistance then MinCameraDistance
    else if MaxCameraDistance < distance then MaxCameraDistance
    else distance
  }

  /** The inputs of the model-view-projection matrix, after clamping. */
  datatype Camera = Camera(yawDegrees: real, pitchDegrees: real, rollDegrees: real,
                           clampedDistance: real, aspectRatio: real)

  datatype ClipCoords = ClipCoords(x: real, y: real, z: real, w: real)

  /** The model-view-projection product applied to a model-space point. */
  type Transform = (Camera, Vec3) -> ClipCoords

  /** Below this w a point is behind (or on) the eye and is not projected. */
  const MinClipW: real := 0.0001

  /** The camera a render call builds from its angles, distance and viewport size. */
  function CameraFor(yawDegrees: real, pitchDegrees: real, rollDegrees: real, cameraDistance: real,
                     viewportWidth: int, viewportHeight: int): (camera: Camera)
    requires viewportHeight > 0
    ensures camera.clampedDistance == ClampDistance(cameraDistance)
    ensures MinCameraDistance <= camera.clampedDistance <= MaxCameraDistance
    ensures camera.yawDegrees == yawDegrees && camera.pitchDegrees == pitchDegrees && camera.rollDegrees == rollDegrees
    ensures camera.aspectRatio * viewportHeight as real == viewportWidth as real
  {
    Camera(yawDegrees, pitchDegrees, rollDegrees, ClampDistance(cameraDistance),
           viewportWidth as real / viewportHeight as real)
  }
}

=== FILE: wrappers.dfy ===
/** Optional values, as `std::optional` and nullable pointers are used by the viewer. */
module Wrappers {
  datatype Option<+T> = None | Some(value: T)
}
